=== FILE: README.md ===
# Boat game core, modelled in Dafny

This project models the gameplay bookkeeping of a Unity boat game: the
inventory, the fishing minigame, the boat's hull and movement gate, gold
and upgrades, the world clock, the thunder and shark pools, and the shark's
state machine. Everything is an immutable record with pure step functions.
Floats are Dafny `real`s. Frame times, key states, random draws and scene
lookups are arguments. The gameplay rules of each C# method are proved as
contracts and lemmas.

Three classes exist in two versions and each version has its own module:
- `Fishing` / `LegacyFishing`: Assets/Script/Fishing.cs and the older Assets/Script/Player/Fishing.cs.
- `BoatController` / `LegacyBoatController`: Assets/Script/Player/BoatController.cs and Assets/Script/BoatController.cs.
- `InventoryManager` / `LegacyInventoryManager`: Assets/Script/Inventory/InventoryManager.cs and Assets/Script/InventoryManager.cs.

Shared pieces have one definition each:
- `SlotList` holds the slot-list logic both inventory managers contain word for word.
- `FishingMath` holds the progress, reel-power and tension formulas both fishing files contain word for word.
- `SpawnSearch` holds the ten-try spot search both spawners contain word for word.

Coroutines become explicit pending events that the caller resumes in any order:
- the bite check and the two-second reel window of the fishing game;
- the warning and cooldown waits of a disaster;
- the end of a knockback and the delayed speed reset.

The source gives a coroutine no session token, so the model gives it none. Several consequences follow and are proved:
- A bite check left over from a cancelled throw still hooks a fish (`Fishing.StaleBiteSurvivesCancel`).
- `StopAllDisasters` does not stop a disaster that is waiting at its warning (`DisasterManager.StopLeavesDisasterInFlight`).

Other behaviours of the code as written that the model keeps and proves:
- With the newer boat, the moving-boat cancel of the fishing game can never fire. Update disables movement first, and that boat's `IsMoving` needs movement enabled (`Fishing.OwnBoatNeverCancels`).
- Thunders struck by a disaster are destroyed without leaving DisasterManager's list. After `maxThunders` strikes, no further disaster strikes until `StopAllDisasters` (`DisasterManager.FullListStrikesNothing`).
- A shark placed without `Init` has a life timer of 0 and dies on its first frame (`EnemyAI.UninitialisedSharkDiesAtOnce`).
- The shark spawner's fallback `Invoke("SpawnShark", 2f)` names a method the class does not have, so a failed spot search spawns nothing.
- Removal in both inventory managers needs a single slot holding the whole amount, while `HasItem` sums over all slots (`SlotList.EnoughButWithdrawFails`).

## Model

| member | source | states |
|---|---|---|
| InventorySlot.EmptySlot | Assets/Script/Inventory/InventorySlot.cs:10-14 | A default slot holds no item and amount 0, so it is empty |
| InventorySlot.IsEmpty | Assets/Script/Inventory/InventorySlot.cs:38-41 | A slot is empty without an item or with a non-positive amount; a default or cleared slot is empty (EmptySlot, Clear) |
| InventorySlot.AddAmount | Assets/Script/Inventory/InventorySlot.cs:22-25 | The item is kept and the amount grows by exactly the value, with no stack check of its own; RemoveAmount undoes it (AddThenRemove) |
| InventorySlot.RemoveAmount | Assets/Script/Inventory/InventorySlot.cs:27-30 | The item is kept, even at an amount of 0 or below, and the amount falls by exactly the value |
| InventorySlot.CanAddAmount | Assets/Script/Inventory/InventorySlot.cs:43-47 | Its meaning is stated by CanAddAmountMeaning: only a stackable item may grow, and only within maxStackSize |
| InventorySlot.Clear | Assets/Script/Inventory/InventorySlot.cs:32-36 | Whatever the slot held, afterwards it is empty and equal to a default slot |
| InventorySlot.AddThenRemove | Assets/Script/Inventory/InventorySlot.cs:22-30 | Removing the amount just added gives back the original slot; neither operation changes the item |
| InventorySlot.EmptySlotRefusesAdd | Assets/Script/Inventory/InventorySlot.cs:10-14 | A default slot is empty and accepts no amount at all |
| InventorySlot.CanAddAmountMeaning | Assets/Script/Inventory/InventorySlot.cs:43-47 | A null or non-stackable item refuses every amount; a stackable one accepts exactly when the grown amount stays within maxStackSize |
| SlotList.FirstWhere | Assets/Script/Inventory/InventoryManager.cs:113-137 | The scan returns the first slot satisfying the test, and none exactly when no slot does |
| SlotList.EmptySlots | Assets/Script/InventoryManager.cs:29-32 | The initialisation loop yields max(n, 0) default slots |
| SlotList.Place | Assets/Script/Inventory/InventoryManager.cs:105-141 | A null item fails with no change. A stackable item goes onto the first stack of that item that can take the amount, changing only that slot. Otherwise the item and amount go into the first empty slot, uncapped. With neither, it fails and nothing changes. The slot count never changes |
| SlotList.Taken | Assets/Script/Inventory/InventoryManager.cs:149-157 | A slot left empty by the removal is cleared; otherwise it keeps its item with the amount reduced |
| SlotList.Withdraw | Assets/Script/Inventory/InventoryManager.cs:143-165 | Withdrawal succeeds exactly when some single slot holds at least the amount. It then takes the amount from the first such slot only; when it fails the list is unchanged |
| SlotList.Count | Assets/Script/Inventory/InventoryManager.cs:176-187 | The summing loop computes the total amount over all slots of the item |
| SlotList.TotalUpdate | Assets/Script/Inventory/InventoryManager.cs:176-187 | Replacing one slot changes an item's total by the new slot's contribution minus the old one's |
| SlotList.TotalAtLeastOne | Assets/Script/Inventory/InventoryManager.cs:176-187 | When no slot of the item holds a negative amount, the total is at least any one slot's amount |
| SlotList.TotalNonNegative | Assets/Script/Inventory/InventoryManager.cs:176-187 | When no slot of the item holds a negative amount, the total is not negative |
| SlotList.TotalOfEmptySlots | Assets/Script/InventoryManager.cs:29-32 | Freshly created slots contribute nothing to any item's total |
| SlotList.TotalAppend | Assets/Script/InventoryManager.cs:96-107 | The total over two lists placed end to end is the sum of their totals |
| SlotList.PlaceTotals | Assets/Script/Inventory/InventoryManager.cs:105-141 | On a list whose empty slots are cleared, a successful add raises the item's total by exactly the amount and leaves every other item's total unchanged |
| SlotList.PlaceKeepsTidy | Assets/Script/Inventory/InventoryManager.cs:127-137 | Adding a positive amount keeps every empty slot a cleared default slot |
| SlotList.WithdrawKeepsTidy | Assets/Script/Inventory/InventoryManager.cs:149-157 | A removal keeps every empty slot a cleared default slot |
| SlotList.WithdrawTotal | Assets/Script/Inventory/InventoryManager.cs:143-165 | A successful removal lowers the item's total by exactly the amount |
| SlotList.WithdrawImpliesEnough | Assets/Script/Inventory/InventoryManager.cs:143-187 | When a removal succeeds and no slot is negative, HasItem for the same amount also holds |
| SlotList.EnoughButWithdrawFails | Assets/Script/Inventory/InventoryManager.cs:145-147 | The converse fails: two slots of one fish each make HasItem(fish, 2) true while RemoveItem(fish, 2) fails |
| InventoryManager.Awake | Assets/Script/Inventory/InventoryManager.cs:35-41 | An empty serialized list is filled with inventorySize default slots, a non-empty one is kept, and the hand starts empty. A filled list holds only default slots |
| InventoryManager.ClearActiveHandItem | Assets/Script/Inventory/InventoryManager.cs:95-103 | The hand ends empty and the slots are untouched. A non-empty hand becomes the default slot; an already empty hand leaves the inventory unchanged |
| InventoryManager.ResetInventoryState | Assets/Script/Inventory/InventoryManager.cs:44-53 | Every slot becomes the default slot and the slot count is kept. The hand ends as ClearActiveHandItem leaves it |
| InventoryManager.SetActiveHandItem | Assets/Script/Inventory/InventoryManager.cs:65-93 | An index outside the list fails with no change. An empty slot, or the item already in hand, gives exactly ClearActiveHandItem. Otherwise only the hand changes, to one unit of the slot's item. The slots never change |
| InventoryManager.AwakeIsTidy | Assets/Script/Inventory/InventoryManager.cs:35-41 | In the list Awake fills, every empty slot is a cleared default slot, and no item has a positive total |
| InventoryManager.ResetIsTidyAndEmpty | Assets/Script/Inventory/InventoryManager.cs:44-53 | In the reset list, every empty slot is a cleared default slot, and no item has a positive total |
| InventoryManager.SelectTwiceClearsHand | Assets/Script/Inventory/InventoryManager.cs:65-93 | Selecting the same non-empty slot twice, from a hand not holding its item, first takes one unit in hand and then returns the default empty hand |
| InventoryManager.AddItem | Assets/Script/Inventory/InventoryManager.cs:105-141 | Adding is exactly the shared placement on the slots, and the hand is never touched |
| InventoryManager.RemoveItem | Assets/Script/Inventory/InventoryManager.cs:143-165 | Removal succeeds exactly when one slot alone holds the amount. A failure changes nothing. When the taken slot empties and the hand holds that item, the hand is cleared too |
| InventoryManager.GetSlot | Assets/Script/Inventory/InventoryManager.cs:167-174 | A slot is returned exactly for an index inside the list, and it is the slot at that index |
| InventoryManager.HasItem | Assets/Script/Inventory/InventoryManager.cs:176-187 | True exactly when the amount summed over every slot of the item covers the request |
| InventoryManager.UseItem | Assets/Script/Inventory/InventoryManager.cs:189-230 | Using succeeds exactly for a consumable held in stock, used on a present boat below full health. Success heals the boat by the item's healAmount and does what RemoveItem(item, 1) does. Failure changes nothing |
| InventoryManager.HandClearedDespiteOtherStack | Assets/Script/Inventory/InventoryManager.cs:149-157 | Emptying one stack clears the hand holding that item even though another stack of it remains |
| InventoryManager.UseItemConsumesOne | Assets/Script/Inventory/InventoryManager.cs:189-230 | A consumable in stock used on a damaged boat succeeds, heals it, and leaves what RemoveItem(item, 1) leaves |
| InventoryManager.UseItemTotal | Assets/Script/Inventory/InventoryManager.cs:189-230 | A successful use lowers the item's total by exactly one |
| LegacyInventoryManager.Awake | Assets/Script/InventoryManager.cs:17-32 | inventorySize default slots are appended after whatever the scene serialized, even a non-empty list |
| LegacyInventoryManager.AddItem | Assets/Script/InventoryManager.cs:35-67 | Adding is exactly the shared first-fit placement |
| LegacyInventoryManager.RemoveItem | Assets/Script/InventoryManager.cs:69-85 | Removal succeeds exactly when one slot alone holds the amount, and takes it from the first such slot; a null item is allowed |
| LegacyInventoryManager.GetSlot | Assets/Script/InventoryManager.cs:87-94 | A slot is returned exactly for an index inside the list, and it is the slot at that index |
| LegacyInventoryManager.HasItem | Assets/Script/InventoryManager.cs:96-107 | True exactly when the summed amount of the item covers the request |
| LegacyInventoryManager.AwakeKeepsTotals | Assets/Script/InventoryManager.cs:29-32 | The appended slots change no item's total |
| LegacyInventoryManager.AwakeTwiceGrows | Assets/Script/InventoryManager.cs:29-32 | A second Awake with the default size of 12 appends 12 more slots: the list is not guarded |
| LegacyInventoryManager.NullRemoveSucceeds | Assets/Script/InventoryManager.cs:69-85 | Removing 0 of the null item from a default slot succeeds |
| FishingMath.NewFish | Assets/Script/Fishing.cs:8-25 | A new fish keeps its name, weight and size, and starts with no item and strength 0.5 |
| FishingMath.BalanceAccuracy | Assets/Script/Fishing.cs:437 | Accuracy is at most 1, and equals 1 exactly on target |
| FishingMath.ProgressStep | Assets/Script/Fishing.cs:432-462 | Progress stays within [0, 1] |
| FishingMath.ReelStep | Assets/Script/Fishing.cs:468-478 | Reel power stays within [0, maxReelPower] |
| FishingMath.TensionStep | Assets/Script/Fishing.cs:487-516 | Line tension stays within [0, maxLineTension] |
| FishingMath.ProgressDirection | Assets/Script/Fishing.cs:432-457 | For a fish of strength in [0, 1], progress never falls when accuracy is above 0.4 and never rises at or below it |
| FishingMath.ProgressGrowsOnTarget | Assets/Script/Fishing.cs:442-445 | On target, a fish weaker than 1 yields strictly growing progress while time passes |
| FishingMath.FullStrengthNeverProgresses | Assets/Script/Fishing.cs:442-457 | A fish of strength 1 never lets progress grow |
| FishingMath.ReelDirection | Assets/Script/Fishing.cs:468-478 | Holding Space never lowers reel power, and releasing it never raises it |
| FishingMath.TensionDirection | Assets/Script/Fishing.cs:489-516 | The middle band never raises tension, and every other band never lowers it |
| Fishing.Initial | Assets/Script/Fishing.cs:27-117 | A fresh machine is idle, has nothing queued, has not touched the clock, and has zero zone timers and accuracy |
| Fishing.Cancel | Assets/Script/Fishing.cs:391-407 | Cancelling clears every phase flag and both zone timers and unpauses the clock. It keeps progress, reel power, tension, balance, fish and queued coroutines |
| Fishing.StartThrowing | Assets/Script/Fishing.cs:209-238 | A throw starts from zero power, with the target at 0 moving up and the bite and catch flags cleared |
| Fishing.ThrowAccuracy | Assets/Script/Fishing.cs:281-283 | Accuracy lies in [0, 1], and is 1 exactly when the released power fraction hits the target |
| Fishing.BiteDelay | Assets/Script/Fishing.cs:325 | For an accuracy in [0, 1] the wait lies in [1, 5] seconds: 1 for a perfect throw and 5 for the worst (BetterThrowBitesSooner gives the monotonicity) |
| Fishing.BiteChance | Assets/Script/Fishing.cs:329 | For an accuracy in [0, 1] the chance lies in [0, 0.9], and a perfect throw gives 0.9 |
| Fishing.Release | Assets/Script/Fishing.cs:274-303 | An accuracy below 0.1 cancels without a bite check and unpauses the clock; otherwise a bite check with the graded delay is queued |
| Fishing.Bounce | Assets/Script/Fishing.cs:244-263 | A bouncing bar keeps a direction of 1 or -1. The direction flips when the value reaches either end and is kept strictly between them |
| Fishing.Swing | Assets/Script/Fishing.cs:244-263 | Both meters stay on their bars, and nothing but the two meters and their directions changes |
| Fishing.HandleThrowing | Assets/Script/Fishing.cs:241-304 | Power stays within [0, maxThrowPower] and the target within [0, 1]; only releasing Space ends the throw |
| Fishing.BeginFishing | Assets/Script/Fishing.cs:355-388 | Reeling starts with the clock paused, progress 0, reel power and tension at half their maxima, balance 0 and both zone timers 0. A null fish entry cancels instead |
| Fishing.CatchFish | Assets/Script/Fishing.cs:410-429 | A catch ends the session, unpauses the clock and hands over exactly the fish's item when it has one |
| Fishing.HandleFishingProgress | Assets/Script/Fishing.cs:432-462 | With a fish on, only progress changes and stays within [0, 1]; without one nothing changes |
| Fishing.ReelInfluence | Assets/Script/Fishing.cs:555-575 | No zone timer past the delay means no push; a weak timer past it pushes left, a strong one right |
| Fishing.HandleBalanceBar | Assets/Script/Fishing.cs:538-594 | With a fish on, balance stays within [-1, 1]; progress, reel power, tension and the zone timers are untouched |
| Fishing.ZoneTimers | Assets/Script/Fishing.cs:519-534 | At most one zone timer is non-zero; the weak timer runs only below the weak threshold and the strong one only above the strong threshold |
| Fishing.HandleReelBar | Assets/Script/Fishing.cs:465-535 | Reel power stays within its bar, and with a fish on so does tension; at most one zone timer runs |
| Fishing.Reeling | Assets/Script/Fishing.cs:176-190 | After the handlers, a snapped or slack line cancels, and the catch check still runs afterwards in the same frame |
| Fishing.Gate | Assets/Script/Fishing.cs:153-168 | A throw starts exactly when the boat is stopped, no phase runs and F is pressed. A moving or missing boat cancels any running session |
| Fishing.Update | Assets/Script/Fishing.cs:145-206 | The movement gate is set from the session running at the start of the frame. A moving or missing boat cancels a running session and catches nothing, and an idle machine stays idle. With the boat still, F on an idle machine starts a throw and runs its first throw step, an idle frame without F changes nothing, Space on a waiting bite reels in, a throwing frame is the throw step, and a reeling frame is the reeling step with its catch. A caught item is the current fish's item, from a reeling session |
| Fishing.Resume | Assets/Script/Fishing.cs:307-352 | A bite check below 0.9 times the accuracy hooks a fish and opens the reel window, and any other draw cancels. A reel window cancels a bite nobody reeled in |
| Fishing.InitialInv | Assets/Script/Fishing.cs:27-117 | The fresh machine satisfies the state invariant |
| Fishing.CancelKeepsInv | Assets/Script/Fishing.cs:391-407 | Cancelling keeps the state invariant |
| Fishing.GateKeepsInv | Assets/Script/Fishing.cs:153-168 | The opening gate keeps the state invariant |
| Fishing.ThrowingKeepsInv | Assets/Script/Fishing.cs:241-304 | A throwing frame keeps the invariant: meters on their bars, queued delays within [1, 5] |
| Fishing.ReelingKeepsInv | Assets/Script/Fishing.cs:176-190 | A reeling frame keeps the invariant, with at most one zone timer running |
| Fishing.BeginKeepsInv | Assets/Script/Fishing.cs:355-388 | Reeling in keeps the invariant |
| Fishing.UpdateKeepsInv | Assets/Script/Fishing.cs:145-206 | Every frame keeps the invariant |
| Fishing.ResumeKeepsInv | Assets/Script/Fishing.cs:307-352 | Every coroutine resumption keeps the invariant |
| Fishing.BetterThrowBitesSooner | Assets/Script/Fishing.cs:325-330 | A better throw never waits longer nor bites less often; an accepted throw waits 1 to 4.6 seconds with a chance of 0.09 to 0.9 |
| Fishing.SnapAndCatchSameFrame | Assets/Script/Fishing.cs:184-190 | A line that snaps in the frame progress reaches 1 still lands the fish |
| Fishing.Deliver | Assets/Script/Fishing.cs:416-424 | A frame without a catch leaves the inventory unchanged; a catch never changes the slot count or the hand |
| Fishing.CaughtFishReachesInventory | Assets/Script/Fishing.cs:416-424 | When a frame's caught item is delivered, its total rises by exactly one and every other item's total is unchanged |
| Fishing.StaleBiteSurvivesCancel | Assets/Script/Fishing.cs:307-352 | A bite check queued before a cancel still raises the bite flags afterwards |
| Fishing.StaleMissEndsLiveSession | Assets/Script/Fishing.cs:330-350 | A left-over bite check that misses cancels whatever session is running |
| Fishing.OwnBoatNeverCancels | Assets/Script/Fishing.cs:148-161 | With the newer boat, a running session is never cancelled by the moving-boat branch |
| Fishing.ReelInfluenceDirection | Assets/Script/Fishing.cs:557-575 | A weak reel past the delay pushes left and a strong one right; with multiplier 2 the weak push doubles past the prolonged delay |
| LegacyFishing.Cancel | Assets/Script/Player/Fishing.cs:308-319 | Cancelling clears every phase flag and unpauses the clock, keeping the meters and queued coroutines |
| LegacyFishing.StartThrowing | Assets/Script/Player/Fishing.cs:176-196 | A throw starts from zero power moving up, with bite and catch flags cleared |
| LegacyFishing.PowerStep | Assets/Script/Player/Fishing.cs:198-210 | Throw power stays within [0, maxThrowPower] |
| LegacyFishing.BiteDelay | Assets/Script/Player/Fishing.cs:255 | The bite delay lies in [0.5, 5] |
| LegacyFishing.BiteChance | Assets/Script/Player/Fishing.cs:258 | For a power on the bar the chance lies in [0.5, 0.8], and a throw of power 0 gives 0.5 (ChanceBounds adds the monotonicity) |
| LegacyFishing.HandleThrowing | Assets/Script/Player/Fishing.cs:198-237 | Power stays on its bar. A release at power 0.1 or less cancels; a stronger one queues a bite check |
| LegacyFishing.BeginFishing | Assets/Script/Player/Fishing.cs:281-306 | Reeling starts with the clock paused, progress 0, reel power and tension at half their maxima and balance 0. A null fish entry cancels |
| LegacyFishing.CatchFish | Assets/Script/Player/Fishing.cs:321-338 | A catch ends the session, unpauses the clock and hands over exactly the fish's item when it has one |
| LegacyFishing.HandleBalanceBar | Assets/Script/Player/Fishing.cs:414-442 | With a fish on, balance stays within [-1, 1], and only balance and its target change |
| LegacyFishing.HandleFishingProgress | Assets/Script/Player/Fishing.cs:340-366 | With a fish on, only progress changes and stays within [0, 1] |
| LegacyFishing.HandleReelBar | Assets/Script/Player/Fishing.cs:368-412 | Reel power stays within its bar, and with a fish on so does tension |
| LegacyFishing.Reeling | Assets/Script/Player/Fishing.cs:146-160 | A snapped or slack line cancels, and the catch check still runs afterwards in the same frame |
| LegacyFishing.Gate | Assets/Script/Player/Fishing.cs:128-141 | A throw starts exactly when the boat is stopped, no phase runs and F is pressed; a moving or missing boat cancels a running session |
| LegacyFishing.Update | Assets/Script/Player/Fishing.cs:120-174 | The movement gate follows the session running at the start of the frame. A moving or missing boat cancels a running session and catches nothing, and an idle machine stays idle. With the boat still, F on an idle machine starts a throw and runs its first throw step, an idle frame without F changes nothing, Space on a waiting bite reels in, a throwing frame is the throw step, and a reeling frame is the reeling step with its catch. A caught item comes from a reeling session's fish |
| LegacyFishing.Resume | Assets/Script/Player/Fishing.cs:239-279 | A bite check below the power-based chance hooks a fish and any other draw cancels; the reel window cancels a bite nobody reeled in |
| LegacyFishing.ThrowingKeepsInv | Assets/Script/Player/Fishing.cs:198-237 | A throwing frame keeps the state invariant |
| LegacyFishing.ReelingKeepsInv | Assets/Script/Player/Fishing.cs:146-160 | A reeling frame keeps the state invariant |
| LegacyFishing.UpdateKeepsInv | Assets/Script/Player/Fishing.cs:120-174 | Every frame keeps the state invariant |
| LegacyFishing.ResumeKeepsInv | Assets/Script/Player/Fishing.cs:239-279 | Every coroutine resumption keeps the state invariant |
| LegacyFishing.TriangleWave | Assets/Script/Player/Fishing.cs:198-210 | Throw power bounces: past the top it snaps to the maximum heading down, past the bottom it snaps to 0 heading up |
| LegacyFishing.ChanceBounds | Assets/Script/Player/Fishing.cs:258 | The bite chance lies in [0.5, 0.8], grows with power and reaches 0.8 at full power |
| LegacyFishing.HarderThrowBitesSooner | Assets/Script/Player/Fishing.cs:255 | More power never lengthens the bite delay |
| LegacyFishing.BalanceDriftWithoutInput | Assets/Script/Player/Fishing.cs:426-432 | With no key held and a fish of strength in [0, 1], the fish alone moves the balance by at most a tenth of the frame time, and a neutral draw of 0.5 leaves it unchanged |
| LegacyFishing.FishPullBounded | Assets/Script/Player/Fishing.cs:430 | For a draw in [0, 1] and a strength in [0, 1] the fish's pull in one frame is at most a tenth of the frame time either way, and a draw of 0.5 pulls not at all |
| LegacyFishing.SnapAndCatchSameFrame | Assets/Script/Player/Fishing.cs:150-160 | A line that snaps in the frame progress reaches 1 still lands the fish |
| BoatController.SetHealth | Assets/Script/Player/BoatController.cs:284-289 | The maximum is stored and the current hull is clamped into [0, max] |
| BoatController.Heal | Assets/Script/Player/BoatController.cs:291-298 | Heal acts only below the maximum and gives min(current + amount, max) |
| BoatController.HealStaysBelowMax | Assets/Script/Player/BoatController.cs:291-298 | A non-negative heal of a damaged boat never lowers the hull and never passes the maximum |
| BoatController.ApplyLightningSlowdown | Assets/Script/Player/BoatController.cs:343-350 | A slowdown while already slowed is ignored; otherwise the speed becomes moveSpeed times the slowdown factor |
| BoatController.ResetSpeed | Assets/Script/Player/BoatController.cs:352-356 | The reset ends the slowdown and restores moveSpeed |
| BoatController.TakeDamage | Assets/Script/Player/BoatController.cs:300-319 | A sunk boat is untouched. Otherwise the hull becomes max(current - amount, 0), and reaching 0 sends the boat to the harbour. The flash follows the request, and the slowdown happens only if not already slowed |
| BoatController.IncreaseMaxHealth | Assets/Script/Player/BoatController.cs:201-206 | The amount is added to both maximum and current hull, so the gap between them and current <= max are preserved |
| BoatController.IncreaseMoveSpeed | Assets/Script/Player/BoatController.cs:195-199 | The amount is added to the speed and to the speed restored after a slowdown |
| BoatController.HandleInput | Assets/Script/Player/BoatController.cs:139-179 | The boat wants to move exactly when either input axis is non-zero |
| BoatController.SetMovementEnabled | Assets/Script/Player/BoatController.cs:363-374 | The flag is set as asked, and a disabled boat is never moving |
| BoatController.IsMoving | Assets/Script/Player/BoatController.cs:358-361 | Moving needs both movement input and enabled movement; a disabled boat never moves (SetMovementEnabled, MoveBoatGate, Fishing.OwnBoatNeverCancels) |
| BoatController.MoveBoatGate | Assets/Script/Player/BoatController.cs:207-216 | MoveBoat moves the boat exactly when it is moving and not knocked back |
| BoatController.ApplyKnockback | Assets/Script/Player/BoatController.cs:218-224 | A new knockback starts only when none is running |
| BoatController.EndKnockback | Assets/Script/Player/BoatController.cs:226-236 | The end of the knockback routine clears the flag |
| BoatController.OnCollision | Assets/Script/Player/BoatController.cs:257-277 | An obstacle or enemy deals the collision damage without a flash, and thunder deals it with one; anything else does nothing |
| BoatController.LoadFromGameData | Assets/Script/Player/BoatController.cs:376-388 | Speed and both hull values are taken from the record, unclamped |
| BoatController.SaveToGameData | Assets/Script/Player/BoatController.cs:390-396 | Speed and hull are written and the upgrade levels in the record are kept |
| BoatController.SaveLoadRoundTrip | Assets/Script/Player/BoatController.cs:376-396 | Saving then loading restores the move speed and both hull values |
| BoatController.DamageKeepsHullInRange | Assets/Script/Player/BoatController.cs:300-319 | A non-negative damage keeps a hull within [0, max] |
| BoatController.NegativeDamageOverheals | Assets/Script/Player/BoatController.cs:300-319 | A negative damage on a floating boat raises the hull by its size and never sends the boat to the harbour. From a full hull it passes the maximum, because there is no upper clamp |
| LegacyBoatController.Start | Assets/Script/BoatController.cs:26-44 | The hull starts full |
| LegacyBoatController.HandleInput | Assets/Script/BoatController.cs:52-63 | Backward input is clamped to 0, and the boat counts as moving exactly for forward input above 0.01 |
| LegacyBoatController.IsMoving | Assets/Script/BoatController.cs:141-144 | Reports the flag HandleInput sets, so steering or reversing alone never counts as moving (SteeringAloneNeverMoves) |
| LegacyBoatController.Heal | Assets/Script/BoatController.cs:111-123 | Heal acts only below the maximum and caps the hull there |
| LegacyBoatController.TakeDamage | Assets/Script/BoatController.cs:125-139 | A boat at 0 or below is untouched; otherwise the hull is floored at 0 and the boat is destroyed there |
| LegacyBoatController.OnCollision | Assets/Script/BoatController.cs:98-104 | An enemy or obstacle deals the collision damage through TakeDamage; anything else does nothing |
| LegacyBoatController.SteeringAloneNeverMoves | Assets/Script/BoatController.cs:52-63 | Steering or reversing alone never counts as moving |
| LegacyBoatController.HealBounds | Assets/Script/BoatController.cs:111-123 | A non-negative heal keeps the hull between its old value and the maximum |
| LegacyBoatController.CollisionDamage | Assets/Script/BoatController.cs:98-104 | A harmful collision takes exactly the collision damage off a live hull, floored at 0 |
| LegacyBoatController.StartThenHealIsFull | Assets/Script/BoatController.cs:42 | A started boat is full, so healing it changes nothing |
| PlayerEconomy.AddGold | Assets/Script/Market/PlayerEconomy.cs:24-28 | The purse changes by exactly the amount |
| PlayerEconomy.AddGoldCanGoNegative | Assets/Script/Market/PlayerEconomy.cs:24-28 | A large enough negative amount drives the purse below 0: callers must check |
| UpgradeManager.DefaultSettings | Assets/Script/Upgrade/UpgradeManager.cs:24-30 | The inspector defaults: speed 100 + 50 per level for 0.5 speed, health 150 + 75 per level for 10 hull |
| UpgradeManager.Awake | Assets/Script/Upgrade/UpgradeManager.cs:38-51 | Both costs start at their bases, which follows the cost law at level 0 |
| UpgradeManager.SaveToGameData | Assets/Script/Upgrade/UpgradeManager.cs:191-196 | Both levels are written and the boat's fields in the record are kept |
| UpgradeManager.LoadFromGameData | Assets/Script/Upgrade/UpgradeManager.cs:177-189 | A null record is ignored; otherwise the levels are read and both costs follow the cost law |
| UpgradeManager.Persist | Assets/Script/Upgrade/UpgradeManager.cs:119-127 | With a save store, the saved record carries the manager's levels and the boat's speed and hull |
| UpgradeManager.UpgradeSpeed | Assets/Script/Upgrade/UpgradeManager.cs:109-131 | Without enough gold nothing changes and nothing is saved. Otherwise exactly the old cost is paid, the boat gains speedIncreaseAmount and the level rises by one |
| UpgradeManager.UpgradeHealth | Assets/Script/Upgrade/UpgradeManager.cs:133-155 | Without enough gold nothing changes. Otherwise exactly the old cost is paid, maximum and current hull rise by healthIncreaseAmount and the level rises by one |
| UpgradeManager.CostLawKept | Assets/Script/Upgrade/UpgradeManager.cs:118-142 | Every upgrade and every load keeps each cost equal to base + increment × level |
| UpgradeManager.UpgradeNeverOverdraws | Assets/Script/Upgrade/UpgradeManager.cs:111-135 | An upgrade never makes a non-negative purse negative |
| UpgradeManager.SaveLoadRoundTrip | Assets/Script/Upgrade/UpgradeManager.cs:177-196 | Saving then loading restores both levels and both costs |
| UpgradeManager.PurchaseSurvivesReload | Assets/Script/Upgrade/UpgradeManager.cs:109-131 | The record saved after a purchase, loaded back, restores the levels, the costs and the boat's stats |
| UpgradeSystem.ShowUpgradeType | Assets/Script/Upgrade/UpgradeSystem.cs:78-124 | The button is interactable exactly when the level is below its maximum and the purse covers the next cost |
| UpgradeSystem.PerformUpgrade | Assets/Script/Upgrade/UpgradeSystem.cs:132-156 | Without enough gold nothing changes. Otherwise exactly the cost is paid and the selected level rises by one. Speed is multiplied by 1 + speedUpgradePercent; health is raised as written |
| UpgradeSystem.InteractableMeansPurchase | Assets/Script/Upgrade/UpgradeSystem.cs:84-156 | Pressing an interactable button always buys the shown upgrade |
| UpgradeSystem.PerformUpgradeIgnoresMaxLevel | Assets/Script/Upgrade/UpgradeSystem.cs:132-156 | At the maximum level the button is disabled, yet a direct call still charges and raises the level past the maximum |
| UpgradeSystem.AnnouncedMaxHP | Assets/Script/Upgrade/UpgradeSystem.cs:116 | The panel announces the current maximum plus one healthUpgradeAmount |
| UpgradeSystem.HealthUpgradeCountsTwice | Assets/Script/Upgrade/UpgradeSystem.cs:147-150 | As written, a health upgrade raises both hull values by twice the amount, so it misses the announced maximum |
| UpgradeSystem.PerformUpgradeIntended | Assets/Script/Upgrade/UpgradeSystem.cs:132-156 | The corrected upgrade agrees with the original on speed and on the payment and levels |
| UpgradeSystem.IntendedHealthMatchesPanel | Assets/Script/Upgrade/UpgradeSystem.cs:116-150 | The corrected health upgrade delivers exactly the announced maximum and heals by the same amount |
| WorldTime.Hours | Assets/Script/Hari/WorldTime.cs:14 | The hour component of a time lies in [0, 24) |
| WorldTime.Minutes | Assets/Script/Hari/WorldTime.cs:14 | The minute component of a time lies in [0, 60) |
| WorldTime.MinuteLength | Assets/Script/Hari/WorldTime.cs:15 | 1440 game minutes last exactly one day length |
| WorldTime.AddMinute | Assets/Script/Hari/WorldTime.cs:22-28 | Each tick adds one minute and notifies the time after the increment |
| WorldTime.Notifications | Assets/Script/Hari/WorldTime.cs:22-28 | n ticks give n notifications |
| WorldTime.RunCountsTicks | Assets/Script/Hari/WorldTime.cs:14-28 | From zero, after n ticks the time is n minutes: the clock never wraps |
| WorldTime.NotificationsCountUp | Assets/Script/Hari/WorldTime.cs:24-25 | The k-th notification carries minute k + 1 |
| WorldTime.SameClockFaceNextDay | Assets/Script/Hari/WorldTime.cs:14 | A time and the same time a day later show the same hour and minute |
| WorldTime.MidnightIsWholeDay | Assets/Script/Hari/WorldTime.cs:14 | The clock shows 00:00 exactly on whole days |
| WorldTimeWatcher.FirstMatch | Assets/Script/Hari/WorldTimeWatcher.cs:36-41 | The first entry matching the time's hour and minute is found, and none exactly when no entry matches |
| WorldTimeWatcher.CheckSchedule | Assets/Script/Hari/WorldTimeWatcher.cs:34-42 | Exactly the first matching entry's action runs. When that entry has no action nothing runs, even if a later matching entry has one. With no match nothing runs |
| WorldTimeWatcher.ShadowedEntryNeverFires | Assets/Script/Hari/WorldTimeWatcher.cs:37 | A later entry with the same hour and minute as an earlier one never fires |
| WorldTimeWatcher.ScheduleRecursDaily | Assets/Script/Hari/WorldTimeWatcher.cs:38-39 | The schedule does the same a day later |
| WorldTimeWatcher.SameMatchesSameResult | Assets/Script/Hari/WorldTimeWatcher.cs:36-41 | Two times that every entry treats alike give the same first match |
| WorldTimeWatcher.OutOfRangeEntryNeverFires | Assets/Script/Hari/WorldTimeWatcher.cs:38-39 | An entry with an hour outside 0-23 or a minute outside 0-59 never fires |
| DayCounter.OnTimeChanged | Assets/Script/Hari/DayCounter.cs:25-33 | The day grows by one exactly at 00:00 and is unchanged otherwise |
| DayCounter.DayAfterTicks | Assets/Script/Hari/DayCounter.cs:12-33 | Starting at day 1 and driven from zero, after n ticks the day is 1 + n div 1440 |
| DayCounter.DayNeverDecreases | Assets/Script/Hari/DayCounter.cs:30 | The day never decreases |
| ThunderManager.Create | Assets/Script/Cuaca/Petir/ThunderManager.cs:10-15 | A new pool is empty and valid |
| ThunderManager.TriggerThunderStrike | Assets/Script/Cuaca/Petir/ThunderManager.cs:27-34 | One fresh thunder is added exactly while the pool is under its cap; validity is kept |
| ThunderManager.Room | Assets/Script/Cuaca/Petir/ThunderManager.cs:37-48 | A storm's additions are never negative and never overfill the pool |
| ThunderManager.TriggerThunderStorm | Assets/Script/Cuaca/Petir/ThunderManager.cs:37-48 | A storm adds min(request, room left) thunders after the existing ones, keeping validity |
| ThunderManager.RemoveThunder | Assets/Script/Cuaca/Petir/ThunderManager.cs:68-75 | A tracked thunder leaves the pool and every other stays; an untracked one changes nothing |
| ThunderManager.RemoveFirst | Assets/Script/Cuaca/Petir/ThunderManager.cs:68-75 | List.Remove: an absent id changes nothing; a present one shortens the list by one, every other id stays and nothing new appears (RemoveFirstKeepsDistinct adds that the removed id leaves a distinct list) |
| ThunderManager.ClearAllThunders | Assets/Script/Cuaca/Petir/ThunderManager.cs:77-87 | The pool ends empty and valid |
| ThunderManager.RemoveFirstKeepsDistinct | Assets/Script/Cuaca/Petir/ThunderManager.cs:68-75 | Removal keeps the ids distinct and known and leaves no copy of the removed one |
| ThunderManager.RemoveThenOnDestroy | Assets/Script/Cuaca/Petir/ThunderInstance.cs:12-18 | The second removal, from OnDestroy, changes nothing |
| ThunderManager.ClearThenOnDestroy | Assets/Script/Cuaca/Petir/ThunderManager.cs:77-87 | The OnDestroy removals after a clear find nothing to remove |
| ThunderManager.FullPoolRefuses | Assets/Script/Cuaca/Petir/ThunderManager.cs:29 | A full pool refuses every strike |
| ThunderManager.RemovalFreesRoom | Assets/Script/Cuaca/Petir/ThunderManager.cs:27-75 | Removing a thunder from a full pool makes room for exactly one new strike |
| DisasterManager.Initial | Assets/Script/Cuaca/DisasterManager.cs:13-25 | The defaults: chance 0.3, at most 5 thunders, nothing active or queued |
| DisasterManager.Start | Assets/Script/Cuaca/DisasterManager.cs:41-44 | Start launches the scheduler |
| DisasterManager.SchedulerWake | Assets/Script/Cuaca/DisasterManager.cs:46-63 | A wake-up starts a disaster only if the scheduler runs and the start conditions hold; otherwise nothing changes |
| DisasterManager.Strike | Assets/Script/Cuaca/DisasterManager.cs:79-89 | The loop adds the requested strikes cut to the room below maxThunders, after the existing entries |
| DisasterManager.Resume | Assets/Script/Cuaca/DisasterManager.cs:65-77 | The warning ends in the strikes with the flag kept; the cooldown ends the disaster and clears the flag |
| DisasterManager.StopAllDisasters | Assets/Script/Cuaca/DisasterManager.cs:100-106 | The scheduler stops, the flag clears and the list empties; queued disaster stages remain |
| DisasterManager.InitialInv | Assets/Script/Cuaca/DisasterManager.cs:18-44 | The initial and started managers respect the cap |
| DisasterManager.StepsKeepInv | Assets/Script/Cuaca/DisasterManager.cs:46-106 | Every step keeps the list within maxThunders |
| DisasterManager.StartGuard | Assets/Script/Cuaca/DisasterManager.cs:56-61 | A disaster starts exactly when the scheduler runs, the day is 3 or later, the draw is within the chance and none is active |
| DisasterManager.ActiveFlagLifecycle | Assets/Script/Cuaca/DisasterManager.cs:67-76 | The flag rises only when a disaster starts, strikes keep it, and the cooldown's end clears it |
| DisasterManager.StrikeCount | Assets/Script/Cuaca/DisasterManager.cs:81-82 | With 3 to 5 strikes requested and the default cap, exactly min(request, room left) thunders appear |
| DisasterManager.FullListStrikesNothing | Assets/Script/Cuaca/DisasterManager.cs:86-87 | Once the list is full, later disasters strike nothing |
| DisasterManager.StopLeavesDisasterInFlight | Assets/Script/Cuaca/DisasterManager.cs:100-106 | A disaster waiting at its warning still strikes after StopAllDisasters |
| DisasterManager.StopEndsScheduling | Assets/Script/Cuaca/DisasterManager.cs:100-106 | After StopAllDisasters no wake-up starts a disaster |
| SpawnSearch.FindSpot | Assets/Script/EnemySpawner.cs:48-64 | At most ten tries; a spot is found exactly when one of the first ten candidates is valid, and it is the first valid one |
| EnemySpawner.Initial | Assets/Script/EnemySpawner.cs:8-13 | A new spawner counts no sharks |
| EnemySpawner.SpawnImmediate | Assets/Script/EnemySpawner.cs:38-84 | At or over the cap nothing happens; below it the count grows by one exactly when a valid spot turns up. The count stays within the cap |
| EnemySpawner.RoutineWake | Assets/Script/EnemySpawner.cs:20-36 | A routine pass spawns only below the cap and keeps the count within it |
| EnemySpawner.OnSharkDestroyed | Assets/Script/EnemySpawner.cs:86-90 | The count drops by exactly one |
| RandomSpawner.Initial | Assets/Script/RandomSpawner.cs:8-15 | A new spawner counts no objects |
| RandomSpawner.SpawnObject | Assets/Script/RandomSpawner.cs:39-78 | The count grows by one exactly when a valid spot turns up; without its own cap check, a full spawner overflows |
| RandomSpawner.RoutineWake | Assets/Script/RandomSpawner.cs:22-37 | The routine calls SpawnObject only below the cap, which keeps the count within it |
| RandomSpawner.OnObjectDestroyed | Assets/Script/RandomSpawner.cs:80-84 | The count drops by exactly one |
| RandomSpawner.Collect | Assets/Script/Inventory/CollectibleItem.cs:11-20 | The item goes to the inventory, and the spawner's count drops only when the inventory accepted it |
| RandomSpawner.RefusedPickupStays | Assets/Script/Inventory/CollectibleItem.cs:11-20 | A refused pickup changes neither the inventory nor the spawner |
| EnemyAI.Uninitialised | Assets/Script/EnemyAI.cs:30-37 | A shark nobody initialised patrols with a life timer of 0 and direction 1 |
| EnemyAI.Init | Assets/Script/EnemyAI.cs:45-53 | A shark starts patrolling with full life and turn timers and a direction of 1 or -1 chosen by the coin |
| EnemyAI.Start | Assets/Script/EnemyAI.cs:55-63 | A shark without a target looks the boat up once, and nothing but the target changes |
| EnemyAI.Sight | Assets/Script/EnemyAI.cs:92-97 | A held target whose boat was destroyed (Assets/Script/BoatController.cs:135) reads as no target; nothing else changes |
| EnemyAI.CheckForPlayer | Assets/Script/EnemyAI.cs:92-116 | Without a target the shark only looks one up. In range it chases. Out of range a chasing shark patrols again with a full life timer |
| EnemyAI.PatrolTurn | Assets/Script/EnemyAI.cs:132-138 | When the turn timer runs out the direction flips and the timer resets; otherwise the timer just runs down |
| EnemyAI.ChaseFallback | Assets/Script/EnemyAI.cs:143-147 | A chasing shark without a target patrols again |
| EnemyAI.Update | Assets/Script/EnemyAI.cs:70-90 | The shark dies exactly when its life runs out, with no state logic that frame. Otherwise CheckForPlayer runs, followed by the patrol turn when the shark is then patrolling and by the chase fallback when it is chasing. A destroyed target is seen as none |
| EnemyAI.OnCollision | Assets/Script/EnemyAI.cs:165-180 | A hit on the player's boat after the cooldown deals damageAmount once and destroys the shark; any other contact changes nothing |
| EnemyAI.DestroyShark | Assets/Script/EnemyAI.cs:182-190 | The respawn is requested before the count drops, so a spawner at its cap refuses it and ends one shark lower |
| EnemyAI.DirectionStaysUnit | Assets/Script/EnemyAI.cs:132-138 | The turn direction stays 1 or -1 through every frame |
| EnemyAI.UninitialisedSharkDiesAtOnce | Assets/Script/EnemyAI.cs:72-77 | A shark with no Init dies on its first frame |
| EnemyAI.LosingThePlayerRenewsLife | Assets/Script/EnemyAI.cs:108-114 | A chasing shark that loses the player patrols with a full life timer |
| EnemyAI.InRangeChases | Assets/Script/EnemyAI.cs:103-107 | With a target in range and life left, the shark chases and only its life timer runs down |
| EnemyAI.TargetLostPatrols | Assets/Script/EnemyAI.cs:141-147 | A chasing shark whose boat was destroyed, and which finds none again, patrols in the same frame without a life renewal |
| EnemyAI.PatrollingSharkTurns | Assets/Script/EnemyAI.cs:132-138 | A patrolling shark with no live target in range turns round and rearms its timer when the turn timer runs out |

## Findings

| source | as written | input that shows it | evidently intended | confidence | as-written member | corrected member |
|---|---|---|---|---|---|---|
| Assets/Script/Upgrade/UpgradeSystem.cs:147-150 | The health upgrade adds healthUpgradeAmount to both hull values and then calls IncreaseMaxHealth with the same amount, so each rises by twice the amount | healthUpgradeAmount = 10, boat maxHP 100: the panel announces 110 "Next" (line 116), and the purchase yields 120 | Raise the hull once, to the announced maximum | not executed | UpgradeSystem.HealthUpgradeCountsTwice | UpgradeSystem.IntendedHealthMatchesPanel |

The corrected behaviour is `UpgradeSystem.PerformUpgradeIntended`. `UpgradeSystem.PerformUpgrade` keeps the code as written.

## Left out

- Integer width: gold, hull points, levels and counters are unbounded integers. The C# `int` wraps at 2^31, which the model does not reproduce.
- Floating point: floats are ideal reals. Rounding, NaN and infinities are not modelled. The fishing machines assume non-zero maxima (`ValidConfig`), because a zero divisor gives NaN in the source.
- Visuals, UI, audio, cameras, lights, physics forces, rotation, positions, grid snapping and spawn geometry are engine work and are not modelled. A spot's validity is an input.
- Time: coroutine waits and real-time intervals are not modelled. Each wait is a pending event that the caller may resume in any order, so the model over-approximates every schedule the timings allow.
- Random values are draws passed in as arguments, including `Random.Range`, `Random.value` and the coin of `EnemyAI.Init`. Fishing.ValidConfig and `PickInRange` keep the draws inside their ranges.
- The clock's pause state and the current day are ports. The code calls `SetPaused` and `CurrentDay` on a clock that does not define them. Fishing records the last pause request, and DisasterManager takes the day as an argument.
- WorldTimeConstants is not part of this model. Its `MinutesInDay` is taken to be 1440.
- Save and load I/O: the record is a value handed in and out. The GameData class as shipped lacks the speed fields its callers use, so `SaveData.GameData` holds exactly the fields read and written.
- Singletons such as `Instance` and the world clock are assumed present everywhere. The boat lookups are frame inputs: the fishing game's `boatMoving` is none without a boat, and the shark's frame says whether its target still exists and whether a lookup finds the boat. Both fishing classes check the world clock for null before `SetPaused` (Assets/Script/Fishing.cs:362, 406 and 428; Assets/Script/Player/Fishing.cs:287, 318 and 337), and their catch checks `InventoryManager.Instance` for null (Assets/Script/Fishing.cs:420; Assets/Script/Player/Fishing.cs:330). These checks are not modelled: every pause is recorded and every catch is delivered.
- InventoryManager.RemoveItem: the newer RemoveItem dereferences its item argument in every branch, so a null item throws. The model takes a non-null item.
- Fishing.BeginFishing: with an empty fish list, `fishList[Random.Range(0, 0)]` throws. The model keeps the flags and pause already written and stops there.
- UpgradeSystem.PerformUpgrade: the cost formula `RoundToInt(base * Pow(multiplier, level))` is an arbitrary function of type and level.
- UpgradeManager: ToggleUpgradePanel, the proximity check and the time scale are panel work and are not modelled.
- EnemyAI.OnCollision: both boat classes are global, so the damage is returned as an amount and not applied to either boat.
- EnemyAI: a shark prefab without the EnemyAI component, and two DestroyShark calls within one frame, are not modelled.
- ThunderManager: the attack component, the thunder lifetime timer and the random offsets are not modelled. A thunder is an id, and its removal is an event.
- The change callbacks of the inventories and the boat (OnHealthChanged, onInventoryChangedCallback) are not modelled.

=== FILE: boat_controller.dfy ===
/**
 * The player boat of Assets/Script/Player/BoatController.cs: integer hull
 * points, the movement gate and the knockback / lightning-slowdown guards.
 * Physics, the isometric input vectors, animation, lights and the flash
 * coroutine are engine work and are not modelled; the end of a knockback and
 * the delayed ResetSpeed are explicit events.
 */
module BoatController {
  import opened SaveData

  datatype Boat = Boat(
    maxHP: int,
    currentHP: int,
    collisionDamage: int,
    moveSpeed: real,
    originalMoveSpeed: real,
    currentSpeed: real,
    lightningHitSlowdown: real,
    inputMoving: bool,      // _isMoving, written by HandleInput
    movementEnabled: bool,
    isKnockedBack: bool,
    isSlowed: bool)

  /** Outcome of TakeDamage: the boat plus the side effects it started. */
  datatype Damage = Damage(boat: Boat, flashed: bool, slowed: bool, returnToHarbour: bool)

  /** What the boat hit, by tag. */
  datatype Tag = Obstacle | Enemy | Thunder | Untagged

  /** Unity's Mathf.Clamp for ints: the lower bound is compared first. */
  function ClampInt(v: int, lo: int, hi: int): int
  {
    if v < lo then lo else if v > hi then hi else v
  }

  function Min(a: int, b: int): int { if a <= b then a else b }

  function Max(a: int, b: int): int { if a >= b then a else b }

  /** SetHealth stores `max` and clamps `current` into [0, max]. */
  function SetHealth(b: Boat, current: int, max: int): (r: Boat)
    ensures r.maxHP == max
    ensures 0 <= max ==> 0 <= r.currentHP <= r.maxHP
    ensures 0 <= current <= max ==> r.currentHP == current
    ensures current < 0 ==> r.currentHP == 0
    ensures 0 <= max < current ==> r.currentHP == max
    ensures r == b.(maxHP := r.maxHP, currentHP := r.currentHP)
  {
    b.(currentHP := ClampInt(current, 0, max), maxHP := max)
  }

  /** Heal acts only below the maximum and never heals past it. */
  function Heal(b: Boat, amount: int): (r: Boat)
    ensures b.currentHP >= b.maxHP ==> r == b
    ensures b.currentHP < b.maxHP ==> r.currentHP <= r.maxHP
    ensures b.currentHP < b.maxHP && b.currentHP + amount <= b.maxHP ==> r.currentHP == b.currentHP + amount
    ensures b.currentHP < b.maxHP && b.currentHP + amount > b.maxHP ==> r.currentHP == b.maxHP
    ensures r == b.(currentHP := r.currentHP)
  {
    if b.currentHP < b.maxHP then b.(currentHP := Min(b.currentHP + amount, b.maxHP)) else b
  }

  /** A non-negative heal of a damaged boat never lowers the hull and never passes the maximum. */
  lemma HealStaysBelowMax(b: Boat, amount: int)
    requires b.currentHP < b.maxHP && amount >= 0
    ensures b.currentHP <= Heal(b, amount).currentHP <= b.maxHP
  {
  }

  /** The lightning slowdown: ignored while already slowed. */
  function ApplyLightningSlowdown(b: Boat): (r: Boat)
    ensures b.isSlowed ==> r == b
    ensures r.isSlowed
    ensures !b.isSlowed ==> r.currentSpeed == b.moveSpeed * b.lightningHitSlowdown
    ensures r == b.(isSlowed := r.isSlowed, currentSpeed := r.currentSpeed)
  {
    if b.isSlowed then b else b.(isSlowed := true, currentSpeed := b.moveSpeed * b.lightningHitSlowdown)
  }

  /** The ResetSpeed call scheduled by ApplyLightningSlowdown. */
  function ResetSpeed(b: Boat): (r: Boat)
    ensures !r.isSlowed && r.currentSpeed == b.moveSpeed
    ensures r == b.(isSlowed := false, currentSpeed := r.currentSpeed)
  {
    b.(currentSpeed := b.moveSpeed, isSlowed := false)
  }

  /**
   * TakeDamage does nothing to a sunk boat (0 HP or less). Otherwise it floors
   * the hull at 0, flashes when asked, always attempts the lightning slowdown,
   * and sends the boat back to the harbour when the hull reaches 0.
   */
  function TakeDamage(b: Boat, amount: int, applyFlash: bool): (r: Damage)
    ensures b.currentHP <= 0 ==> r == Damage(b, false, false, false)
    ensures b.currentHP > 0 ==> r.boat.currentHP >= 0
    ensures b.currentHP > 0 && amount < b.currentHP ==> r.boat.currentHP == b.currentHP - amount
    ensures b.currentHP > 0 && amount >= b.currentHP ==> r.boat.currentHP == 0
    ensures r.returnToHarbour <==> b.currentHP > 0 && r.boat.currentHP == 0
    ensures r.flashed <==> b.currentHP > 0 && applyFlash
    ensures r.slowed <==> b.currentHP > 0 && !b.isSlowed
    ensures b.currentHP > 0 ==> r.boat == ApplyLightningSlowdown(b).(currentHP := r.boat.currentHP)
  {
    if b.currentHP > 0 then
      var hit := b.(currentHP := Max(b.currentHP - amount, 0));
      Damage(ApplyLightningSlowdown(hit), applyFlash, !b.isSlowed, hit.currentHP <= 0)
    else
      Damage(b, false, false, false)
  }

  /** IncreaseMaxHealth raises both the maximum and the current hull. */
  function IncreaseMaxHealth(b: Boat, amount: int): (r: Boat)
    ensures r.maxHP - r.currentHP == b.maxHP - b.currentHP
    ensures b.currentHP <= b.maxHP ==> r.currentHP <= r.maxHP
    ensures r.maxHP == b.maxHP + amount
    ensures r == b.(maxHP := r.maxHP, currentHP := r.currentHP)
  {
    b.(maxHP := b.maxHP + amount, currentHP := b.currentHP + amount)
  }

  /** IncreaseMoveSpeed raises the speed and the speed to restore after a slowdown. */
  function IncreaseMoveSpeed(b: Boat, amount: real): (r: Boat)
    ensures r.moveSpeed - b.moveSpeed == amount && r.originalMoveSpeed - b.originalMoveSpeed == amount
    ensures r == b.(moveSpeed := r.moveSpeed, originalMoveSpeed := r.originalMoveSpeed)
  {
    b.(moveSpeed := b.moveSpeed + amount, originalMoveSpeed := b.originalMoveSpeed + amount)
  }

  /**
   * HandleInput: the boat wants to move when either raw axis is non-zero
   * (the isometric up and right vectors are orthogonal unit vectors, so their
   * signed sum has positive length exactly then).
   */
  function HandleInput(b: Boat, horizontal: real, vertical: real): (r: Boat)
    ensures r.inputMoving <==> horizontal != 0.0 || vertical != 0.0
    ensures r == b.(inputMoving := r.inputMoving)
  {
    b.(inputMoving := horizontal != 0.0 || vertical != 0.0)
  }

  /** IsMoving needs both input and enabled movement. */
  predicate IsMoving(b: Boat)
  {
    b.inputMoving && b.movementEnabled
  }

  function SetMovementEnabled(b: Boat, enable: bool): (r: Boat)
    ensures r.movementEnabled == enable
    ensures !enable ==> !IsMoving(r)
    ensures r == b.(movementEnabled := enable)
  {
    b.(movementEnabled := enable)
  }

  /** Whether MoveBoat displaces the boat this physics step. */
  predicate MoveBoatMoves(b: Boat)
  {
    !b.isKnockedBack && b.movementEnabled && b.inputMoving
  }

  /** MoveBoat moves exactly when IsMoving holds and no knockback is running. */
  lemma MoveBoatGate(b: Boat)
    ensures MoveBoatMoves(b) <==> IsMoving(b) && !b.isKnockedBack
    ensures b.isKnockedBack || !b.movementEnabled ==> !MoveBoatMoves(b)
  {
  }

  /** A knockback request starts one only when none is running. */
  function ApplyKnockback(b: Boat): (r: (Boat, bool))
    ensures r.0.isKnockedBack
    ensures r.1 <==> !b.isKnockedBack
    ensures r.0 == b.(isKnockedBack := true)
  {
    if b.isKnockedBack then (b, false) else (b.(isKnockedBack := true), true)
  }

  /** The end of the knockback coroutine. */
  function EndKnockback(b: Boat): (r: Boat)
    ensures !r.isKnockedBack
    ensures r == b.(isKnockedBack := false)
  {
    b.(isKnockedBack := false)
  }

  /** OnCollisionEnter2D: obstacles and enemies hurt without a flash, thunder with one. */
  function OnCollision(b: Boat, tag: Tag): (r: Damage)
    ensures tag == Untagged ==> r == Damage(b, false, false, false)
    ensures tag != Untagged ==> r == TakeDamage(b, b.collisionDamage, tag == Thunder)
  {
    match tag
    case Obstacle => TakeDamage(b, b.collisionDamage, false)
    case Enemy => TakeDamage(b, b.collisionDamage, false)
    case Thunder => TakeDamage(b, b.collisionDamage, true)
    case Untagged => Damage(b, false, false, false)
  }

  /** LoadFromGameData overwrites speed and hull with the saved values, unclamped. */
  function LoadFromGameData(b: Boat, d: GameData): (r: Boat)
    ensures r.moveSpeed == d.currentMoveSpeed && r.originalMoveSpeed == d.currentMoveSpeed
    ensures r.maxHP == d.playerMaxHP && r.currentHP == d.playerCurrentHP
    ensures r == b.(moveSpeed := r.moveSpeed, originalMoveSpeed := r.originalMoveSpeed,
                    maxHP := r.maxHP, currentHP := r.currentHP)
  {
    b.(moveSpeed := d.currentMoveSpeed, originalMoveSpeed := d.currentMoveSpeed,
       maxHP := d.playerMaxHP, currentHP := d.playerCurrentHP)
  }

  /** SaveToGameData writes speed and hull and keeps every other saved field. */
  function SaveToGameData(b: Boat, d: GameData): (r: GameData)
    ensures r.currentMoveSpeed == b.moveSpeed && r.playerMaxHP == b.maxHP && r.playerCurrentHP == b.currentHP
    ensures r.speedUpgradeLevel == d.speedUpgradeLevel && r.healthUpgradeLevel == d.healthUpgradeLevel
  {
    d.(currentMoveSpeed := b.moveSpeed, playerMaxHP := b.maxHP, playerCurrentHP := b.currentHP)
  }

  /** Saving then loading restores the move speed and both hull values. */
  lemma SaveLoadRoundTrip(b: Boat, other: Boat, d: GameData)
    ensures var r := LoadFromGameData(other, SaveToGameData(b, d));
            r.moveSpeed == b.moveSpeed && r.maxHP == b.maxHP && r.currentHP == b.currentHP
  {
  }

  /** Damage keeps a hull within [0, max] when it starts there and the amount is not negative. */
  lemma DamageKeepsHullInRange(b: Boat, amount: int, flash: bool)
    requires 0 <= b.currentHP <= b.maxHP && amount >= 0
    ensures 0 <= TakeDamage(b, amount, flash).boat.currentHP <= b.maxHP
    ensures TakeDamage(b, amount, flash).boat.maxHP == b.maxHP
  {
  }

  /**
   * TakeDamage has no upper clamp: a negative amount on a floating boat
   * raises the hull by its size, and from a full hull it passes the maximum.
   */
  lemma NegativeDamageOverheals(b: Boat, amount: int, applyFlash: bool)
    requires b.currentHP > 0 && amount < 0
    ensures TakeDamage(b, amount, applyFlash).boat.currentHP == b.currentHP - amount > b.currentHP
    ensures b.currentHP == b.maxHP ==> TakeDamage(b, amount, applyFlash).boat.currentHP > b.maxHP
    ensures !TakeDamage(b, amount, applyFlash).returnToHarbour
  {
  }
}

=== FILE: day_counter.dfy ===
/**
 * The day counter of Assets/Script/Hari/DayCounter.cs: it starts at day 1
 * and adds one whenever the world clock reports 00:00.
 */
module DayCounter {
  import WorldTime

  const FirstDay: int := 1

  /** OnTimeChanged: one more day at midnight, the same day at any other time. */
  function OnTimeChanged(day: int, time: nat): (r: int)
    ensures WorldTime.Hours(time) == 0 && WorldTime.Minutes(time) == 0 ==> r == day + 1
    ensures !(WorldTime.Hours(time) == 0 && WorldTime.Minutes(time) == 0) ==> r == day
  {
    if WorldTime.Hours(time) == 0 && WorldTime.Minutes(time) == 0 then day + 1 else day
  }

  /** The counter after the clock, started from zero, has ticked `n` times. */
  function DayAfter(n: nat): (r: int)
  {
    if n == 0 then FirstDay
    else OnTimeChanged(DayAfter(n - 1), WorldTime.AddMinute(WorldTime.Run(n - 1)).1)
  }

  /** Driven by the clock, the day after n ticks is 1 plus the number of whole days elapsed. */
  lemma {:induction false} DayAfterTicks(n: nat)
    ensures DayAfter(n) == 1 + n / WorldTime.MinutesInDay
  {
    if n > 0 {
      DayAfterTicks(n - 1);
      WorldTime.RunCountsTicks(n - 1);
      WorldTime.MidnightIsWholeDay(n);
      var q := (n - 1) / 1440;
      var m := (n - 1) % 1440;
      assert n - 1 == 1440 * q + m;
      if m == 1439 {
        assert n == 1440 * (q + 1);
      } else {
        assert n == 1440 * q + (m + 1) && m + 1 < 1440;
      }
    }
  }

  /** The counter never goes back. */
  lemma DayNeverDecreases(n: nat, k: nat)
    requires n <= k
    ensures DayAfter(n) <= DayAfter(k)
  {
    DayAfterTicks(n);
    DayAfterTicks(k);
  }
}

=== FILE: disaster_manager.dfy ===
/**
 * The thunder-disaster scheduler of Assets/Script/Cuaca/DisasterManager.cs.
 * The scheduler coroutine wakes at random intervals and may start a
 * disaster; a disaster warns, strikes a handful of thunders and cools down.
 * The waits are not modelled: each coroutine that is waiting is a pending
 * stage, resumed by the caller in any order. The day number, the random
 * value and the strike count are inputs. A thunder is an id; destroying it
 * after its lifetime leaves its (dead) entry in the list, so only
 * StopAllDisasters shortens the list.
 */
module DisasterManager {
  import ThunderManager

  /** Where a started TriggerRandomDisaster coroutine is waiting. */
  datatype Stage = Warning | Cooldown

  datatype Manager = Manager(
    dailyDisasterChance: real,
    maxThunders: int,
    isDisasterActive: bool,
    activeThunders: seq<nat>,
    nextId: nat,
    schedulerRunning: bool,   // the coroutine held in disasterRoutine
    pending: seq<Stage>)

  const FirstDisasterDay: int := 3

  /** The inspector defaults before Start. */
  function Initial(): (r: Manager)
    ensures r.dailyDisasterChance == 0.3 && r.maxThunders == 5
    ensures !r.isDisasterActive && r.activeThunders == [] && !r.schedulerRunning && r.pending == []
  {
    Manager(0.3, 5, false, [], 0, false, [])
  }

  /** Start launches the scheduler. */
  function Start(m: Manager): (r: Manager)
    ensures r.schedulerRunning
    ensures r == m.(schedulerRunning := true)
  {
    m.(schedulerRunning := true)
  }

  /** The three conditions under which a scheduler wake-up starts a disaster. */
  predicate ShouldStart(m: Manager, currentDay: int, draw: real)
  {
    currentDay >= FirstDisasterDay && draw <= m.dailyDisasterChance && !m.isDisasterActive
  }

  /**
   * One scheduler wake-up. A started disaster runs at once up to its
   * warning wait: it is marked active and waits at Warning.
   */
  function SchedulerWake(m: Manager, currentDay: int, draw: real): (r: Manager)
    ensures m.schedulerRunning && ShouldStart(m, currentDay, draw) ==>
              r == m.(isDisasterActive := true, pending := m.pending + [Warning])
    ensures !(m.schedulerRunning && ShouldStart(m, currentDay, draw)) ==> r == m
  {
    if m.schedulerRunning && ShouldStart(m, currentDay, draw) then
      m.(isDisasterActive := true, pending := m.pending + [Warning])
    else m
  }

  /**
   * TriggerThunderDisaster's loop: strikes until `strikeCount` are placed
   * or the list holds `maxThunders` entries.
   */
  function Strike(thunders: seq<nat>, nextId: nat, maxThunders: int, strikeCount: int): (r: (seq<nat>, nat))
    ensures |r.0| == |thunders| + ThunderManager.Room(|thunders|, maxThunders, strikeCount)
    ensures r.0[..|thunders|] == thunders
    ensures r.1 == nextId + (|r.0| - |thunders|)
    ensures forall i :: |thunders| <= i < |r.0| ==> r.0[i] == nextId + (i - |thunders|)
    decreases if strikeCount > 0 then strikeCount else 0
  {
    if strikeCount > 0 && |thunders| < maxThunders then
      Strike(thunders + [nextId], nextId + 1, maxThunders, strikeCount - 1)
    else (thunders, nextId)
  }

  /** A waiting stage of a disaster resumes: the warning ends in the strikes, the cooldown in the end of the disaster. */
  function Resume(m: Manager, k: nat, strikeCount: int): (r: Manager)
    requires k < |m.pending|
    ensures m.pending[k] == Warning ==>
              r.pending == m.pending[k := Cooldown] && r.isDisasterActive == m.isDisasterActive
              && |r.activeThunders| == |m.activeThunders| + ThunderManager.Room(|m.activeThunders|, m.maxThunders, strikeCount)
    ensures m.pending[k] == Cooldown ==>
              r == m.(isDisasterActive := false, pending := m.pending[..k] + m.pending[k + 1..])
    ensures r.activeThunders[..|m.activeThunders|] == m.activeThunders
    ensures r.schedulerRunning == m.schedulerRunning && r.maxThunders == m.maxThunders
  {
    match m.pending[k]
    case Warning =>
      var (thunders, next) := Strike(m.activeThunders, m.nextId, m.maxThunders, strikeCount);
      m.(activeThunders := thunders, nextId := next, pending := m.pending[k := Cooldown])
    case Cooldown =>
      m.(isDisasterActive := false, pending := m.pending[..k] + m.pending[k + 1..])
  }

  /**
   * StopAllDisasters: the scheduler stops, the flag drops and the list is
   * emptied. A disaster coroutine that is already waiting is not stopped.
   */
  function StopAllDisasters(m: Manager): (r: Manager)
    ensures !r.schedulerRunning && !r.isDisasterActive && r.activeThunders == []
    ensures r.pending == m.pending && r.nextId == m.nextId
    ensures r.maxThunders == m.maxThunders && r.dailyDisasterChance == m.dailyDisasterChance
  {
    m.(schedulerRunning := false, isDisasterActive := false, activeThunders := [])
  }

  /** The list never holds more than maxThunders entries. */
  predicate Inv(m: Manager)
  {
    |m.activeThunders| <= m.maxThunders
  }

  lemma InitialInv()
    ensures Inv(Initial()) && Inv(Start(Initial()))
  {
  }

  /** Every step keeps the list within its cap. */
  lemma StepsKeepInv(m: Manager, currentDay: int, draw: real, k: nat, strikeCount: int)
    requires Inv(m)
    ensures Inv(SchedulerWake(m, currentDay, draw))
    ensures k < |m.pending| ==> Inv(Resume(m, k, strikeCount))
    ensures Inv(StopAllDisasters(m))
  {
  }

  /** A wake-up starts a disaster exactly when the scheduler runs, it is day 3 or later, the draw succeeds and none is active. */
  lemma StartGuard(m: Manager, currentDay: int, draw: real)
    ensures SchedulerWake(m, currentDay, draw).pending != m.pending
            <==> m.schedulerRunning && currentDay >= 3 && draw <= m.dailyDisasterChance && !m.isDisasterActive
  {
  }

  /**
   * The active flag is raised only by a starting disaster and lowered only
   * by a cooldown's end or StopAllDisasters: a wake-up never lowers it and
   * the strikes leave it alone.
   */
  lemma ActiveFlagLifecycle(m: Manager, currentDay: int, draw: real, k: nat, strikeCount: int)
    ensures m.isDisasterActive ==> SchedulerWake(m, currentDay, draw).isDisasterActive
    ensures !m.isDisasterActive && SchedulerWake(m, currentDay, draw).isDisasterActive ==>
              SchedulerWake(m, currentDay, draw).pending == m.pending + [Warning]
    ensures k < |m.pending| && m.pending[k] == Warning ==>
              Resume(m, k, strikeCount).isDisasterActive == m.isDisasterActive
    ensures k < |m.pending| && m.pending[k] == Cooldown ==> !Resume(m, k, strikeCount).isDisasterActive
  {
  }

  /** A strike adds the requested count, cut to the room left below the cap. */
  lemma StrikeCount(m: Manager, k: nat, strikeCount: int)
    requires k < |m.pending| && m.pending[k] == Warning
    requires 3 <= strikeCount <= 5 && m.maxThunders == 5 && Inv(m)
    ensures var n := |Resume(m, k, strikeCount).activeThunders| - |m.activeThunders|;
            n == (if strikeCount <= 5 - |m.activeThunders| then strikeCount else 5 - |m.activeThunders|)
  {
  }

  /**
   * Dead thunders stay listed, so once maxThunders have been struck every
   * further disaster strikes nothing until StopAllDisasters.
   */
  lemma FullListStrikesNothing(m: Manager, k: nat, strikeCount: int)
    requires k < |m.pending| && m.pending[k] == Warning
    requires |m.activeThunders| >= m.maxThunders
    ensures Resume(m, k, strikeCount).activeThunders == m.activeThunders
  {
  }

  /**
   * StopAllDisasters does not stop a disaster waiting at its warning: it
   * still strikes afterwards into the emptied list.
   */
  lemma StopLeavesDisasterInFlight(m: Manager, k: nat, strikeCount: int)
    requires k < |m.pending| && m.pending[k] == Warning
    requires strikeCount > 0 && m.maxThunders > 0
    ensures |Resume(StopAllDisasters(m), k, strikeCount).activeThunders| > 0
  {
  }

  /** After StopAllDisasters the scheduler never starts another disaster. */
  lemma StopEndsScheduling(m: Manager, currentDay: int, draw: real)
    ensures SchedulerWake(StopAllDisasters(m), currentDay, draw) == StopAllDisasters(m)
  {
  }
}

=== FILE: economy.dfy ===
/**
 * The gold purse of Assets/Script/Market/PlayerEconomy.cs. Gold is an
 * unbounded integer here; the C# int wraps at 2^31, which no play
 * session reaches.
 */
module PlayerEconomy {

  /** AddGold: the amount is added as given, with no lower bound. */
  function AddGold(gold: int, amount: int): (r: int)
    ensures r - gold == amount
  {
    gold + amount
  }

  /** Nothing stops a purse going negative: the callers must check first. */
  lemma AddGoldCanGoNegative(gold: int, amount: int)
    requires amount < -gold
    ensures AddGold(gold, amount) < 0
  {
  }
}

=== FILE: enemy_ai.dfy ===
/**
 * The shark of Assets/Script/EnemyAI.cs: a patrol/chase state machine with
 * a life timer, a patrol turn timer and a damage cooldown. Positions,
 * orbiting and rotation are not modelled. Whether the shark holds a target
 * is part of its state. What a frame needs from the scene is an input:
 * whether the held target still exists (a destroyed boat reads as null),
 * how far it is, and whether a fresh lookup finds the boat. The boat's
 * TakeDamage is reported as the amount dealt, not applied here.
 */
module EnemyAI {
  import opened Wrappers
  import SpawnSearch
  import EnemySpawner

  datatype State = Patrolling | Chasing

  datatype Settings = Settings(
    chaseRange: real,
    lifeDuration: real,
    patrolTurnChangeInterval: real,
    collisionCooldown: real,
    damageAmount: int)

  datatype Shark = Shark(
    currentState: State,
    lifeTimer: real,
    patrolTurnTimer: real,
    patrolTurnDirection: int,
    lastCollisionTime: real,
    hasTarget: bool)

  /** One frame's view of the scene. */
  datatype Frame = Frame(
    dt: real,
    targetAlive: bool,        // false once the held boat's GameObject is destroyed
    distanceToPlayer: real,   // read only when the shark has a target
    lookupFinds: bool)        // FindObjectOfType<BoatController>() result, when it is called

  /** The field defaults of a shark nobody called Init on. */
  function Uninitialised(): (r: Shark)
    ensures r.currentState == Patrolling && r.lifeTimer == 0.0 && r.patrolTurnDirection == 1
  {
    Shark(Patrolling, 0.0, 0.0, 1, 0.0, false)
  }

  /**
   * Init: patrolling with full timers, turning one way or the other by a
   * coin `coin` (Random.Range(0, 2)).
   */
  function Init(sh: Shark, settings: Settings, coin: int): (r: Shark)
    ensures r.currentState == Patrolling
    ensures r.lifeTimer == settings.lifeDuration && r.patrolTurnTimer == settings.patrolTurnChangeInterval
    ensures r.patrolTurnDirection == 1 || r.patrolTurnDirection == -1
    ensures r.patrolTurnDirection == 1 <==> coin == 0
    ensures r.lastCollisionTime == sh.lastCollisionTime && r.hasTarget == sh.hasTarget
  {
    sh.(currentState := Patrolling,
        lifeTimer := settings.lifeDuration,
        patrolTurnTimer := settings.patrolTurnChangeInterval,
        patrolTurnDirection := if coin == 0 then 1 else -1)
  }

  /** Start: a shark without a target looks the boat up once. */
  function Start(sh: Shark, f: Frame): (r: Shark)
    ensures r.hasTarget <==> sh.hasTarget || f.lookupFinds
    ensures r == sh.(hasTarget := r.hasTarget)
  {
    if !sh.hasTarget then sh.(hasTarget := f.lookupFinds) else sh
  }

  /** Unity's destroyed-object null: a target whose boat is gone is no target. */
  function Sight(sh: Shark, f: Frame): (r: Shark)
    ensures r.hasTarget <==> sh.hasTarget && f.targetAlive
    ensures r == sh.(hasTarget := r.hasTarget)
  {
    sh.(hasTarget := sh.hasTarget && f.targetAlive)
  }

  /**
   * CheckForPlayer. Without a target the shark only looks the boat up.
   * With one it starts chasing in range, and out of range it stops chasing
   * and gets a full life timer again.
   */
  function CheckForPlayer(sh: Shark, settings: Settings, f: Frame): (r: Shark)
    ensures !sh.hasTarget ==> r == sh.(hasTarget := f.lookupFinds)
    ensures sh.hasTarget && f.distanceToPlayer <= settings.chaseRange ==> r == sh.(currentState := Chasing)
    ensures sh.hasTarget && f.distanceToPlayer > settings.chaseRange ==>
              r.currentState == Patrolling && r.hasTarget
              && r.lifeTimer == (if sh.currentState == Chasing then settings.lifeDuration else sh.lifeTimer)
              && r.patrolTurnTimer == sh.patrolTurnTimer && r.patrolTurnDirection == sh.patrolTurnDirection
  {
    if !sh.hasTarget then sh.(hasTarget := f.lookupFinds)
    else if f.distanceToPlayer <= settings.chaseRange && !sh.currentState.Chasing? then
      sh.(currentState := Chasing)
    else if f.distanceToPlayer > settings.chaseRange && sh.currentState.Chasing? then
      sh.(currentState := Patrolling, lifeTimer := settings.lifeDuration)
    else sh
  }

  /** The turn part of HandlePatrolState: when the timer runs out the direction flips and the timer is rearmed. */
  function PatrolTurn(sh: Shark, settings: Settings, dt: real): (r: Shark)
    ensures sh.patrolTurnTimer - dt <= 0.0 ==>
              r.patrolTurnDirection == -sh.patrolTurnDirection && r.patrolTurnTimer == settings.patrolTurnChangeInterval
    ensures sh.patrolTurnTimer - dt > 0.0 ==>
              r.patrolTurnDirection == sh.patrolTurnDirection && r.patrolTurnTimer == sh.patrolTurnTimer - dt
    ensures r == sh.(patrolTurnTimer := r.patrolTurnTimer, patrolTurnDirection := r.patrolTurnDirection)
  {
    var t := sh.patrolTurnTimer - dt;
    if t <= 0.0 then sh.(patrolTurnDirection := -sh.patrolTurnDirection, patrolTurnTimer := settings.patrolTurnChangeInterval)
    else sh.(patrolTurnTimer := t)
  }

  /** HandleChaseState's fallback: a chasing shark without a target patrols again. */
  function ChaseFallback(sh: Shark): (r: Shark)
    ensures !sh.hasTarget ==> r == sh.(currentState := Patrolling)
    ensures sh.hasTarget ==> r == sh
  {
    if !sh.hasTarget then sh.(currentState := Patrolling) else sh
  }

  /**
   * Update: the life timer runs down first and, once it reaches 0, the
   * shark dies with no state logic that frame. Otherwise CheckForPlayer
   * runs, and then the handler of the state it leaves: the patrol turn or
   * the chase fallback. A target destroyed before the frame is seen as
   * null throughout. The second result says whether DestroyShark ran.
   */
  function Update(sh: Shark, settings: Settings, f: Frame): (r: (Shark, bool))
    ensures r.1 <==> sh.lifeTimer - f.dt <= 0.0
    ensures r.1 ==> r.0 == Sight(sh, f).(lifeTimer := sh.lifeTimer - f.dt)
    ensures !r.1 ==> r.0.patrolTurnDirection == sh.patrolTurnDirection || r.0.patrolTurnDirection == -sh.patrolTurnDirection
    ensures var checked := CheckForPlayer(Sight(sh, f).(lifeTimer := sh.lifeTimer - f.dt), settings, f);
            !r.1 && checked.currentState.Patrolling? ==> r.0 == PatrolTurn(checked, settings, f.dt)
    ensures var checked := CheckForPlayer(Sight(sh, f).(lifeTimer := sh.lifeTimer - f.dt), settings, f);
            !r.1 && checked.currentState.Chasing? ==> r.0 == ChaseFallback(checked)
  {
    var life := sh.lifeTimer - f.dt;
    var seen := Sight(sh, f);
    if life <= 0.0 then (seen.(lifeTimer := life), true)
    else
      var checked := CheckForPlayer(seen.(lifeTimer := life), settings, f);
      match checked.currentState
      case Patrolling => (PatrolTurn(checked, settings, f.dt), false)
      case Chasing => (ChaseFallback(checked), false)
  }

  /**
   * OnCollisionEnter2D: a hit on the player's boat after the cooldown deals
   * damageAmount and destroys the shark. Results: the shark, the damage
   * dealt, and whether DestroyShark ran.
   */
  function OnCollision(sh: Shark, settings: Settings, now: real, isPlayer: bool, hasBoat: bool): (r: (Shark, Option<int>, bool))
    ensures r.2 <==> isPlayer && hasBoat && now >= sh.lastCollisionTime + settings.collisionCooldown
    ensures r.1.Some? <==> r.2
    ensures r.2 ==> r.1.value == settings.damageAmount && r.0 == sh.(lastCollisionTime := now)
    ensures !r.2 ==> r.0 == sh
  {
    if isPlayer && now >= sh.lastCollisionTime + settings.collisionCooldown && hasBoat then
      (sh.(lastCollisionTime := now), Some(settings.damageAmount), true)
    else (sh, None, false)
  }

  /**
   * DestroyShark as the spawner sees it: first a replacement is requested,
   * then the death event takes one off the count. A shark without a
   * spawner leaves nothing to update.
   */
  method DestroyShark(spawner: Option<EnemySpawner.Spawner>, spots: seq<bool>) returns (r: Option<EnemySpawner.Spawner>)
    requires |spots| >= SpawnSearch.MaxAttempts
    ensures spawner.None? ==> r.None?
    ensures spawner.Some? ==> r.Some? && r.value.maxSharks == spawner.value.maxSharks
    ensures spawner.Some? && spawner.value.currentSharkCount >= spawner.value.maxSharks ==>
              r.value.currentSharkCount == spawner.value.currentSharkCount - 1
    ensures spawner.Some? && spawner.value.currentSharkCount < spawner.value.maxSharks ==>
              r.value.currentSharkCount == spawner.value.currentSharkCount - (if SpawnSearch.SpotAvailable(spots) then 0 else 1)
    ensures spawner.Some? && EnemySpawner.WithinCap(spawner.value) ==> EnemySpawner.WithinCap(r.value)
  {
    match spawner
    case None => r := None;
    case Some(s) =>
      var s2 := EnemySpawner.SpawnImmediate(s, spots);
      r := Some(EnemySpawner.OnSharkDestroyed(s2));
  }

  /** The turn direction stays 1 or -1 through every frame. */
  lemma DirectionStaysUnit(sh: Shark, settings: Settings, f: Frame)
    requires sh.patrolTurnDirection == 1 || sh.patrolTurnDirection == -1
    ensures Update(sh, settings, f).0.patrolTurnDirection == 1 || Update(sh, settings, f).0.patrolTurnDirection == -1
  {
  }

  /** A shark placed in the scene without Init has no life left and dies on its first frame. */
  lemma UninitialisedSharkDiesAtOnce(settings: Settings, f: Frame)
    requires f.dt >= 0.0
    ensures Update(Uninitialised(), settings, f).1
  {
  }

  /** A shark that chases and then loses the player keeps living a full lifeDuration from then. */
  lemma LosingThePlayerRenewsLife(sh: Shark, settings: Settings, f: Frame)
    requires sh.currentState == Chasing && sh.hasTarget && f.targetAlive
    requires sh.lifeTimer - f.dt > 0.0 && f.distanceToPlayer > settings.chaseRange
    ensures Update(sh, settings, f).0.lifeTimer == settings.lifeDuration
    ensures Update(sh, settings, f).0.currentState == Patrolling
  {
  }

  /** While it has a target in range and time to live, a shark chases. */
  lemma InRangeChases(sh: Shark, settings: Settings, f: Frame)
    requires sh.hasTarget && f.targetAlive && sh.lifeTimer - f.dt > 0.0 && f.distanceToPlayer <= settings.chaseRange
    ensures Update(sh, settings, f) == (sh.(currentState := Chasing, lifeTimer := sh.lifeTimer - f.dt), false)
  {
  }

  /**
   * A chasing shark whose boat was destroyed, and which finds no other,
   * drops back to patrol in the same frame. Its life is not renewed: only
   * losing a live target out of range renews it.
   */
  lemma TargetLostPatrols(sh: Shark, settings: Settings, f: Frame)
    requires sh.currentState == Chasing && sh.lifeTimer - f.dt > 0.0
    requires !f.targetAlive && !f.lookupFinds
    ensures !Update(sh, settings, f).1
    ensures Update(sh, settings, f).0.currentState == Patrolling && !Update(sh, settings, f).0.hasTarget
    ensures Update(sh, settings, f).0.lifeTimer == sh.lifeTimer - f.dt
  {
  }

  /** A patrolling shark with no target in range turns round when its turn timer runs out. */
  lemma PatrollingSharkTurns(sh: Shark, settings: Settings, f: Frame)
    requires sh.currentState == Patrolling && sh.lifeTimer - f.dt > 0.0
    requires !(sh.hasTarget && f.targetAlive && f.distanceToPlayer <= settings.chaseRange)
    requires sh.patrolTurnTimer - f.dt <= 0.0
    ensures Update(sh, settings, f).0.patrolTurnDirection == -sh.patrolTurnDirection
    ensures Update(sh, settings, f).0.patrolTurnTimer == settings.patrolTurnChangeInterval
  {
  }
}

=== FILE: enemy_spawner.dfy ===
/**
 * The shark counter of Assets/Script/EnemySpawner.cs. The spawner counts
 * the sharks it made; a shark's death event takes one off. The spawned
 * shark itself lives in EnemyAI. The fallback Invoke("SpawnShark", 2f)
 * names a method the class does not have, so a failed search spawns
 * nothing, now or later.
 */
module EnemySpawner {
  import opened SpawnSearch

  datatype Spawner = Spawner(maxSharks: int, currentSharkCount: int)

  function Initial(maxSharks: int): (r: Spawner)
    ensures r.currentSharkCount == 0 && r.maxSharks == maxSharks
  {
    Spawner(maxSharks, 0)
  }

  /** The count stays within the cap. */
  predicate WithinCap(s: Spawner)
  {
    s.currentSharkCount <= s.maxSharks
  }

  /**
   * SpawnImmediate: a spawner at or over its cap does nothing; otherwise
   * one shark is added exactly when a valid spot turns up within ten tries.
   */
  method SpawnImmediate(s: Spawner, spots: seq<bool>) returns (r: Spawner)
    requires |spots| >= MaxAttempts
    ensures s.currentSharkCount >= s.maxSharks ==> r == s
    ensures s.currentSharkCount < s.maxSharks ==>
              r == s.(currentSharkCount := s.currentSharkCount + (if SpotAvailable(spots) then 1 else 0))
    ensures WithinCap(s) ==> WithinCap(r)
  {
    if s.currentSharkCount >= s.maxSharks {
      return s;
    }
    var found, _ := FindSpot(spots);
    r := if found then s.(currentSharkCount := s.currentSharkCount + 1) else s;
  }

  /** One pass of SpawnSharkRoutine (its first call or a wake-up): the same guard as SpawnImmediate's own. */
  method RoutineWake(s: Spawner, spots: seq<bool>) returns (r: Spawner)
    requires |spots| >= MaxAttempts
    ensures s.currentSharkCount >= s.maxSharks ==> r == s
    ensures s.currentSharkCount < s.maxSharks ==>
              r == s.(currentSharkCount := s.currentSharkCount + (if SpotAvailable(spots) then 1 else 0))
    ensures WithinCap(s) ==> WithinCap(r)
  {
    r := s;
    if s.currentSharkCount < s.maxSharks {
      r := SpawnImmediate(s, spots);
    }
  }

  /** OnSharkDestroyed: one shark fewer. */
  function OnSharkDestroyed(s: Spawner): (r: Spawner)
    ensures r.currentSharkCount == s.currentSharkCount - 1 && r.maxSharks == s.maxSharks
    ensures WithinCap(s) ==> WithinCap(r) && r.currentSharkCount < r.maxSharks
  {
    s.(currentSharkCount := s.currentSharkCount - 1)
  }
}

=== FILE: fishing.dfy ===
/**
 * The fishing minigame of Assets/Script/Fishing.cs as a pure state machine.
 *
 * Five phase flags drive it: throwing, waiting for a bite, waiting to reel,
 * reeling, and the end by catch or cancel. One call of `Update` is one
 * frame. Key states, the frame time, the boat's IsMoving() answer and every
 * Random draw are fields of the `Frame` argument.
 *
 * The DetectFishBite coroutine becomes explicit `Pending` continuations that
 * `Resume` runs in any order. The source gives a coroutine no session token,
 * so a continuation outlives a cancel and still acts on whatever session is
 * running when it resumes. The clock is a port: the model records the last
 * SetPaused request.
 */
module Fishing {
  import opened Wrappers
  import opened Items
  import opened FishingMath
  import opened SlotList
  import InventoryManager
  import BoatController

  /** A suspended DetectFishBite: either waiting out the bite delay, or the two-second reel window after a bite. */
  datatype Pending = BiteCheck(delay: real) | ReelWindow

  /** The inspector settings the machine reads. The random ranges are represented by the draws in `Frame`. */
  datatype Config = Config(
    maxThrowPower: real,
    throwPowerCycleSpeed: real,
    throwFishSpeed: real,
    balanceSpeed: real,
    balanceSensitivity: real,
    reelGainSpeed: real,
    reelDecaySpeed: real,
    maxReelPower: real,
    tensionIncreaseRate: real,
    tensionDecreaseRate: real,
    maxLineTension: real,
    weakReelThreshold: real,
    strongReelThreshold: real,
    reelBalanceInfluenceDelay: real,
    reelBalanceInfluenceStrength: real,
    prolongedInfluenceDelay: real,
    prolongedInfluenceMultiplier: real,
    fishList: seq<Option<Fish>>)

  /** The three maxima are divisors in the source; a zero there gives a float NaN. */
  predicate ValidConfig(c: Config)
  {
    c.maxThrowPower > 0.0 && c.maxReelPower > 0.0 && c.maxLineTension > 0.0
  }

  datatype State = State(
    isFishing: bool,
    fishCaught: bool,
    isThrowing: bool,
    fishBiteDetected: bool,
    waitingToReel: bool,
    fishingProgress: real,
    throwPower: real,
    throwPowerDirection: int,
    throwFishPosition: real,
    throwFishDirection: int,
    throwAccuracy: real,
    balancePosition: real,
    balanceTarget: real,
    reelPower: real,
    currentLineTension: real,
    timeHeldTooWeak: real,
    timeHeldTooStrong: real,
    currentFish: Option<Fish>,
    randomTargetChangeTimer: real,
    currentRandomTargetChangeInterval: real,
    clockPaused: Option<bool>,   // the last SetPaused request, None before the first
    pending: seq<Pending>)

  /** One frame's input: key states, frame time, the boat's answer and the Random draws. */
  datatype Frame = Frame(
    dt: real,
    boatMoving: Option<bool>,    // None: no BoatController; otherwise what IsMoving() returned
    keyFDown: bool,
    spaceDown: bool,
    spaceUp: bool,
    spaceHeld: bool,
    keyA: bool,
    keyD: bool,
    intervalDraw: real,          // StartThrowing's target-change interval
    targetDraw: real,            // HandleBalanceBar's new target
    nextIntervalDraw: real,      // HandleBalanceBar's new interval
    influenceDraw: real,         // Random.value of the fish influence
    fishPick: int,               // Random.Range(0, fishList.Count)
    beginTargetDraw: real)       // BeginFishing's first target

  /** What one frame produces: the new state, the movement gate it set, and the item CatchFish handed to the inventory. */
  datatype Outcome = Outcome(state: State, movementEnabled: Option<bool>, caught: Option<ItemData>)

  /** Random.Range(0, n) on ints lies in [0, n), and is 0 when n is 0. */
  predicate PickInRange(c: Config, pick: int)
  {
    |c.fishList| == 0 || 0 <= pick < |c.fishList|
  }

  /** A session is under way: throwing, reeling, or a fish on the hook. */
  predicate Active(s: State)
  {
    s.isFishing || s.isThrowing || s.fishBiteDetected
  }

  /** The private fields start at their C# defaults; the public floats keep their inspector values. */
  function Initial(progress: real, throwPower: real, balance: real, target: real, reel: real, tension: real): (r: State)
    ensures !Active(r) && !r.waitingToReel && !r.fishCaught
    ensures r.pending == [] && r.clockPaused.None? && r.currentFish.None?
    ensures r.timeHeldTooWeak == 0.0 && r.timeHeldTooStrong == 0.0 && r.throwAccuracy == 0.0
  {
    State(false, false, false, false, false, progress, throwPower, 0, 0.0, 0, 0.0, balance, target, reel, tension,
          0.0, 0.0, None, 0.0, 0.0, None, [])
  }

  /**
   * CancelFishing: all five flags and both zone timers cleared and the clock
   * released. Progress, reel power, tension, the fish and the pending
   * coroutines are left as they were.
   */
  function Cancel(s: State): (r: State)
    ensures !Active(r) && !r.waitingToReel && !r.fishCaught
    ensures r.timeHeldTooWeak == 0.0 && r.timeHeldTooStrong == 0.0
    ensures r.clockPaused == Some(false)
    ensures r.pending == s.pending && r.currentFish == s.currentFish
    ensures r.fishingProgress == s.fishingProgress && r.reelPower == s.reelPower
    ensures r.currentLineTension == s.currentLineTension && r.balancePosition == s.balancePosition
    ensures r.throwAccuracy == s.throwAccuracy
  {
    s.(isFishing := false, isThrowing := false, fishCaught := false, fishBiteDetected := false,
       waitingToReel := false, timeHeldTooWeak := 0.0, timeHeldTooStrong := 0.0, clockPaused := Some(false))
  }

  /** StartThrowing: a fresh throw, both meters at 0 moving up. `waitingToReel` is not touched. */
  function StartThrowing(s: State, intervalDraw: real): (r: State)
    ensures r.isThrowing && !r.isFishing && !r.fishBiteDetected && !r.fishCaught
    ensures r.waitingToReel == s.waitingToReel
    ensures r.throwPower == 0.0 && r.throwPowerDirection == 1
    ensures r.throwFishPosition == 0.0 && r.throwFishDirection == 1
    ensures r.randomTargetChangeTimer == 0.0 && r.currentRandomTargetChangeInterval == intervalDraw
    ensures r.pending == s.pending
  {
    s.(isThrowing := true, isFishing := false, fishBiteDetected := false, fishCaught := false,
       throwPower := 0.0, throwPowerDirection := 1, throwFishPosition := 0.0, throwFishDirection := 1,
       randomTargetChangeTimer := 0.0, currentRandomTargetChangeInterval := intervalDraw)
  }

  /** The wait before the bite check: one second for a perfect throw, up to five for the worst. */
  function BiteDelay(accuracy: real): (r: real)
    ensures 0.0 <= accuracy <= 1.0 ==> 1.0 <= r <= 5.0
    ensures accuracy == 1.0 ==> r == 1.0
    ensures accuracy == 0.0 ==> r == 5.0
  {
    1.0 + (1.0 - accuracy) * 4.0
  }

  /** The chance of a bite, read from the accuracy when the check resumes. */
  function BiteChance(accuracy: real): (r: real)
    ensures 0.0 <= accuracy <= 1.0 ==> 0.0 <= r <= 0.9
    ensures accuracy == 1.0 ==> r == 0.9
  {
    accuracy * 0.9
  }

  /** Throw accuracy: one minus the distance between the normalised power and the target, clamped to [0, 1]. */
  function ThrowAccuracy(power: real, maxPower: real, target: real): (r: real)
    requires maxPower > 0.0
    ensures 0.0 <= r <= 1.0
    ensures r == 1.0 <==> power / maxPower == target
  {
    Clamp01(1.0 - Abs(power / maxPower - target))
  }

  /**
   * Releasing Space ends the throw. An accuracy below 0.1 cancels at once;
   * otherwise fishCaught is cleared and a bite check is queued.
   */
  function Release(c: Config, s: State): (r: State)
    requires ValidConfig(c)
    ensures !r.isThrowing
    ensures r.throwAccuracy == ThrowAccuracy(s.throwPower, c.maxThrowPower, s.throwFishPosition)
    ensures r.throwAccuracy < 0.1 ==> !Active(r) && r.pending == s.pending && r.clockPaused == Some(false)
    ensures r.throwAccuracy >= 0.1 ==>
              !r.fishCaught && r.pending == s.pending + [BiteCheck(BiteDelay(r.throwAccuracy))]
              && r.isFishing == s.isFishing && r.fishBiteDetected == s.fishBiteDetected
  {
    var acc := ThrowAccuracy(s.throwPower, c.maxThrowPower, s.throwFishPosition);
    var released := s.(isThrowing := false, throwAccuracy := acc);
    if acc < 0.1 then Cancel(released)
    else released.(fishCaught := false, pending := s.pending + [BiteCheck(BiteDelay(acc))])
  }

  /** A meter direction reverses when the meter sits at either end after clamping. */
  function Bounce(v: real, lo: real, hi: real, direction: int): (r: int)
    ensures (direction == 1 || direction == -1) ==> (r == 1 || r == -1)
    ensures lo < v < hi ==> r == direction
    ensures v >= hi || v <= lo ==> r == -direction
  {
    if v >= hi || v <= lo then -direction else direction
  }

  /**
   * HandleThrowing: the power meter and the fish target move and bounce,
   * each clamped to its bar, and a Space release ends the throw.
   */
  function HandleThrowing(c: Config, s: State, f: Frame): (r: State)
    requires ValidConfig(c)
    ensures 0.0 <= r.throwPower <= c.maxThrowPower && 0.0 <= r.throwFishPosition <= 1.0
    ensures !f.spaceUp ==> r.isThrowing == s.isThrowing && r.pending == s.pending
    ensures f.spaceUp ==> !r.isThrowing
  {
    var moved := Swing(c, s, f);
    if f.spaceUp then Release(c, moved) else moved
  }

  /** The meter part of HandleThrowing: only the two meters and their directions move. */
  function Swing(c: Config, s: State, f: Frame): (r: State)
    requires ValidConfig(c)
    ensures 0.0 <= r.throwPower <= c.maxThrowPower && 0.0 <= r.throwFishPosition <= 1.0
    ensures r == s.(throwPower := r.throwPower, throwPowerDirection := r.throwPowerDirection,
                    throwFishPosition := r.throwFishPosition, throwFishDirection := r.throwFishDirection)
  {
    var power := Clamp(s.throwPower + (s.throwPowerDirection as real) * c.throwPowerCycleSpeed * f.dt, 0.0, c.maxThrowPower);
    var position := Clamp01(s.throwFishPosition + (s.throwFishDirection as real) * c.throwFishSpeed * f.dt);
    s.(throwPower := power, throwPowerDirection := Bounce(power, 0.0, c.maxThrowPower, s.throwPowerDirection),
       throwFishPosition := position, throwFishDirection := Bounce(position, 0.0, 1.0, s.throwFishDirection))
  }

  /**
   * BeginFishing: the bite is taken, the clock paused and a fish drawn. A
   * null entry cancels. On an empty list the index throws after the flags
   * and the pause were written, and the rest of the frame is lost.
   */
  function BeginFishing(c: Config, s: State, pick: int, target: real): (r: State)
    requires ValidConfig(c) && PickInRange(c, pick)
    ensures !r.waitingToReel && !r.fishBiteDetected
    ensures r.pending == s.pending
    ensures |c.fishList| > 0 && c.fishList[pick].None? ==> !Active(r) && r.clockPaused == Some(false)
    ensures |c.fishList| > 0 && c.fishList[pick].Some? ==>
              r.isFishing && r.clockPaused == Some(true) && r.currentFish == c.fishList[pick]
              && r.fishingProgress == 0.0 && r.reelPower == c.maxReelPower / 2.0
              && r.balancePosition == 0.0 && r.balanceTarget == target
              && r.currentLineTension == c.maxLineTension / 2.0
              && r.timeHeldTooWeak == 0.0 && r.timeHeldTooStrong == 0.0
    ensures |c.fishList| == 0 ==> r.isFishing && r.clockPaused == Some(true) && r.currentFish == s.currentFish
  {
    var t := s.(waitingToReel := false, fishBiteDetected := false, isFishing := true, clockPaused := Some(true));
    if |c.fishList| == 0 then t
    else
      var fish := c.fishList[pick];
      if fish.None? then Cancel(t.(currentFish := None))
      else t.(currentFish := fish, fishingProgress := 0.0, reelPower := c.maxReelPower / 2.0, balancePosition := 0.0,
              balanceTarget := target, currentLineTension := c.maxLineTension / 2.0,
              timeHeldTooWeak := 0.0, timeHeldTooStrong := 0.0)
  }

  /**
   * CatchFish: the session ends as caught and the clock is released. The
   * fish's item goes to the inventory only when the list is non-empty and
   * both the fish and its item are non-null.
   */
  function CatchFish(c: Config, s: State): (r: (State, Option<ItemData>))
    ensures r.0.fishCaught && !r.0.isFishing && r.0.clockPaused == Some(false)
    ensures r.0.isThrowing == s.isThrowing && r.0.fishBiteDetected == s.fishBiteDetected
    ensures r.0.pending == s.pending
    ensures r.1.Some? <==> |c.fishList| > 0 && s.currentFish.Some? && s.currentFish.value.itemData.Some?
    ensures r.1.Some? ==> r.1 == s.currentFish.value.itemData
  {
    var item := if |c.fishList| > 0 && s.currentFish.Some? then s.currentFish.value.itemData else None;
    (s.(fishCaught := true, isFishing := false, clockPaused := Some(false)), item)
  }

  /** HandleFishingProgress: the banded progress step, skipped without a fish. */
  function HandleFishingProgress(s: State, dt: real): (r: State)
    ensures s.currentFish.Some? ==> 0.0 <= r.fishingProgress <= 1.0
    ensures s.currentFish.None? ==> r == s
    ensures r == s.(fishingProgress := r.fishingProgress)
  {
    if s.currentFish.None? then s
    else s.(fishingProgress := ProgressStep(s.fishingProgress, BalanceAccuracy(s.balancePosition, s.balanceTarget),
                                            s.currentFish.value.strength, dt))
  }

  /**
   * The push a held weak or strong reel gives the balance: left for weak,
   * right for strong, the weak timer checked first, the multiplier applied
   * once a timer passes the prolonged delay.
   */
  function ReelInfluence(c: Config, weak: real, strong: real): (r: real)
    ensures weak <= c.reelBalanceInfluenceDelay && strong <= c.reelBalanceInfluenceDelay ==> r == 0.0
    ensures weak > c.reelBalanceInfluenceDelay ==>
              r == -c.reelBalanceInfluenceStrength * (if weak > c.prolongedInfluenceDelay then c.prolongedInfluenceMultiplier else 1.0)
    ensures weak <= c.reelBalanceInfluenceDelay && strong > c.reelBalanceInfluenceDelay ==>
              r == c.reelBalanceInfluenceStrength * (if strong > c.prolongedInfluenceDelay then c.prolongedInfluenceMultiplier else 1.0)
  {
    if weak > c.reelBalanceInfluenceDelay then
      var influence := -c.reelBalanceInfluenceStrength;
      if weak > c.prolongedInfluenceDelay then influence * c.prolongedInfluenceMultiplier else influence
    else if strong > c.reelBalanceInfluenceDelay then
      var influence := c.reelBalanceInfluenceStrength;
      if strong > c.prolongedInfluenceDelay then influence * c.prolongedInfluenceMultiplier else influence
    else 0.0
  }

  /**
   * HandleBalanceBar: the target is redrawn when its timer runs out, and the
   * position moves by player input, the held-reel push and the fish's pull,
   * clamped to [-1, 1]. Skipped without a fish.
   */
  function HandleBalanceBar(c: Config, s: State, f: Frame): (r: State)
    ensures s.currentFish.Some? ==> -1.0 <= r.balancePosition <= 1.0
    ensures s.currentFish.None? ==> r == s
    ensures r.fishingProgress == s.fishingProgress && r.reelPower == s.reelPower
    ensures r.currentLineTension == s.currentLineTension && r.currentFish == s.currentFish
    ensures r.timeHeldTooWeak == s.timeHeldTooWeak && r.timeHeldTooStrong == s.timeHeldTooStrong
    ensures r == s.(balancePosition := r.balancePosition, balanceTarget := r.balanceTarget,
                    randomTargetChangeTimer := r.randomTargetChangeTimer,
                    currentRandomTargetChangeInterval := r.currentRandomTargetChangeInterval)
  {
    if s.currentFish.None? then s
    else
      var timer := s.randomTargetChangeTimer + f.dt;
      var redraw := timer >= s.currentRandomTargetChangeInterval;
      var input := (if f.keyA then -c.balanceSensitivity else 0.0) + (if f.keyD then c.balanceSensitivity else 0.0);
      var fishInfluence := (f.influenceDraw * 2.0 - 1.0) * s.currentFish.value.strength * 0.1 * f.dt;
      var reelInfluence := ReelInfluence(c, s.timeHeldTooWeak, s.timeHeldTooStrong);
      s.(randomTargetChangeTimer := if redraw then 0.0 else timer,
         balanceTarget := if redraw then f.targetDraw else s.balanceTarget,
         currentRandomTargetChangeInterval := if redraw then f.nextIntervalDraw else s.currentRandomTargetChangeInterval,
         balancePosition := Clamp(s.balancePosition + (input * c.balanceSpeed + reelInfluence) * f.dt + fishInfluence, -1.0, 1.0))
  }

  /**
   * The weak/strong zone timers: below the weak threshold the weak timer
   * grows and the strong one resets, above the strong threshold the
   * reverse, in between both reset.
   */
  function ZoneTimers(c: Config, p: real, weak: real, strong: real, dt: real): (r: (real, real))
    ensures r.0 == 0.0 || r.1 == 0.0
    ensures r.0 != 0.0 ==> p < c.weakReelThreshold
    ensures r.1 != 0.0 ==> p > c.strongReelThreshold && p >= c.weakReelThreshold
    ensures weak >= 0.0 && strong >= 0.0 && dt >= 0.0 ==> r.0 >= 0.0 && r.1 >= 0.0
    ensures p < c.weakReelThreshold ==> r.0 == weak + dt
    ensures c.weakReelThreshold <= p && c.strongReelThreshold < p ==> r.1 == strong + dt
  {
    if p < c.weakReelThreshold then (weak + dt, 0.0)
    else if p > c.strongReelThreshold then (0.0, strong + dt)
    else (0.0, 0.0)
  }

  /**
   * HandleReelBar: reel power always moves; with a fish the tension follows
   * the banded rule and the zone timers are updated.
   */
  function HandleReelBar(c: Config, s: State, f: Frame): (r: State)
    requires ValidConfig(c)
    ensures 0.0 <= r.reelPower <= c.maxReelPower
    ensures s.currentFish.Some? ==> 0.0 <= r.currentLineTension <= c.maxLineTension
    ensures s.currentFish.None? ==> r == s.(reelPower := r.reelPower)
    ensures r.timeHeldTooWeak == 0.0 || r.timeHeldTooStrong == 0.0 || s.currentFish.None?
    ensures r == s.(reelPower := r.reelPower, currentLineTension := r.currentLineTension,
                    timeHeldTooWeak := r.timeHeldTooWeak, timeHeldTooStrong := r.timeHeldTooStrong)
  {
    var reel := ReelStep(s.reelPower, f.spaceHeld, c.reelGainSpeed, c.reelDecaySpeed, f.dt, c.maxReelPower);
    var t := s.(reelPower := reel);
    if s.currentFish.None? then t
    else
      var p := reel / c.maxReelPower;
      var timers := ZoneTimers(c, p, s.timeHeldTooWeak, s.timeHeldTooStrong, f.dt);
      t.(currentLineTension := TensionStep(s.currentLineTension, p, c.tensionIncreaseRate, c.tensionDecreaseRate, f.dt,
                                           s.currentFish.value.strength, c.maxLineTension),
         timeHeldTooWeak := timers.0, timeHeldTooStrong := timers.1)
  }

  /** The three handlers of a reeling frame, in the source's order: progress, balance, reel. */
  function Handled(c: Config, s: State, f: Frame): (r: State)
    requires ValidConfig(c)
  {
    HandleReelBar(c, HandleBalanceBar(c, HandleFishingProgress(s, f.dt), f), f)
  }

  /** The line snaps at full tension, and the fish escapes on a slack line before progress reaches 0.99. */
  predicate Snapped(c: Config, s: State)
  {
    s.currentLineTension >= c.maxLineTension || (s.currentLineTension <= 0.0 && s.fishingProgress < 0.99)
  }

  /**
   * A reeling frame: the handlers, then the cancel check, then the catch
   * check, which still runs after a cancel in the same frame.
   */
  function Reeling(c: Config, s: State, f: Frame): (r: (State, Option<ItemData>))
    requires ValidConfig(c)
    ensures var h := Handled(c, s, f);
            h.fishingProgress >= 1.0 ==> r == CatchFish(c, if Snapped(c, h) then Cancel(h) else h)
    ensures var h := Handled(c, s, f);
            h.fishingProgress < 1.0 ==> r.1.None? && r.0 == (if Snapped(c, h) then Cancel(h) else h)
  {
    var h := Handled(c, s, f);
    var ended := if Snapped(c, h) then Cancel(h) else h;
    if ended.fishingProgress >= 1.0 then CatchFish(c, ended) else (ended, None)
  }

  /** The movement gate, the moving-boat cancel and the start guard that open Update. */
  function Gate(s: State, f: Frame): (r: State)
    ensures r.isThrowing && !s.isThrowing <==> f.boatMoving == Some(false) && !Active(s) && f.keyFDown
    ensures f.boatMoving != Some(false) ==> !Active(r)
    ensures f.boatMoving != Some(false) && Active(s) ==> r == Cancel(s)
    ensures f.boatMoving == Some(false) && Active(s) ==> r == s
    ensures !Active(s) && !(f.boatMoving == Some(false) && f.keyFDown) ==> r == s
  {
    if f.boatMoving != Some(false) then (if Active(s) then Cancel(s) else s)
    else if !Active(s) && f.keyFDown then StartThrowing(s, f.intervalDraw)
    else s
  }

  /**
   * One frame of Update: gate, then the throwing branch or the reeling
   * branch, then the reel-in on Space while a bite waits.
   */
  function Update(c: Config, s: State, f: Frame): (r: Outcome)
    requires ValidConfig(c) && PickInRange(c, f.fishPick)
    ensures f.boatMoving.Some? ==> r.movementEnabled == Some(!Active(s))
    ensures f.boatMoving.None? ==> r.movementEnabled.None?
    ensures r.caught.Some? ==> var g := Gate(s, f);
              g.isFishing && !g.isThrowing && !g.fishCaught && g.currentFish.Some? && r.caught == g.currentFish.value.itemData
    ensures f.boatMoving != Some(false) && Active(s) ==> r.state == Cancel(s) && r.caught.None?
    ensures f.boatMoving != Some(false) && !Active(s) && !(s.waitingToReel && f.spaceDown) ==> r.state == s && r.caught.None?
    ensures f.boatMoving == Some(false) && !s.isThrowing && !s.isFishing && s.fishBiteDetected && s.waitingToReel && f.spaceDown ==>
              r.state == BeginFishing(c, s, f.fishPick, f.beginTargetDraw) && r.caught.None?
    ensures f.boatMoving == Some(false) && s.isThrowing && !s.waitingToReel ==> r.state == HandleThrowing(c, s, f) && r.caught.None?
    ensures f.boatMoving == Some(false) && !Active(s) && f.keyFDown && !(s.waitingToReel && f.spaceDown) ==>
              r.state == HandleThrowing(c, StartThrowing(s, f.intervalDraw), f) && r.caught.None?
    ensures f.boatMoving == Some(false) && !Active(s) && !f.keyFDown && !(s.waitingToReel && f.spaceDown) ==>
              r.state == s && r.caught.None?
    ensures f.boatMoving == Some(false) && s.isFishing && !s.isThrowing && !s.fishCaught && !s.waitingToReel ==>
              r.state == Reeling(c, s, f).0 && r.caught == Reeling(c, s, f).1
  {
    var g := Gate(s, f);
    var phase := if g.isThrowing then (HandleThrowing(c, g, f), None)
                 else if g.isFishing && !g.fishCaught then Reeling(c, g, f)
                 else (g, None);
    var after := if phase.0.waitingToReel && f.spaceDown then BeginFishing(c, phase.0, f.fishPick, f.beginTargetDraw)
                 else phase.0;
    Outcome(after, if f.boatMoving.Some? then Some(!Active(s)) else None, phase.1)
  }

  /**
   * A coroutine continues. A bite check reads the accuracy current at that
   * moment: a draw below 0.9 times it hooks a fish and opens the reel
   * window, anything else cancels. The reel window cancels if the bite is
   * still waiting.
   */
  function Resume(c: Config, s: State, k: int, value: real): (r: State)
    requires 0 <= k < |s.pending|
    ensures s.pending[k].BiteCheck? && value < BiteChance(s.throwAccuracy) ==>
              r.fishBiteDetected && r.waitingToReel && r.pending == s.pending[..k] + s.pending[k + 1..] + [ReelWindow]
              && r.isFishing == s.isFishing && r.isThrowing == s.isThrowing
    ensures s.pending[k].BiteCheck? && value >= BiteChance(s.throwAccuracy) ==>
              r == Cancel(s).(pending := s.pending[..k] + s.pending[k + 1..])
    ensures s.pending[k].ReelWindow? ==>
              r == (if s.waitingToReel then Cancel(s) else s).(pending := s.pending[..k] + s.pending[k + 1..])
  {
    var rest := s.pending[..k] + s.pending[k + 1..];
    var t := s.(pending := rest);
    match s.pending[k]
    case BiteCheck(_) =>
      if value < BiteChance(s.throwAccuracy) then t.(fishBiteDetected := true, waitingToReel := true, pending := rest + [ReelWindow])
      else Cancel(t)
    case ReelWindow => if t.waitingToReel then Cancel(t) else t
  }

  // ---------------------------------------------------------------------
  // The state invariant
  // ---------------------------------------------------------------------

  predicate ThrowInRange(c: Config, s: State)
  {
    && 0.0 <= s.throwPower <= c.maxThrowPower
    && 0.0 <= s.throwFishPosition <= 1.0
    && (s.throwPowerDirection == 1 || s.throwPowerDirection == -1)
    && (s.throwFishDirection == 1 || s.throwFishDirection == -1)
  }

  predicate ReelInRange(c: Config, s: State)
  {
    && 0.0 <= s.fishingProgress <= 1.0
    && 0.0 <= s.reelPower <= c.maxReelPower
    && 0.0 <= s.currentLineTension <= c.maxLineTension
    && -1.0 <= s.balancePosition <= 1.0
  }

  predicate DelayInRange(p: Pending)
  {
    p.BiteCheck? ==> 1.0 <= p.delay <= 5.0
  }

  /**
   * What every reachable state satisfies: the meters of the running phase
   * lie on their bars, at most one zone timer runs, a bite always waits
   * for the reel-in, and every queued bite delay lies in [1, 5] seconds.
   */
  predicate Inv(c: Config, s: State)
  {
    && 0.0 <= s.throwAccuracy <= 1.0
    && s.timeHeldTooWeak >= 0.0 && s.timeHeldTooStrong >= 0.0
    && (s.timeHeldTooWeak == 0.0 || s.timeHeldTooStrong == 0.0)
    && (s.waitingToReel <==> s.fishBiteDetected)
    && (s.isThrowing ==> ThrowInRange(c, s))
    && (s.isFishing ==> ReelInRange(c, s))
    && (forall p :: p in s.pending ==> DelayInRange(p))
  }

  lemma InitialInv(c: Config, progress: real, throwPower: real, balance: real, target: real, reel: real, tension: real)
    ensures Inv(c, Initial(progress, throwPower, balance, target, reel, tension))
  {
  }

  lemma CancelKeepsInv(c: Config, s: State)
    requires Inv(c, s)
    ensures Inv(c, Cancel(s))
  {
  }

  lemma GateKeepsInv(c: Config, s: State, f: Frame)
    requires ValidConfig(c) && Inv(c, s)
    ensures Inv(c, Gate(s, f))
  {
  }

  lemma ThrowingKeepsInv(c: Config, s: State, f: Frame)
    requires ValidConfig(c) && Inv(c, s) && s.isThrowing
    ensures Inv(c, HandleThrowing(c, s, f))
  {
    var r := HandleThrowing(c, s, f);
    if f.spaceUp && r.throwAccuracy >= 0.1 {
      var acc := r.throwAccuracy;
      assert BiteDelay(acc) <= 5.0;
      forall p | p in r.pending
        ensures DelayInRange(p)
      {
        if p !in s.pending {
          assert p == BiteCheck(BiteDelay(acc));
        }
      }
    }
  }

  lemma ReelingKeepsInv(c: Config, s: State, f: Frame)
    requires ValidConfig(c) && Inv(c, s) && s.isFishing && f.dt >= 0.0
    ensures Inv(c, Reeling(c, s, f).0)
  {
    HandledKeepsInv(c, s, f);
    var h := Handled(c, s, f);
    if Snapped(c, h) {
      CancelKeepsInv(c, h);
    }
  }

  /** The three handlers of a reeling frame keep the invariant, with at most one zone timer running. */
  lemma HandledKeepsInv(c: Config, s: State, f: Frame)
    requires ValidConfig(c) && Inv(c, s) && s.isFishing && f.dt >= 0.0
    ensures Inv(c, Handled(c, s, f))
  {
    var h1 := HandleFishingProgress(s, f.dt);
    var h2 := HandleBalanceBar(c, h1, f);
    var h := HandleReelBar(c, h2, f);
    assert h == Handled(c, s, f);
    if s.currentFish.Some? {
      var p := h.reelPower / c.maxReelPower;
      var timers := ZoneTimers(c, p, h2.timeHeldTooWeak, h2.timeHeldTooStrong, f.dt);
      assert h.timeHeldTooWeak == timers.0 && h.timeHeldTooStrong == timers.1;
    }
    assert Inv(c, h);
  }

  lemma BeginKeepsInv(c: Config, s: State, pick: int, target: real)
    requires ValidConfig(c) && PickInRange(c, pick) && |c.fishList| > 0 && Inv(c, s)
    ensures Inv(c, BeginFishing(c, s, pick, target))
  {
  }

  /**
   * Every frame keeps the invariant, given a non-empty fish list (an empty
   * one throws in BeginFishing and leaves a session with stale meters) and
   * a frame time that does not run backwards.
   */
  lemma UpdateKeepsInv(c: Config, s: State, f: Frame)
    requires ValidConfig(c) && PickInRange(c, f.fishPick) && |c.fishList| > 0
    requires f.dt >= 0.0 && Inv(c, s)
    ensures Inv(c, Update(c, s, f).state)
  {
    var g := Gate(s, f);
    GateKeepsInv(c, s, f);
    if g.isThrowing {
      ThrowingKeepsInv(c, g, f);
    } else if g.isFishing && !g.fishCaught {
      ReelingKeepsInv(c, g, f);
    }
    var phase := if g.isThrowing then (HandleThrowing(c, g, f), None)
                 else if g.isFishing && !g.fishCaught then Reeling(c, g, f)
                 else (g, None);
    if phase.0.waitingToReel && f.spaceDown {
      BeginKeepsInv(c, phase.0, f.fishPick, f.beginTargetDraw);
    }
  }

  /** Every coroutine continuation keeps the invariant. */
  lemma ResumeKeepsInv(c: Config, s: State, k: int, value: real)
    requires 0 <= k < |s.pending| && Inv(c, s)
    ensures Inv(c, Resume(c, s, k, value))
  {
    var rest := s.pending[..k] + s.pending[k + 1..];
    assert forall p :: p in rest ==> p in s.pending;
  }

  // ---------------------------------------------------------------------
  // Properties of the machine
  // ---------------------------------------------------------------------

  /**
   * A release is graded against the moving target: a better throw never
   * waits longer for the bite check nor bites less often, and an accepted
   * throw (accuracy at least 0.1) waits between 1 and 4.6 seconds with a
   * chance between 0.09 and 0.9.
   */
  lemma BetterThrowBitesSooner(a: real, b: real)
    requires 0.1 <= a <= b <= 1.0
    ensures BiteDelay(b) <= BiteDelay(a) && BiteChance(a) <= BiteChance(b)
    ensures 1.0 <= BiteDelay(a) <= 4.6 && 0.09 <= BiteChance(a) <= 0.9
    ensures BiteDelay(1.0) == 1.0 && BiteChance(1.0) == 0.9
  {
  }

  /**
   * A line that snaps in the frame the progress reaches 1 still lands the
   * fish: the catch check runs after the cancel.
   */
  lemma SnapAndCatchSameFrame(c: Config, s: State, f: Frame)
    requires ValidConfig(c)
    requires Handled(c, s, f).currentLineTension >= c.maxLineTension
    requires Handled(c, s, f).fishingProgress >= 1.0
    ensures Reeling(c, s, f).0.fishCaught && !Active(Reeling(c, s, f).0)
    ensures Reeling(c, s, f).0.clockPaused == Some(false)
    ensures Reeling(c, s, f).1 == CatchFish(c, Handled(c, s, f)).1
  {
  }

  /**
   * The hand-over of CatchFish: a frame's caught item goes to the newer
   * inventory manager with amount 1, and a frame without a catch leaves the
   * inventory alone. The manager is taken to be present.
   */
  function Deliver(inv: InventoryManager.Inventory, o: Outcome): (r: (InventoryManager.Inventory, bool))
    ensures o.caught.None? ==> r == (inv, false)
    ensures r.0.activeHand == inv.activeHand && |r.0.slots| == |inv.slots|
  {
    if o.caught.None? then (inv, false) else InventoryManager.AddItem(inv, o.caught, 1)
  }

  /**
   * A frame that catches a fish with an item hands exactly one of that item
   * to the inventory: when the placement succeeds its total grows by one and
   * every other item's total stays put.
   */
  lemma CaughtFishReachesInventory(inv: InventoryManager.Inventory, o: Outcome, item: ItemData, other: Option<ItemData>)
    requires o.caught == Some(item) && other != Some(item)
    requires Tidy(inv.slots) && Deliver(inv, o).1
    ensures Total(Deliver(inv, o).0.slots, Some(item)) == Total(inv.slots, Some(item)) + 1
    ensures Total(Deliver(inv, o).0.slots, other) == Total(inv.slots, other)
  {
    PlaceTotals(inv.slots, item, 1, other);
  }

  /**
   * The bite check survives a cancel: after CancelFishing it still hooks a
   * fish and raises the bite flags, with no session behind them.
   */
  lemma StaleBiteSurvivesCancel(c: Config, s: State, k: int, value: real)
    requires 0 <= k < |s.pending| && s.pending[k].BiteCheck?
    requires value < BiteChance(s.throwAccuracy)
    ensures Resume(c, Cancel(s), k, value).fishBiteDetected && Resume(c, Cancel(s), k, value).waitingToReel
    ensures !Resume(c, Cancel(s), k, value).isFishing && !Resume(c, Cancel(s), k, value).isThrowing
  {
  }

  /**
   * A left-over bite check that misses ends whatever session is running,
   * including a reeling session started from a later throw.
   */
  lemma StaleMissEndsLiveSession(c: Config, s: State, k: int, value: real)
    requires 0 <= k < |s.pending| && s.pending[k].BiteCheck?
    requires s.isFishing && value >= BiteChance(s.throwAccuracy)
    ensures !Resume(c, s, k, value).isFishing
    ensures Resume(c, s, k, value).clockPaused == Some(false)
  {
  }

  /**
   * With the boat of Assets/Script/Player/BoatController.cs, whose IsMoving
   * needs enabled movement, the gate Update sets first keeps an active
   * session's boat still, so the moving-boat cancel never fires for it.
   */
  lemma OwnBoatNeverCancels(s: State, f: Frame, b: BoatController.Boat)
    requires Active(s)
    requires f.boatMoving == Some(BoatController.IsMoving(BoatController.SetMovementEnabled(b, !Active(s))))
    ensures Gate(s, f) == s
  {
  }

  /**
   * While at most one zone timer runs (as Inv guarantees), a reel held in
   * the weak zone past the delay pushes the balance left and one held in
   * the strong zone pushes it right; with the default multiplier of 2 the
   * push doubles past the prolonged delay.
   */
  lemma ReelInfluenceDirection(c: Config, weak: real, strong: real)
    requires c.reelBalanceInfluenceStrength > 0.0 && c.prolongedInfluenceMultiplier > 0.0
    requires weak == 0.0 || strong == 0.0
    requires c.reelBalanceInfluenceDelay >= 0.0
    ensures weak > c.reelBalanceInfluenceDelay ==> ReelInfluence(c, weak, strong) < 0.0
    ensures strong > c.reelBalanceInfluenceDelay ==> ReelInfluence(c, weak, strong) > 0.0
    ensures c.prolongedInfluenceMultiplier == 2.0 && weak > c.prolongedInfluenceDelay && weak > c.reelBalanceInfluenceDelay ==>
              ReelInfluence(c, weak, strong) == -2.0 * c.reelBalanceInfluenceStrength
  {
  }
}

=== FILE: fishing_math.dfy ===
/**
 * The arithmetic both fishing minigames share word for word
 * (Assets/Script/Fishing.cs and Assets/Script/Player/Fishing.cs): the Fish
 * record, Unity's clamps, and the banded progress, reel-power and
 * line-tension updates. Floats are ideal reals.
 */
module FishingMath {
  import opened Wrappers
  import opened Items

  /** A catchable fish; `strength` is meant to lie in [0, 1]. */
  datatype Fish = Fish(fishName: string, weight: real, size: real, itemData: Option<ItemData>, strength: real)

  /** The C# constructor: the item defaults to null and the strength to 0.5. */
  function NewFish(name: string, weight: real, size: real): (r: Fish)
    ensures r.fishName == name && r.weight == weight && r.size == size
    ensures r.itemData.None? && r.strength == 0.5
  {
    Fish(name, weight, size, None, 0.5)
  }

  /** Mathf.Clamp: below `lo` gives `lo`, above `hi` gives `hi`, otherwise the value. */
  function Clamp(v: real, lo: real, hi: real): (r: real)
    ensures lo <= hi ==> lo <= r <= hi
    ensures lo <= v <= hi ==> r == v
    ensures v < lo ==> r == lo
    ensures lo <= v && hi < v ==> r == hi
  {
    if v < lo then lo else if v > hi then hi else v
  }

  /** Mathf.Clamp01. */
  function Clamp01(v: real): (r: real)
    ensures 0.0 <= r <= 1.0
    ensures 0.0 <= v <= 1.0 ==> r == v
  {
    Clamp(v, 0.0, 1.0)
  }

  function Abs(v: real): (r: real)
    ensures r >= 0.0 && (r == v || r == -v)
  {
    if v < 0.0 then -v else v
  }

  /** How close the balance is to its target: 1 on target, lower further away. */
  function BalanceAccuracy(position: real, target: real): (r: real)
    ensures r <= 1.0
    ensures r == 1.0 <==> position == target
  {
    1.0 - Abs(position - target)
  }

  /** The banded progress rate of HandleFishingProgress, with base change dt * 0.1. */
  function ProgressRate(accuracy: real, strength: real, dt: real): real
  {
    var baseChange := dt * 0.1;
    if accuracy > 0.7 then accuracy * (1.0 - strength) * baseChange
    else if accuracy > 0.4 then accuracy * (0.5 - strength * 0.5) * baseChange
    else -strength * baseChange
  }

  /** HandleFishingProgress: the rate is added and the result clamped to [0, 1]. */
  function ProgressStep(progress: real, accuracy: real, strength: real, dt: real): (r: real)
    ensures 0.0 <= r <= 1.0
  {
    Clamp(progress + ProgressRate(accuracy, strength, dt), 0.0, 1.0)
  }

  /** HandleReelBar's first half: holding Space gains, releasing decays, clamped to [0, max]. */
  function ReelStep(reelPower: real, held: bool, gainSpeed: real, decaySpeed: real, dt: real, maxReelPower: real): (r: real)
    requires maxReelPower >= 0.0
    ensures 0.0 <= r <= maxReelPower
  {
    var moved := if held then reelPower + gainSpeed * dt * maxReelPower
                 else reelPower - decaySpeed * dt * maxReelPower;
    Clamp(moved, 0.0, maxReelPower)
  }

  /**
   * The banded tension change for normalised reel power `p`: both extremes
   * (p >= 0.99 or p <= 0.01) raise it ten times the rate, the outer bands
   * raise it in proportion to the distance past 0.9 or below 0.1, and the
   * middle band lowers it.
   */
  function TensionChange(p: real, increaseRate: real, decreaseRate: real, dt: real, strength: real): real
  {
    if p >= 0.99 || p <= 0.01 then increaseRate * 10.0 * dt * strength
    else if p > 0.9 then increaseRate * (p - 0.9) * dt * strength
    else if p < 0.1 then increaseRate * (0.1 - p) * dt * strength
    else -decreaseRate * dt
  }

  /** The tension update, clamped to [0, maxLineTension]. */
  function TensionStep(tension: real, p: real, increaseRate: real, decreaseRate: real, dt: real, strength: real,
                       maxLineTension: real): (r: real)
    requires maxLineTension >= 0.0
    ensures 0.0 <= r <= maxLineTension
  {
    Clamp(tension + TensionChange(p, increaseRate, decreaseRate, dt, strength), 0.0, maxLineTension)
  }

  /**
   * For a fish of strength in [0, 1] and a non-negative frame time, progress
   * never falls while balance accuracy is above 0.4 and never rises at or
   * below it.
   */
  lemma ProgressDirection(progress: real, accuracy: real, strength: real, dt: real)
    requires 0.0 <= progress <= 1.0 && 0.0 <= strength <= 1.0 && dt >= 0.0
    ensures accuracy > 0.4 ==> ProgressStep(progress, accuracy, strength, dt) >= progress
    ensures accuracy <= 0.4 ==> ProgressStep(progress, accuracy, strength, dt) <= progress
  {
    var baseChange := dt * 0.1;
    assert baseChange >= 0.0;
    if accuracy > 0.7 {
      NonNegativeProduct(1.0 - strength, baseChange);
      NonNegativeProduct(accuracy, (1.0 - strength) * baseChange);
      assert ProgressRate(accuracy, strength, dt) == accuracy * ((1.0 - strength) * baseChange);
      assert ProgressRate(accuracy, strength, dt) >= 0.0;
    } else if accuracy > 0.4 {
      NonNegativeProduct(0.5 - strength * 0.5, baseChange);
      NonNegativeProduct(accuracy, (0.5 - strength * 0.5) * baseChange);
      assert ProgressRate(accuracy, strength, dt) == accuracy * ((0.5 - strength * 0.5) * baseChange);
      assert ProgressRate(accuracy, strength, dt) >= 0.0;
    } else {
      NonNegativeProduct(strength, baseChange);
      assert ProgressRate(accuracy, strength, dt) == -(strength * baseChange);
      assert ProgressRate(accuracy, strength, dt) <= 0.0;
    }
  }

  /** On target with a fish weaker than 1 and time passing, progress strictly grows until full. */
  lemma ProgressGrowsOnTarget(progress: real, strength: real, dt: real)
    requires 0.0 <= progress < 1.0 && 0.0 <= strength < 1.0 && dt > 0.0
    ensures ProgressStep(progress, 1.0, strength, dt) > progress
  {
    assert ProgressRate(1.0, strength, dt) == (1.0 - strength) * (dt * 0.1);
  }

  /** A fish of full strength never makes progress, whatever the accuracy. */
  lemma FullStrengthNeverProgresses(progress: real, accuracy: real, dt: real)
    requires 0.0 <= progress <= 1.0 && dt >= 0.0
    ensures ProgressStep(progress, accuracy, 1.0, dt) <= progress
  {
    if accuracy > 0.7 {
      assert ProgressRate(accuracy, 1.0, dt) == 0.0;
    } else if accuracy > 0.4 {
      assert ProgressRate(accuracy, 1.0, dt) == 0.0;
    } else {
      assert ProgressRate(accuracy, 1.0, dt) == -(dt * 0.1);
    }
  }

  /** Holding Space never lowers reel power and releasing never raises it (non-negative speeds). */
  lemma ReelDirection(reelPower: real, gainSpeed: real, decaySpeed: real, dt: real, maxReelPower: real)
    requires 0.0 <= reelPower <= maxReelPower
    requires gainSpeed >= 0.0 && decaySpeed >= 0.0 && dt >= 0.0
    ensures ReelStep(reelPower, true, gainSpeed, decaySpeed, dt, maxReelPower) >= reelPower
    ensures ReelStep(reelPower, false, gainSpeed, decaySpeed, dt, maxReelPower) <= reelPower
  {
    assert gainSpeed * dt * maxReelPower == gainSpeed * (dt * maxReelPower);
    assert decaySpeed * dt * maxReelPower == decaySpeed * (dt * maxReelPower);
  }

  /**
   * With non-negative rates, strength and frame time, the middle band never
   * raises tension and every other band never lowers it.
   */
  lemma TensionDirection(tension: real, p: real, increaseRate: real, decreaseRate: real, dt: real, strength: real,
                         maxLineTension: real)
    requires 0.0 <= tension <= maxLineTension
    requires increaseRate >= 0.0 && decreaseRate >= 0.0 && dt >= 0.0 && strength >= 0.0
    ensures 0.1 <= p <= 0.9 && 0.01 < p < 0.99 ==>
              TensionStep(tension, p, increaseRate, decreaseRate, dt, strength, maxLineTension) <= tension
    ensures !(0.1 <= p <= 0.9 && 0.01 < p < 0.99) ==>
              TensionStep(tension, p, increaseRate, decreaseRate, dt, strength, maxLineTension) >= tension
  {
    var c := TensionChange(p, increaseRate, decreaseRate, dt, strength);
    var k := increaseRate * dt * strength;
    assert k >= 0.0;
    if p >= 0.99 || p <= 0.01 {
      assert c == 10.0 * k;
    } else if p > 0.9 {
      assert c == k * (p - 0.9);
      NonNegativeProduct(k, p - 0.9);
    } else if p < 0.1 {
      assert c == k * (0.1 - p);
      NonNegativeProduct(k, 0.1 - p);
    } else {
      assert c == -(decreaseRate * dt);
    }
  }

  lemma NonNegativeProduct(a: real, b: real)
    requires a >= 0.0 && b >= 0.0
    ensures a * b >= 0.0
  {
  }
}

=== FILE: game_data.dfy ===
/**
 * The slice of the save record that the boat and upgrade components read and
 * write. The full record and its file I/O are not part of this model.
 */
module SaveData {

  datatype GameData = GameData(
    currentMoveSpeed: real,
    playerMaxHP: int,
    playerCurrentHP: int,
    speedUpgradeLevel: int,
    healthUpgradeLevel: int)
}

=== FILE: inventory_manager.dfy ===
/**
 * The inventory of Assets/Script/Inventory/InventoryManager.cs: a list of
 * slots plus an "active hand" slot. Change callbacks and logging are not
 * modelled.
 */
module InventoryManager {
  import opened Wrappers
  import opened Items
  import opened InventorySlot
  import opened SlotList
  import BoatController

  datatype Inventory = Inventory(slots: seq<Slot>, activeHand: Slot)

  /** Awake fills an empty serialized list with `inventorySize` default slots and keeps a non-empty one. */
  function Awake(serialized: seq<Slot>, inventorySize: int): (r: Inventory)
    ensures |serialized| > 0 ==> r.slots == serialized
    ensures |serialized| == 0 ==> |r.slots| == (if inventorySize < 0 then 0 else inventorySize) && AllEmpty(r.slots)
    ensures |serialized| == 0 ==> forall j :: 0 <= j < |r.slots| ==> r.slots[j] == EmptySlot()
    ensures r.activeHand == EmptySlot()
  {
    if |serialized| == 0 then Inventory(EmptySlots(inventorySize), EmptySlot())
    else Inventory(serialized, EmptySlot())
  }

  /** ClearActiveHandItem empties the hand (it is left alone when already empty). */
  function ClearActiveHandItem(inv: Inventory): (r: Inventory)
    ensures IsEmpty(r.activeHand)
    ensures r.slots == inv.slots
    ensures !IsEmpty(inv.activeHand) ==> r.activeHand == EmptySlot()
    ensures IsEmpty(inv.activeHand) ==> r == inv
  {
    if !IsEmpty(inv.activeHand) then inv.(activeHand := Clear(inv.activeHand)) else inv
  }

  /** ResetInventoryState clears every slot and the hand, keeping the slot count. */
  function ResetInventoryState(inv: Inventory): (r: Inventory)
    ensures |r.slots| == |inv.slots|
    ensures AllEmpty(r.slots)
    ensures forall j :: 0 <= j < |r.slots| ==> r.slots[j] == EmptySlot()
    ensures IsEmpty(r.activeHand)
    ensures r.activeHand == ClearActiveHandItem(inv).activeHand
  {
    ClearActiveHandItem(inv.(slots := seq(|inv.slots|, i requires 0 <= i < |inv.slots| => Clear(inv.slots[i]))))
  }

  /**
   * SetActiveHandItem: an index outside the list fails; an empty slot or the
   * item already in hand empties the hand; otherwise one unit of the slot's
   * item goes to the hand. The slots never change.
   */
  function SetActiveHandItem(inv: Inventory, index: int): (r: (Inventory, bool))
    ensures r.0.slots == inv.slots
    ensures !(0 <= index < |inv.slots|) ==> r == (inv, false)
    ensures 0 <= index < |inv.slots| ==> r.1
    ensures 0 <= index < |inv.slots| ==>
              var selected := inv.slots[index];
              if IsEmpty(selected) || inv.activeHand.itemData == selected.itemData
              then r.0 == ClearActiveHandItem(inv) && IsEmpty(r.0.activeHand)
              else r.0 == inv.(activeHand := Slot(selected.itemData, 1))
  {
    if !(0 <= index < |inv.slots|) then (inv, false)
    else
      var selected := inv.slots[index];
      if IsEmpty(selected) then (ClearActiveHandItem(inv), true)
      else if inv.activeHand.itemData == selected.itemData then (ClearActiveHandItem(inv), true)
      else (inv.(activeHand := Slot(selected.itemData, 1)), true)
  }

  /** A freshly filled list is tidy: the base case for PlaceKeepsTidy and WithdrawKeepsTidy. */
  lemma AwakeIsTidy(inventorySize: int, item: Option<ItemData>)
    ensures Tidy(Awake([], inventorySize).slots)
    ensures Total(Awake([], inventorySize).slots, item) == 0
  {
    TotalOfEmptySlots(inventorySize, item);
  }

  /** A reset list is tidy and holds nothing of any item. */
  lemma ResetIsTidyAndEmpty(inv: Inventory, item: Option<ItemData>)
    ensures Tidy(ResetInventoryState(inv).slots)
    ensures Total(ResetInventoryState(inv).slots, item) == 0
  {
    var slots := ResetInventoryState(inv).slots;
    assert slots == EmptySlots(|slots|);
    TotalOfEmptySlots(|slots|, item);
  }

  /**
   * Selecting the same non-empty slot twice is a round trip: the first press
   * takes one unit of its item in hand, the second compares the items and
   * clears the hand to the default slot.
   */
  lemma SelectTwiceClearsHand(inv: Inventory, index: int)
    requires 0 <= index < |inv.slots| && !IsEmpty(inv.slots[index])
    requires inv.activeHand.itemData != inv.slots[index].itemData
    ensures SetActiveHandItem(inv, index).0.activeHand == Slot(inv.slots[index].itemData, 1)
    ensures SetActiveHandItem(SetActiveHandItem(inv, index).0, index) == (inv.(activeHand := EmptySlot()), true)
  {
  }

  /**
   * AddItem: the shared first-fit placement on the slot list; the hand is
   * never touched.
   */
  function AddItem(inv: Inventory, itemToAdd: Option<ItemData>, amount: int): (r: (Inventory, bool))
    ensures r.0.activeHand == inv.activeHand
    ensures (r.0.slots, r.1) == Place(inv.slots, itemToAdd, amount)
  {
    var (slots, ok) := Place(inv.slots, itemToAdd, amount);
    (inv.(slots := slots), ok)
  }

  /**
   * RemoveItem: the shared withdrawal from the first slot of the item that
   * alone holds `amount`. When that slot empties and the hand holds this
   * item the hand is cleared too, even if other slots still hold it.
   */
  function RemoveItem(inv: Inventory, itemToRemove: ItemData, amount: int): (r: (Inventory, bool))
    ensures r.1 <==> !NoneHolds(inv.slots, Some(itemToRemove), amount)
    ensures r.0.slots == Withdraw(inv.slots, Some(itemToRemove), amount).0
    ensures !r.1 ==> r.0 == inv
    ensures forall i :: FirstHolding(inv.slots, i, Some(itemToRemove), amount) ==>
              if IsEmpty(RemoveAmount(inv.slots[i], amount)) && inv.activeHand.itemData == Some(itemToRemove)
              then IsEmpty(r.0.activeHand)
              else r.0.activeHand == inv.activeHand
  {
    var (slots, taken) := Withdraw(inv.slots, Some(itemToRemove), amount);
    match taken
    case None => (inv, false)
    case Some(i) =>
      var after := inv.(slots := slots);
      if IsEmpty(RemoveAmount(inv.slots[i], amount)) && inv.activeHand.itemData == Some(itemToRemove)
      then (ClearActiveHandItem(after), true)
      else (after, true)
  }

  /** GetSlot: the slot at a valid index, null otherwise. */
  function GetSlot(inv: Inventory, index: int): (r: Option<Slot>)
    ensures r.Some? <==> 0 <= index < |inv.slots|
    ensures r.Some? ==> r.value == inv.slots[index]
  {
    if 0 <= index < |inv.slots| then Some(inv.slots[index]) else None
  }

  /** HasItem compares the amount summed over every slot of the item. */
  method HasItem(inv: Inventory, item: Option<ItemData>, amount: int) returns (r: bool)
    ensures r <==> Total(inv.slots, item) >= amount
  {
    var count := Count(inv.slots, item);
    r := count >= amount;
  }

  /** Some slot holds at least one unit of `item`. */
  predicate InStock(slots: seq<Slot>, item: Option<ItemData>)
  {
    !NoneHolds(slots, item, 1)
  }

  /**
   * UseItem: only a consumable that some slot holds with a positive amount,
   * used on a boat below full health, succeeds. It then heals the boat by the
   * item's healAmount and removes one unit.
   */
  function UseItem(inv: Inventory, itemToUse: Option<ItemData>, boat: Option<BoatController.Boat>)
    : (r: (Inventory, Option<BoatController.Boat>, bool))
    ensures !r.2 ==> r.0 == inv && r.1 == boat
    ensures r.2 <==> InStock(inv.slots, itemToUse)
                     && itemToUse.Some? && itemToUse.value.itemType == Consumable
                     && boat.Some? && boat.value.currentHP < boat.value.maxHP
    ensures r.2 ==> r.1 == Some(BoatController.Heal(boat.value, itemToUse.value.healAmount))
    ensures r.2 ==> r.0 == RemoveItem(inv, itemToUse.value, 1).0
  {
    match itemToUse
    case None => (inv, boat, false)
    case Some(item) =>
      if !InStock(inv.slots, itemToUse) then (inv, boat, false)
      else if item.itemType != Consumable then (inv, boat, false)
      else
        match boat
        case None => (inv, boat, false)
        case Some(b) =>
          if b.currentHP < b.maxHP then
            (RemoveItem(inv, item, 1).0, Some(BoatController.Heal(b, item.healAmount)), true)
          else (inv, boat, false)
  }

  /**
   * Emptying one stack empties the hand holding that item even though another
   * stack of it remains.
   */
  lemma HandClearedDespiteOtherStack(fish: ItemData)
    ensures var inv := Inventory([Slot(Some(fish), 1), Slot(Some(fish), 5)], Slot(Some(fish), 1));
            var r := RemoveItem(inv, fish, 1);
            r.1 && IsEmpty(r.0.activeHand) && r.0.slots[1] == Slot(Some(fish), 5)
  {
    var inv := Inventory([Slot(Some(fish), 1), Slot(Some(fish), 5)], Slot(Some(fish), 1));
    assert FirstHolding(inv.slots, 0, Some(fish), 1);
  }

  /**
   * A consumable in stock, used on a damaged boat, succeeds: the boat is
   * healed by the item's amount and the inventory is exactly what
   * RemoveItem(item, 1) leaves.
   */
  lemma UseItemConsumesOne(inv: Inventory, item: ItemData, boat: BoatController.Boat, i: nat)
    requires item.itemType == Consumable && boat.currentHP < boat.maxHP
    requires i < |inv.slots| && Holds(inv.slots[i], Some(item), 1)
    ensures var r := UseItem(inv, Some(item), Some(boat));
            && r.2
            && RemoveItem(inv, item, 1).1
            && r.0 == RemoveItem(inv, item, 1).0
            && r.1 == Some(BoatController.Heal(boat, item.healAmount))
  {
  }

  /** A successful UseItem consumes exactly one unit of the item. */
  lemma UseItemTotal(inv: Inventory, item: ItemData, boat: Option<BoatController.Boat>)
    requires UseItem(inv, Some(item), boat).2
    ensures Total(UseItem(inv, Some(item), boat).0.slots, Some(item)) == Total(inv.slots, Some(item)) - 1
  {
    WithdrawTotal(inv.slots, item, 1);
  }
}

=== FILE: inventory_slot.dfy ===
/**
 * One inventory cell (Assets/Script/Inventory/InventorySlot.cs): an item
 * reference that may be null and a signed 32-bit amount, kept here as an
 * unbounded int.
 */
module InventorySlot {
  import opened Wrappers
  import opened Items

  datatype Slot = Slot(itemData: Option<ItemData>, amount: int)

  /** The parameterless constructor. */
  function EmptySlot(): (r: Slot)
    ensures IsEmpty(r)
    ensures r.itemData.None? && r.amount == 0
  {
    Slot(None, 0)
  }

  /** A slot is empty when it has no item or a non-positive amount. */
  predicate IsEmpty(s: Slot)
  {
    s.itemData.None? || s.amount <= 0
  }

  /** AddAmount: the item stays and the amount grows by the value, without a stack check. */
  function AddAmount(s: Slot, value: int): (r: Slot)
    ensures r.itemData == s.itemData && r.amount - s.amount == value
  {
    s.(amount := s.amount + value)
  }

  /** RemoveAmount: the item stays even when the amount reaches 0 or below. */
  function RemoveAmount(s: Slot, value: int): (r: Slot)
    ensures r.itemData == s.itemData && s.amount - r.amount == value
  {
    s.(amount := s.amount - value)
  }

  /** Clear empties the slot whatever it held. */
  function Clear(s: Slot): (r: Slot)
    ensures IsEmpty(r)
    ensures r == EmptySlot()
  {
    Slot(None, 0)
  }

  /** Only a stackable item may grow, and only up to its stack limit. */
  predicate CanAddAmount(s: Slot, value: int)
  {
    match s.itemData
    case None => false
    case Some(item) => item.isStackable && s.amount + value <= item.maxStackSize
  }

  /** Adding then removing the same value restores the slot, item included. */
  lemma AddThenRemove(s: Slot, value: int)
    ensures RemoveAmount(AddAmount(s, value), value) == s
    ensures AddAmount(s, value).itemData == s.itemData
    ensures RemoveAmount(s, value).itemData == s.itemData
  {
  }

  /** A default slot is empty and cannot take any amount. */
  lemma EmptySlotRefusesAdd(value: int)
    ensures IsEmpty(EmptySlot())
    ensures !CanAddAmount(EmptySlot(), value)
  {
  }

  /**
   * CanAddAmount is false for a missing or non-stackable item; otherwise it
   * holds exactly when the grown amount stays within maxStackSize, so a
   * permitted AddAmount never overfills the stack.
   */
  lemma CanAddAmountMeaning(s: Slot, value: int)
    ensures s.itemData.None? ==> !CanAddAmount(s, value)
    ensures s.itemData.Some? && !s.itemData.value.isStackable ==> !CanAddAmount(s, value)
    ensures s.itemData.Some? && s.itemData.value.isStackable ==>
              (CanAddAmount(s, value) <==> AddAmount(s, value).amount <= s.itemData.value.maxStackSize)
  {
  }
}

=== FILE: items.dfy ===
/**
 * Item assets (Assets/Script/Inventory/ItemData.cs). In the game an item is a
 * ScriptableObject compared by reference; here it is an immutable record and
 * two items are the same item when their records are equal.
 */
module Items {

  datatype ItemType = Material | Tool | Consumable | Equipment

  datatype ItemData = ItemData(
    id: string,
    itemName: string,
    description: string,
    isStackable: bool,
    maxStackSize: int,
    itemType: ItemType,
    healAmount: int)
}

=== FILE: legacy_boat_controller.dfy ===
/**
 * The older boat of Assets/Script/BoatController.cs: integer hull points
 * with no movement gate, and a "moving" flag that only forward thrust sets.
 * Rotation, translation and grid snapping are engine work and are not
 * modelled.
 */
module LegacyBoatController {

  datatype Boat = Boat(
    maxHP: int,
    currentHP: int,
    collisionDamage: int,
    verticalInput: real,
    horizontalInput: real,
    isMoving: bool,
    destroyed: bool)   // Destroy(gameObject) was called

  /** What the boat collided with, by tag. */
  datatype Tag = Enemy | Obstacle | Other

  /** Start fills the hull. */
  function Start(b: Boat): (r: Boat)
    ensures r.currentHP == r.maxHP == b.maxHP
    ensures r == b.(currentHP := r.currentHP)
  {
    b.(currentHP := b.maxHP)
  }

  /**
   * HandleInput: a backward axis value is clamped to 0, and the boat counts
   * as moving only for forward thrust above 0.01. Steering never does.
   */
  function HandleInput(b: Boat, vertical: real, horizontal: real): (r: Boat)
    ensures r.verticalInput >= 0.0 && r.horizontalInput == horizontal
    ensures r.isMoving <==> vertical > 0.01
    ensures vertical >= 0.0 ==> r.verticalInput == vertical
    ensures r == b.(verticalInput := r.verticalInput, horizontalInput := r.horizontalInput, isMoving := r.isMoving)
  {
    var v := if vertical < 0.0 then 0.0 else vertical;
    b.(verticalInput := v, horizontalInput := horizontal, isMoving := (if v < 0.0 then -v else v) > 0.01)
  }

  predicate IsMoving(b: Boat)
  {
    b.isMoving
  }

  /** Heal acts only below the maximum and caps the hull there. */
  function Heal(b: Boat, amount: int): (r: Boat)
    ensures b.currentHP >= b.maxHP ==> r == b
    ensures b.currentHP < b.maxHP ==> r.currentHP == (if b.currentHP + amount <= b.maxHP then b.currentHP + amount else b.maxHP)
    ensures r == b.(currentHP := r.currentHP)
  {
    if b.currentHP < b.maxHP then
      b.(currentHP := if b.currentHP + amount <= b.maxHP then b.currentHP + amount else b.maxHP)
    else b
  }

  /** TakeDamage ignores a boat at 0 HP or below; otherwise it floors the hull at 0 and destroys the boat there. */
  function TakeDamage(b: Boat, amount: int): (r: Boat)
    ensures b.currentHP <= 0 ==> r == b
    ensures b.currentHP > 0 ==> r.currentHP == (if b.currentHP - amount >= 0 then b.currentHP - amount else 0)
    ensures b.currentHP > 0 ==> (r.destroyed <==> b.destroyed || r.currentHP == 0)
    ensures r == b.(currentHP := r.currentHP, destroyed := r.destroyed)
  {
    if b.currentHP > 0 then
      var hp := if b.currentHP - amount >= 0 then b.currentHP - amount else 0;
      b.(currentHP := hp, destroyed := b.destroyed || hp <= 0)
    else b
  }

  /** OnCollisionEnter2D: an enemy or an obstacle deals the collision damage, anything else nothing. */
  function OnCollision(b: Boat, tag: Tag): (r: Boat)
    ensures tag.Other? ==> r == b
    ensures !tag.Other? ==> r == TakeDamage(b, b.collisionDamage)
  {
    match tag
    case Enemy => TakeDamage(b, b.collisionDamage)
    case Obstacle => TakeDamage(b, b.collisionDamage)
    case Other => b
  }

  /** Steering or reversing alone never makes the boat count as moving. */
  lemma SteeringAloneNeverMoves(b: Boat, vertical: real, horizontal: real)
    requires vertical <= 0.01
    ensures !IsMoving(HandleInput(b, vertical, horizontal))
  {
  }

  /** Healing a full or damaged hull by a non-negative amount leaves it in [current, max]. */
  lemma HealBounds(b: Boat, amount: int)
    requires amount >= 0 && b.currentHP <= b.maxHP
    ensures b.currentHP <= Heal(b, amount).currentHP <= b.maxHP
  {
  }

  /**
   * A collision with a live boat takes exactly the collision damage off the
   * hull, floored at 0, for a non-negative damage setting; the hull never
   * leaves [0, max].
   */
  lemma CollisionDamage(b: Boat, tag: Tag)
    requires !tag.Other? && 0 < b.currentHP <= b.maxHP && b.collisionDamage >= 0
    ensures var r := OnCollision(b, tag);
            0 <= r.currentHP <= b.maxHP
            && (b.collisionDamage <= b.currentHP ==> b.currentHP - r.currentHP == b.collisionDamage)
            && (r.destroyed <==> b.destroyed || b.collisionDamage >= b.currentHP)
  {
  }

  /** A started boat is at full health, so a heal right away changes nothing. */
  lemma StartThenHealIsFull(b: Boat, amount: int)
    ensures Heal(Start(b), amount) == Start(b)
  {
  }
}

=== FILE: legacy_fishing.dfy ===
/**
 * The older fishing minigame of Assets/Script/Player/Fishing.cs. It has
 * the same flags and frame order as the newer machine. The differences:
 * the throw is graded by raw power instead of a moving target, the bite
 * delay and chance come from fixed formulas of that power, and there are
 * no zone timers pushing the balance.
 */
module LegacyFishing {
  import opened Wrappers
  import opened Items
  import opened FishingMath

  /** A suspended DetectFishBite: the bite delay, or the two-second reel window. */
  datatype Pending = BiteCheck(delay: real) | ReelWindow

  datatype Config = Config(
    throwDistance: real,
    maxThrowPower: real,
    throwPowerCycleSpeed: real,
    balanceSpeed: real,
    balanceSensitivity: real,
    reelGainSpeed: real,
    reelDecaySpeed: real,
    maxReelPower: real,
    tensionIncreaseRate: real,
    tensionDecreaseRate: real,
    maxLineTension: real,
    fishList: seq<Option<Fish>>)

  /** The three maxima are divisors in the source; a zero there gives a float NaN. */
  predicate ValidConfig(c: Config)
  {
    c.maxThrowPower > 0.0 && c.maxReelPower > 0.0 && c.maxLineTension > 0.0
  }

  datatype State = State(
    isFishing: bool,
    fishCaught: bool,
    isThrowing: bool,
    fishBiteDetected: bool,
    waitingToReel: bool,
    fishingProgress: real,
    throwPower: real,
    throwPowerDirection: int,
    balancePosition: real,
    balanceTarget: real,
    reelPower: real,
    currentLineTension: real,
    currentFish: Option<Fish>,
    randomTargetChangeTimer: real,
    currentRandomTargetChangeInterval: real,
    clockPaused: Option<bool>,   // the last SetPaused request, None before the first
    pending: seq<Pending>)

  /** One frame's input: key states, frame time, the boat's answer and the Random draws. */
  datatype Frame = Frame(
    dt: real,
    boatMoving: Option<bool>,    // None: no BoatController; otherwise what IsMoving() returned
    keyFDown: bool,
    spaceDown: bool,
    spaceUp: bool,
    spaceHeld: bool,
    keyA: bool,
    keyD: bool,
    intervalDraw: real,
    targetDraw: real,
    nextIntervalDraw: real,
    influenceDraw: real,
    fishPick: int,
    beginTargetDraw: real)

  datatype Outcome = Outcome(state: State, movementEnabled: Option<bool>, caught: Option<ItemData>)

  /** Random.Range(0, n) on ints lies in [0, n), and is 0 when n is 0. */
  predicate PickInRange(c: Config, pick: int)
  {
    |c.fishList| == 0 || 0 <= pick < |c.fishList|
  }

  predicate Active(s: State)
  {
    s.isFishing || s.isThrowing || s.fishBiteDetected
  }

  /** CancelFishing: the five flags cleared and the clock released; the meters and pending coroutines are kept. */
  function Cancel(s: State): (r: State)
    ensures !Active(r) && !r.waitingToReel && !r.fishCaught && r.clockPaused == Some(false)
    ensures r.pending == s.pending && r.currentFish == s.currentFish && r.throwPower == s.throwPower
    ensures r.fishingProgress == s.fishingProgress && r.reelPower == s.reelPower
    ensures r.currentLineTension == s.currentLineTension && r.balancePosition == s.balancePosition
  {
    s.(isFishing := false, isThrowing := false, fishCaught := false, fishBiteDetected := false,
       waitingToReel := false, clockPaused := Some(false))
  }

  /** StartThrowing: power 0 moving up; `waitingToReel` is not touched. */
  function StartThrowing(s: State, intervalDraw: real): (r: State)
    ensures r.isThrowing && !r.isFishing && !r.fishBiteDetected && !r.fishCaught
    ensures r.waitingToReel == s.waitingToReel && r.pending == s.pending
    ensures r.throwPower == 0.0 && r.throwPowerDirection == 1
    ensures r.randomTargetChangeTimer == 0.0 && r.currentRandomTargetChangeInterval == intervalDraw
  {
    s.(isThrowing := true, isFishing := false, fishBiteDetected := false, fishCaught := false,
       throwPower := 0.0, throwPowerDirection := 1,
       randomTargetChangeTimer := 0.0, currentRandomTargetChangeInterval := intervalDraw)
  }

  /**
   * The power meter as a triangle wave: past the top it snaps to the
   * maximum heading down, at or below zero it snaps to 0 heading up, and in
   * between it keeps moving.
   */
  function PowerStep(power: real, direction: int, speed: real, dt: real, maxPower: real): (r: (real, int))
    requires maxPower > 0.0
    ensures 0.0 <= r.0 <= maxPower
  {
    var moved := power + (direction as real) * speed * dt;
    if moved >= maxPower then (maxPower, -1)
    else if moved <= 0.0 then (0.0, 1)
    else (moved, direction)
  }

  /** The bite delay: the throw distance over power plus one, clamped to [0.5, 5] seconds. */
  function BiteDelay(throwDistance: real, power: real): (r: real)
    requires power > -1.0
    ensures 0.5 <= r <= 5.0
  {
    Clamp(throwDistance / (power + 1.0), 0.5, 5.0)
  }

  /** The bite chance, read from the power when the check resumes. */
  function BiteChance(power: real, maxPower: real): (r: real)
    requires maxPower > 0.0
    ensures 0.0 <= power <= maxPower ==> 0.5 <= r <= 0.8
    ensures power == 0.0 ==> r == 0.5
  {
    if 0.0 <= power <= maxPower then
      DivisionMonotone(0.0, power, maxPower);
      DivisionMonotone(power, maxPower, maxPower);
      0.5 + power / maxPower * 0.3
    else 0.5 + power / maxPower * 0.3
  }

  /**
   * HandleThrowing: the power meter moves; a Space release ends the throw,
   * cancelling when the power is at most 0.1 and queuing a bite check
   * otherwise.
   */
  function HandleThrowing(c: Config, s: State, f: Frame): (r: State)
    requires ValidConfig(c)
    ensures 0.0 <= r.throwPower <= c.maxThrowPower
    ensures !f.spaceUp ==> r.isThrowing == s.isThrowing && r.pending == s.pending
    ensures f.spaceUp && r.throwPower <= 0.1 ==> !Active(r) && r.pending == s.pending
    ensures f.spaceUp && r.throwPower > 0.1 ==>
              !r.isThrowing && !r.fishCaught
              && r.pending == s.pending + [BiteCheck(BiteDelay(c.throwDistance, r.throwPower))]
  {
    var (power, direction) := PowerStep(s.throwPower, s.throwPowerDirection, c.throwPowerCycleSpeed, f.dt, c.maxThrowPower);
    var moved := s.(throwPower := power, throwPowerDirection := direction);
    if !f.spaceUp then moved
    else if power <= 0.1 then Cancel(moved.(isThrowing := false))
    else moved.(isThrowing := false, fishCaught := false, pending := s.pending + [BiteCheck(BiteDelay(c.throwDistance, power))])
  }

  /** BeginFishing: as in the newer machine, without zone timers. */
  function BeginFishing(c: Config, s: State, pick: int, target: real): (r: State)
    requires ValidConfig(c) && PickInRange(c, pick)
    ensures !r.waitingToReel && !r.fishBiteDetected && r.pending == s.pending
    ensures |c.fishList| > 0 && c.fishList[pick].None? ==> !Active(r) && r.clockPaused == Some(false)
    ensures |c.fishList| > 0 && c.fishList[pick].Some? ==>
              r.isFishing && r.clockPaused == Some(true) && r.currentFish == c.fishList[pick]
              && r.fishingProgress == 0.0 && r.reelPower == c.maxReelPower / 2.0
              && r.balancePosition == 0.0 && r.balanceTarget == target
              && r.currentLineTension == c.maxLineTension / 2.0
    ensures |c.fishList| == 0 ==> r.isFishing && r.clockPaused == Some(true) && r.currentFish == s.currentFish
  {
    var t := s.(waitingToReel := false, fishBiteDetected := false, isFishing := true, clockPaused := Some(true));
    if |c.fishList| == 0 then t
    else
      var fish := c.fishList[pick];
      if fish.None? then Cancel(t.(currentFish := None))
      else t.(currentFish := fish, fishingProgress := 0.0, reelPower := c.maxReelPower / 2.0, balancePosition := 0.0,
              balanceTarget := target, currentLineTension := c.maxLineTension / 2.0)
  }

  /** CatchFish: the session ends as caught, the clock is released, and a non-null fish item goes to the inventory. */
  function CatchFish(c: Config, s: State): (r: (State, Option<ItemData>))
    ensures r.0.fishCaught && !r.0.isFishing && r.0.clockPaused == Some(false) && r.0.pending == s.pending
    ensures r.1.Some? <==> |c.fishList| > 0 && s.currentFish.Some? && s.currentFish.value.itemData.Some?
    ensures r.1.Some? ==> r.1 == s.currentFish.value.itemData
  {
    var item := if |c.fishList| > 0 && s.currentFish.Some? then s.currentFish.value.itemData else None;
    (s.(fishCaught := true, isFishing := false, clockPaused := Some(false)), item)
  }

  /**
   * HandleBalanceBar: the target is redrawn when its timer runs out, and the
   * position moves by input and the fish's pull only, clamped to [-1, 1].
   */
  function HandleBalanceBar(c: Config, s: State, f: Frame): (r: State)
    ensures s.currentFish.Some? ==> -1.0 <= r.balancePosition <= 1.0
    ensures s.currentFish.None? ==> r == s
    ensures r == s.(balancePosition := r.balancePosition, balanceTarget := r.balanceTarget,
                    randomTargetChangeTimer := r.randomTargetChangeTimer,
                    currentRandomTargetChangeInterval := r.currentRandomTargetChangeInterval)
  {
    if s.currentFish.None? then s
    else
      var timer := s.randomTargetChangeTimer + f.dt;
      var redraw := timer >= s.currentRandomTargetChangeInterval;
      var input := (if f.keyA then -c.balanceSensitivity else 0.0) + (if f.keyD then c.balanceSensitivity else 0.0);
      var fishInfluence := FishPull(f.influenceDraw, s.currentFish.value.strength, f.dt);
      s.(randomTargetChangeTimer := if redraw then 0.0 else timer,
         balanceTarget := if redraw then f.targetDraw else s.balanceTarget,
         currentRandomTargetChangeInterval := if redraw then f.nextIntervalDraw else s.currentRandomTargetChangeInterval,
         balancePosition := Clamp(s.balancePosition + input * f.dt * c.balanceSpeed + fishInfluence, -1.0, 1.0))
  }

  /** HandleFishingProgress and HandleReelBar use the shared banded formulas. */
  function HandleFishingProgress(s: State, dt: real): (r: State)
    ensures s.currentFish.Some? ==> 0.0 <= r.fishingProgress <= 1.0
    ensures r == s.(fishingProgress := r.fishingProgress)
    ensures s.currentFish.None? ==> r == s
  {
    if s.currentFish.None? then s
    else s.(fishingProgress := ProgressStep(s.fishingProgress, BalanceAccuracy(s.balancePosition, s.balanceTarget),
                                            s.currentFish.value.strength, dt))
  }

  function HandleReelBar(c: Config, s: State, f: Frame): (r: State)
    requires ValidConfig(c)
    ensures 0.0 <= r.reelPower <= c.maxReelPower
    ensures s.currentFish.Some? ==> 0.0 <= r.currentLineTension <= c.maxLineTension
    ensures r == s.(reelPower := r.reelPower, currentLineTension := r.currentLineTension)
    ensures s.currentFish.None? ==> r.currentLineTension == s.currentLineTension
  {
    var reel := ReelStep(s.reelPower, f.spaceHeld, c.reelGainSpeed, c.reelDecaySpeed, f.dt, c.maxReelPower);
    var t := s.(reelPower := reel);
    if s.currentFish.None? then t
    else t.(currentLineTension := TensionStep(s.currentLineTension, reel / c.maxReelPower, c.tensionIncreaseRate,
                                              c.tensionDecreaseRate, f.dt, s.currentFish.value.strength, c.maxLineTension))
  }

  function Handled(c: Config, s: State, f: Frame): (r: State)
    requires ValidConfig(c)
  {
    HandleReelBar(c, HandleBalanceBar(c, HandleFishingProgress(s, f.dt), f), f)
  }

  predicate Snapped(c: Config, s: State)
  {
    s.currentLineTension >= c.maxLineTension || (s.currentLineTension <= 0.0 && s.fishingProgress < 0.99)
  }

  /** A reeling frame: the handlers, the cancel check, then the catch check regardless of the cancel. */
  function Reeling(c: Config, s: State, f: Frame): (r: (State, Option<ItemData>))
    requires ValidConfig(c)
    ensures var h := Handled(c, s, f);
            h.fishingProgress >= 1.0 ==> r == CatchFish(c, if Snapped(c, h) then Cancel(h) else h)
    ensures var h := Handled(c, s, f);
            h.fishingProgress < 1.0 ==> r.1.None? && r.0 == (if Snapped(c, h) then Cancel(h) else h)
  {
    var h := Handled(c, s, f);
    var ended := if Snapped(c, h) then Cancel(h) else h;
    if ended.fishingProgress >= 1.0 then CatchFish(c, ended) else (ended, None)
  }

  /** The movement gate, moving-boat cancel and start guard, as in the newer machine. */
  function Gate(s: State, f: Frame): (r: State)
    ensures r.isThrowing && !s.isThrowing <==> f.boatMoving == Some(false) && !Active(s) && f.keyFDown
    ensures f.boatMoving != Some(false) ==> !Active(r)
    ensures f.boatMoving != Some(false) && Active(s) ==> r == Cancel(s)
    ensures f.boatMoving == Some(false) && Active(s) ==> r == s
  {
    if f.boatMoving != Some(false) then (if Active(s) then Cancel(s) else s)
    else if !Active(s) && f.keyFDown then StartThrowing(s, f.intervalDraw)
    else s
  }

  function Update(c: Config, s: State, f: Frame): (r: Outcome)
    requires ValidConfig(c) && PickInRange(c, f.fishPick)
    ensures f.boatMoving.Some? ==> r.movementEnabled == Some(!Active(s))
    ensures f.boatMoving.None? ==> r.movementEnabled.None?
    ensures r.caught.Some? ==> var g := Gate(s, f);
              g.isFishing && !g.isThrowing && !g.fishCaught && g.currentFish.Some? && r.caught == g.currentFish.value.itemData
    ensures f.boatMoving != Some(false) && Active(s) ==> r.state == Cancel(s) && r.caught.None?
    ensures f.boatMoving != Some(false) && !Active(s) && !(s.waitingToReel && f.spaceDown) ==> r.state == s && r.caught.None?
    ensures f.boatMoving == Some(false) && !s.isThrowing && !s.isFishing && s.fishBiteDetected && s.waitingToReel && f.spaceDown ==>
              r.state == BeginFishing(c, s, f.fishPick, f.beginTargetDraw) && r.caught.None?
    ensures f.boatMoving == Some(false) && s.isThrowing && !s.waitingToReel ==> r.state == HandleThrowing(c, s, f) && r.caught.None?
    ensures f.boatMoving == Some(false) && !Active(s) && f.keyFDown && !(s.waitingToReel && f.spaceDown) ==>
              r.state == HandleThrowing(c, StartThrowing(s, f.intervalDraw), f) && r.caught.None?
    ensures f.boatMoving == Some(false) && !Active(s) && !f.keyFDown && !(s.waitingToReel && f.spaceDown) ==>
              r.state == s && r.caught.None?
    ensures f.boatMoving == Some(false) && s.isFishing && !s.isThrowing && !s.fishCaught && !s.waitingToReel ==>
              r.state == Reeling(c, s, f).0 && r.caught == Reeling(c, s, f).1
  {
    var g := Gate(s, f);
    var phase := if g.isThrowing then (HandleThrowing(c, g, f), None)
                 else if g.isFishing && !g.fishCaught then Reeling(c, g, f)
                 else (g, None);
    var after := if phase.0.waitingToReel && f.spaceDown then BeginFishing(c, phase.0, f.fishPick, f.beginTargetDraw)
                 else phase.0;
    Outcome(after, if f.boatMoving.Some? then Some(!Active(s)) else None, phase.1)
  }

  /** A coroutine continues; the bite chance reads the throw power current at that moment. */
  function Resume(c: Config, s: State, k: int, value: real): (r: State)
    requires ValidConfig(c) && 0 <= k < |s.pending|
    ensures s.pending[k].BiteCheck? && value < BiteChance(s.throwPower, c.maxThrowPower) ==>
              r.fishBiteDetected && r.waitingToReel && r.pending == s.pending[..k] + s.pending[k + 1..] + [ReelWindow]
    ensures s.pending[k].BiteCheck? && value >= BiteChance(s.throwPower, c.maxThrowPower) ==>
              r == Cancel(s).(pending := s.pending[..k] + s.pending[k + 1..])
    ensures s.pending[k].ReelWindow? ==>
              r == (if s.waitingToReel then Cancel(s) else s).(pending := s.pending[..k] + s.pending[k + 1..])
  {
    var rest := s.pending[..k] + s.pending[k + 1..];
    var t := s.(pending := rest);
    match s.pending[k]
    case BiteCheck(_) =>
      if value < BiteChance(s.throwPower, c.maxThrowPower) then t.(fishBiteDetected := true, waitingToReel := true, pending := rest + [ReelWindow])
      else Cancel(t)
    case ReelWindow => if t.waitingToReel then Cancel(t) else t
  }

  // ---------------------------------------------------------------------
  // The state invariant
  // ---------------------------------------------------------------------

  predicate ReelInRange(c: Config, s: State)
  {
    && 0.0 <= s.fishingProgress <= 1.0
    && 0.0 <= s.reelPower <= c.maxReelPower
    && 0.0 <= s.currentLineTension <= c.maxLineTension
    && -1.0 <= s.balancePosition <= 1.0
  }

  predicate DelayInRange(p: Pending)
  {
    p.BiteCheck? ==> 0.5 <= p.delay <= 5.0
  }

  /**
   * What every state reached from a non-negative power satisfies: the power
   * stays on its bar whether or not a throw runs, the reeling meters stay on
   * theirs, a bite always waits for the reel-in, and queued delays lie in
   * [0.5, 5] seconds.
   */
  predicate Inv(c: Config, s: State)
  {
    && 0.0 <= s.throwPower <= c.maxThrowPower
    && (s.waitingToReel <==> s.fishBiteDetected)
    && (s.isFishing ==> ReelInRange(c, s))
    && (forall p :: p in s.pending ==> DelayInRange(p))
  }

  lemma ThrowingKeepsInv(c: Config, s: State, f: Frame)
    requires ValidConfig(c) && Inv(c, s)
    ensures Inv(c, HandleThrowing(c, s, f))
  {
    var r := HandleThrowing(c, s, f);
    forall p | p in r.pending
      ensures DelayInRange(p)
    {
      if p !in s.pending {
        assert p == BiteCheck(BiteDelay(c.throwDistance, r.throwPower));
      }
    }
  }

  lemma ReelingKeepsInv(c: Config, s: State, f: Frame)
    requires ValidConfig(c) && Inv(c, s) && s.isFishing
    ensures Inv(c, Reeling(c, s, f).0)
  {
    var h := Handled(c, s, f);
    assert Inv(c, h);
  }

  /** Every frame keeps the invariant, given a non-empty fish list. */
  lemma UpdateKeepsInv(c: Config, s: State, f: Frame)
    requires ValidConfig(c) && PickInRange(c, f.fishPick) && |c.fishList| > 0 && Inv(c, s)
    ensures Inv(c, Update(c, s, f).state)
  {
    var g := Gate(s, f);
    assert Inv(c, g);
    if g.isThrowing {
      ThrowingKeepsInv(c, g, f);
    } else if g.isFishing && !g.fishCaught {
      ReelingKeepsInv(c, g, f);
    }
  }

  /** Every coroutine continuation keeps the invariant. */
  lemma ResumeKeepsInv(c: Config, s: State, k: int, value: real)
    requires ValidConfig(c) && 0 <= k < |s.pending| && Inv(c, s)
    ensures Inv(c, Resume(c, s, k, value))
  {
    var rest := s.pending[..k] + s.pending[k + 1..];
    assert forall p :: p in rest ==> p in s.pending;
  }

  // ---------------------------------------------------------------------
  // Properties of the machine
  // ---------------------------------------------------------------------

  /**
   * The meter keeps bouncing: from a power on the bar moving either way, one
   * step lands on the bar with a direction of 1 or -1, heading down exactly
   * when it reached the top and up exactly when it reached the bottom.
   */
  lemma TriangleWave(power: real, direction: int, speed: real, dt: real, maxPower: real)
    requires maxPower > 0.0 && 0.0 <= power <= maxPower && (direction == 1 || direction == -1)
    ensures var moved := power + (direction as real) * speed * dt;
            var r := PowerStep(power, direction, speed, dt, maxPower);
            && (moved >= maxPower ==> r == (maxPower, -1))
            && (0.0 < moved < maxPower ==> r == (moved, direction))
            && (moved <= 0.0 ==> r == (0.0, 1))
    ensures var r := PowerStep(power, direction, speed, dt, maxPower);
            (r.1 == 1 || r.1 == -1)
            && (r.0 == maxPower ==> r.1 == -1)
            && (r.0 == 0.0 ==> r.1 == 1)
  {
  }

  /**
   * Any throw on the bar bites with a chance in [0.5, 0.8], the top of the
   * bar giving the best chance; the chance never falls as power grows.
   */
  lemma ChanceBounds(power: real, other: real, maxPower: real)
    requires maxPower > 0.0 && 0.0 <= power <= other <= maxPower
    ensures 0.5 <= BiteChance(power, maxPower) <= BiteChance(other, maxPower) <= 0.8
    ensures BiteChance(maxPower, maxPower) == 0.8
  {
    DivisionMonotone(power, other, maxPower);
    DivisionMonotone(other, maxPower, maxPower);
  }

  lemma DivisionMonotone(a: real, b: real, d: real)
    requires 0.0 <= a <= b && d > 0.0
    ensures a / d <= b / d
  {
    assert b / d - a / d == (b - a) / d;
  }

  /** A harder throw never waits longer for the bite, for a non-negative throw distance. */
  lemma HarderThrowBitesSooner(throwDistance: real, power: real, other: real)
    requires throwDistance >= 0.0 && 0.0 <= power <= other
    ensures BiteDelay(throwDistance, other) <= BiteDelay(throwDistance, power)
  {
    assert throwDistance / (other + 1.0) <= throwDistance / (power + 1.0) by {
      DivisionAntitone(throwDistance, power + 1.0, other + 1.0);
    }
  }

  lemma DivisionAntitone(n: real, a: real, b: real)
    requires n >= 0.0 && 0.0 < a <= b
    ensures n / b <= n / a
  {
  }

  /**
   * The older machine has no reel push: with no key held, only the fish's
   * pull moves the balance, by at most a tenth of the frame time, and a
   * neutral draw of 0.5 leaves it where it was.
   */
  lemma BalanceDriftWithoutInput(c: Config, s: State, f: Frame)
    requires s.currentFish.Some? && -1.0 <= s.balancePosition <= 1.0
    requires 0.0 <= s.currentFish.value.strength <= 1.0
    requires !f.keyA && !f.keyD && 0.0 <= f.influenceDraw <= 1.0 && f.dt >= 0.0
    ensures -0.1 * f.dt <= HandleBalanceBar(c, s, f).balancePosition - s.balancePosition <= 0.1 * f.dt
    ensures f.influenceDraw == 0.5 ==> HandleBalanceBar(c, s, f).balancePosition == s.balancePosition
  {
    var pull := FishPull(f.influenceDraw, s.currentFish.value.strength, f.dt);
    FishPullBounded(f.influenceDraw, s.currentFish.value.strength, f.dt);
    ClampStaysClose(s.balancePosition, pull, 0.1 * f.dt);
    var input := (if f.keyA then -c.balanceSensitivity else 0.0) + (if f.keyD then c.balanceSensitivity else 0.0);
    assert input == 0.0;
    assert input * f.dt * c.balanceSpeed == 0.0;
    assert HandleBalanceBar(c, s, f).balancePosition == Clamp(s.balancePosition + pull, -1.0, 1.0);
  }

  /** The fish's pull on the balance in one frame: a draw of Random.value scaled to [-1, 1], times strength, 0.1 and the frame time. */
  function FishPull(draw: real, strength: real, dt: real): real
  {
    (draw * 2.0 - 1.0) * strength * 0.1 * dt
  }

  /** The fish's pull in one frame: at most a tenth of the frame time either way, and none for a draw of 0.5. */
  lemma FishPullBounded(draw: real, strength: real, dt: real)
    requires 0.0 <= draw <= 1.0 && 0.0 <= strength <= 1.0 && dt >= 0.0
    ensures -(0.1 * dt) <= FishPull(draw, strength, dt) <= 0.1 * dt
    ensures draw == 0.5 ==> FishPull(draw, strength, dt) == 0.0
  {
    var k := draw * 2.0 - 1.0;
    var m := k * strength;
    UnitProduct(k, strength, 1.0);
    var bound := 0.1 * dt;
    UnitProduct(m, bound, bound);
    assert FishPull(draw, strength, dt) == m * bound;
    if draw == 0.5 {
      assert k == 0.0 && m == 0.0;
    }
  }

  /** Clamping to [-1, 1] never takes a value on the bar further from where it started. */
  lemma ClampStaysClose(b: real, d: real, bound: real)
    requires -1.0 <= b <= 1.0 && -bound <= d <= bound
    ensures -bound <= Clamp(b + d, -1.0, 1.0) - b <= bound
  {
  }

  /** A factor within [-1, 1] times a value within [0, bound] stays within the bound either way. */
  lemma UnitProduct(a: real, b: real, bound: real)
    requires -1.0 <= a <= 1.0 && 0.0 <= b <= bound
    ensures -bound <= a * b <= bound
  {
    if a >= 0.0 {
      assert b - a * b == (1.0 - a) * b;
      NonNegativeProduct(1.0 - a, b);
      NonNegativeProduct(a, b);
    } else {
      assert a * b + b == (a + 1.0) * b;
      NonNegativeProduct(a + 1.0, b);
      NonNegativeProduct(-a, b);
      assert (-a) * b == -(a * b);
    }
  }

  /** As in the newer machine, a line that snaps in the catching frame still lands the fish. */
  lemma SnapAndCatchSameFrame(c: Config, s: State, f: Frame)
    requires ValidConfig(c)
    requires Handled(c, s, f).currentLineTension >= c.maxLineTension
    requires Handled(c, s, f).fishingProgress >= 1.0
    ensures Reeling(c, s, f).0.fishCaught && !Active(Reeling(c, s, f).0)
    ensures Reeling(c, s, f).1 == CatchFish(c, Handled(c, s, f)).1
  {
  }
}

=== FILE: legacy_inventory_manager.dfy ===
/**
 * The older inventory of Assets/Script/InventoryManager.cs: a bare list of
 * slots with no active hand. Change callbacks are not modelled.
 */
module LegacyInventoryManager {
  import opened Wrappers
  import opened Items
  import opened InventorySlot
  import opened SlotList

  datatype Inventory = Inventory(slots: seq<Slot>)

  /**
   * Awake appends `inventorySize` default slots to whatever list the scene
   * serialized, even a non-empty one.
   */
  function Awake(serialized: seq<Slot>, inventorySize: int): (r: Inventory)
    ensures |r.slots| == |serialized| + (if inventorySize < 0 then 0 else inventorySize)
    ensures r.slots[..|serialized|] == serialized
    ensures forall j :: |serialized| <= j < |r.slots| ==> r.slots[j] == EmptySlot()
  {
    Inventory(serialized + EmptySlots(inventorySize))
  }

  /** AddItem: the shared first-fit placement, nothing more. */
  function AddItem(inv: Inventory, itemToAdd: Option<ItemData>, amount: int): (r: (Inventory, bool))
    ensures (r.0.slots, r.1) == Place(inv.slots, itemToAdd, amount)
  {
    var (slots, ok) := Place(inv.slots, itemToAdd, amount);
    (Inventory(slots), ok)
  }

  /**
   * RemoveItem: the shared withdrawal. The item may be null here, and then
   * an empty slot whose amount still covers `amount` is "removed" from.
   */
  function RemoveItem(inv: Inventory, itemToRemove: Option<ItemData>, amount: int): (r: (Inventory, bool))
    ensures r.1 <==> !NoneHolds(inv.slots, itemToRemove, amount)
    ensures r.0.slots == Withdraw(inv.slots, itemToRemove, amount).0
  {
    var (slots, taken) := Withdraw(inv.slots, itemToRemove, amount);
    (Inventory(slots), taken.Some?)
  }

  /** GetSlot: the slot at a valid index, null otherwise. */
  function GetSlot(inv: Inventory, index: int): (r: Option<Slot>)
    ensures r.Some? <==> 0 <= index < |inv.slots|
    ensures r.Some? ==> r.value == inv.slots[index]
  {
    if 0 <= index < |inv.slots| then Some(inv.slots[index]) else None
  }

  /** HasItem compares the amount summed over every slot of the item. */
  method HasItem(inv: Inventory, item: Option<ItemData>, amount: int) returns (r: bool)
    ensures r <==> Total(inv.slots, item) >= amount
  {
    var count := Count(inv.slots, item);
    r := count >= amount;
  }

  /** The slots Awake appends hold nothing, so every item keeps its total. */
  lemma AwakeKeepsTotals(serialized: seq<Slot>, inventorySize: int, item: Option<ItemData>)
    ensures Total(Awake(serialized, inventorySize).slots, item) == Total(serialized, item)
  {
    TotalAppend(serialized, EmptySlots(inventorySize), item);
    TotalOfEmptySlots(inventorySize, item);
  }

  /**
   * With the default size of 12 a second Awake on the same list doubles the
   * empty capacity: the older manager does not guard against a populated
   * list.
   */
  lemma AwakeTwiceGrows(serialized: seq<Slot>)
    ensures |Awake(Awake(serialized, 12).slots, 12).slots| == |serialized| + 24
  {
  }

  /**
   * A null RemoveItem of amount 0 succeeds on a default slot: the null item
   * matches the slot's null item and 0 >= 0.
   */
  lemma NullRemoveSucceeds()
    ensures RemoveItem(Inventory([EmptySlot()]), None, 0) == (Inventory([EmptySlot()]), true)
  {
    assert FirstHolding([EmptySlot()], 0, None, 0);
    assert [EmptySlot()][0 := Taken(EmptySlot(), 0)] == [EmptySlot()];
  }
}

=== FILE: random_spawner.dfy ===
/**
 * The collectible counter of Assets/Script/RandomSpawner.cs and the pickup
 * of Assets/Script/Inventory/CollectibleItem.cs. Only the routine checks
 * the cap; SpawnObject itself adds whenever it finds a spot. A pickup
 * reports its destruction to the spawner only when the inventory took the
 * item.
 */
module RandomSpawner {
  import opened Wrappers
  import opened Items
  import opened SpawnSearch
  import InventoryManager

  datatype Spawner = Spawner(maxObjectsInScene: int, currentObjectsCount: int)

  function Initial(maxObjectsInScene: int): (r: Spawner)
    ensures r.currentObjectsCount == 0 && r.maxObjectsInScene == maxObjectsInScene
  {
    Spawner(maxObjectsInScene, 0)
  }

  predicate WithinCap(s: Spawner)
  {
    s.currentObjectsCount <= s.maxObjectsInScene
  }

  /** SpawnObject: one more object exactly when a valid spot turns up; there is no cap check here. */
  method SpawnObject(s: Spawner, spots: seq<bool>) returns (r: Spawner)
    requires |spots| >= MaxAttempts
    ensures r == s.(currentObjectsCount := s.currentObjectsCount + (if SpotAvailable(spots) then 1 else 0))
    ensures s.currentObjectsCount >= s.maxObjectsInScene && SpotAvailable(spots) ==> !WithinCap(r)
  {
    var found, _ := FindSpot(spots);
    r := if found then s.(currentObjectsCount := s.currentObjectsCount + 1) else s;
  }

  /** One wake-up of SpawnRoutine: SpawnObject runs only below the cap, which keeps the count within it. */
  method RoutineWake(s: Spawner, spots: seq<bool>) returns (r: Spawner)
    requires |spots| >= MaxAttempts
    ensures s.currentObjectsCount >= s.maxObjectsInScene ==> r == s
    ensures s.currentObjectsCount < s.maxObjectsInScene ==>
              r == s.(currentObjectsCount := s.currentObjectsCount + (if SpotAvailable(spots) then 1 else 0))
    ensures WithinCap(s) ==> WithinCap(r)
  {
    r := s;
    if s.currentObjectsCount < s.maxObjectsInScene {
      r := SpawnObject(s, spots);
    }
  }

  /** OnObjectDestroyed: one object fewer. */
  function OnObjectDestroyed(s: Spawner): (r: Spawner)
    ensures r.currentObjectsCount == s.currentObjectsCount - 1 && r.maxObjectsInScene == s.maxObjectsInScene
    ensures WithinCap(s) ==> WithinCap(r)
  {
    s.(currentObjectsCount := s.currentObjectsCount - 1)
  }

  /**
   * CollectibleItem.Collect for a pickup made by `spawner` (None for one
   * placed in the scene): the item goes to the inventory, and only if it
   * was accepted is the pickup destroyed and the spawner told.
   */
  function Collect(inv: InventoryManager.Inventory, itemData: Option<ItemData>, itemAmount: int, spawner: Option<Spawner>)
    : (r: (InventoryManager.Inventory, Option<Spawner>, bool))
    ensures (r.0, r.2) == InventoryManager.AddItem(inv, itemData, itemAmount)
    ensures spawner.None? ==> r.1.None?
    ensures spawner.Some? ==> r.1.Some? && r.1.value.maxObjectsInScene == spawner.value.maxObjectsInScene
    ensures spawner.Some? ==>
              r.1.value.currentObjectsCount == spawner.value.currentObjectsCount - (if r.2 then 1 else 0)
  {
    var (inv2, added) := InventoryManager.AddItem(inv, itemData, itemAmount);
    var sp := if added && spawner.Some? then Some(OnObjectDestroyed(spawner.value)) else spawner;
    (inv2, sp, added)
  }

  /** A refused pickup (a null item, say) stays in the scene and keeps its place in the count. */
  lemma RefusedPickupStays(inv: InventoryManager.Inventory, itemAmount: int, s: Spawner)
    ensures Collect(inv, None, itemAmount, Some(s)) == (inv, Some(s), false)
  {
  }
}

=== FILE: slot_list.dfy ===
/**
 * The slot-list logic that both inventory managers share word for word
 * (Assets/Script/InventoryManager.cs and
 * Assets/Script/Inventory/InventoryManager.cs): the first-fit placement of
 * AddItem, the first-match withdrawal of RemoveItem and the summing loop of
 * HasItem.
 */
module SlotList {
  import opened Wrappers
  import opened Items
  import opened InventorySlot

  /** Index of the first slot satisfying `p`, or None when no slot does. */
  function FirstWhere(slots: seq<Slot>, p: Slot -> bool): (r: Option<nat>)
    ensures r.Some? ==> r.value < |slots| && p(slots[r.value])
    ensures r.Some? ==> forall j :: 0 <= j < r.value ==> !p(slots[j])
    ensures r.None? <==> forall j :: 0 <= j < |slots| ==> !p(slots[j])
  {
    if |slots| == 0 then None
    else if p(slots[0]) then Some(0)
    else
      match FirstWhere(slots[1..], p)
      case None => None
      case Some(k) => Some(k + 1)
  }

  /** Sum of the amounts of the slots whose item is `item` (null included). */
  function Total(slots: seq<Slot>, item: Option<ItemData>): int
  {
    if |slots| == 0 then 0
    else (if slots[0].itemData == item then slots[0].amount else 0) + Total(slots[1..], item)
  }

  /** A slot holding `item`: the scan predicate of RemoveItem. */
  predicate Holds(s: Slot, item: Option<ItemData>, amount: int)
  {
    s.itemData == item && s.amount >= amount
  }

  /** The stacking scan: a slot of this very item that can take `amount` more. */
  predicate Accepts(s: Slot, item: ItemData, amount: int)
  {
    s.itemData == Some(item) && CanAddAmount(s, amount)
  }

  /** `i` is the first slot that can take the stack. */
  predicate FirstAccepting(slots: seq<Slot>, i: int, item: ItemData, amount: int)
  {
    0 <= i < |slots| && Accepts(slots[i], item, amount)
    && forall j :: 0 <= j < i ==> !Accepts(slots[j], item, amount)
  }

  /** `i` is the first empty slot. */
  predicate FirstEmpty(slots: seq<Slot>, i: int)
  {
    0 <= i < |slots| && IsEmpty(slots[i]) && forall j :: 0 <= j < i ==> !IsEmpty(slots[j])
  }

  /** `i` is the first slot that alone holds `amount` of the item. */
  predicate FirstHolding(slots: seq<Slot>, i: int, item: Option<ItemData>, amount: int)
  {
    0 <= i < |slots| && Holds(slots[i], item, amount)
    && forall j :: 0 <= j < i ==> !Holds(slots[j], item, amount)
  }

  /** No single slot holds `amount` of the item. */
  predicate NoneHolds(slots: seq<Slot>, item: Option<ItemData>, amount: int)
  {
    forall j :: 0 <= j < |slots| ==> !Holds(slots[j], item, amount)
  }

  /** No slot is empty. */
  predicate Full(slots: seq<Slot>)
  {
    forall j :: 0 <= j < |slots| ==> !IsEmpty(slots[j])
  }

  /** No slot can take the stack (always so for a non-stackable item). */
  predicate NoStackAccepts(slots: seq<Slot>, item: ItemData, amount: int)
  {
    !item.isStackable || forall j :: 0 <= j < |slots| ==> !Accepts(slots[j], item, amount)
  }

  /** Every empty slot is a default slot. */
  predicate Tidy(slots: seq<Slot>)
  {
    forall j :: 0 <= j < |slots| && IsEmpty(slots[j]) ==> slots[j] == EmptySlot()
  }

  /** Every slot empty. */
  predicate AllEmpty(slots: seq<Slot>)
  {
    forall j :: 0 <= j < |slots| ==> IsEmpty(slots[j])
  }

  /** `n` default slots (none when `n` is not positive): the Awake loop. */
  function EmptySlots(n: int): (r: seq<Slot>)
    ensures |r| == if n < 0 then 0 else n
    ensures forall j :: 0 <= j < |r| ==> r[j] == EmptySlot()
  {
    if n <= 0 then [] else EmptySlots(n - 1) + [EmptySlot()]
  }

  /**
   * The two scans of AddItem. A null item fails. A stackable item first goes
   * onto the first stack of the same item that can take the whole amount;
   * failing that, the item and amount are written into the first empty
   * slot, uncapped by the stack size. With neither, it fails and nothing
   * changes.
   */
  function Place(slots: seq<Slot>, itemToAdd: Option<ItemData>, amount: int): (r: (seq<Slot>, bool))
    ensures itemToAdd.None? ==> r == (slots, false)
    ensures itemToAdd.Some? && itemToAdd.value.isStackable ==>
              forall i :: FirstAccepting(slots, i, itemToAdd.value, amount) ==>
                r == (slots[i := AddAmount(slots[i], amount)], true)
    ensures itemToAdd.Some? && NoStackAccepts(slots, itemToAdd.value, amount) ==>
              forall i :: FirstEmpty(slots, i) ==> r == (slots[i := Slot(itemToAdd, amount)], true)
    ensures itemToAdd.Some? && NoStackAccepts(slots, itemToAdd.value, amount) && Full(slots) ==> r == (slots, false)
    ensures |r.0| == |slots|
  {
    match itemToAdd
    case None => (slots, false)
    case Some(item) =>
      var stack := if item.isStackable then FirstWhere(slots, s => Accepts(s, item, amount)) else None;
      if stack.Some? then
        var i := stack.value;
        (slots[i := AddAmount(slots[i], amount)], true)
      else
        match FirstWhere(slots, s => IsEmpty(s))
        case Some(i) => (slots[i := Slot(Some(item), amount)], true)
        case None => (slots, false)
  }

  /** What RemoveItem leaves in the slot it takes from: cleared once it is empty. */
  function Taken(s: Slot, amount: int): (r: Slot)
    ensures IsEmpty(RemoveAmount(s, amount)) ==> r == EmptySlot()
    ensures !IsEmpty(RemoveAmount(s, amount)) ==> r.itemData == s.itemData && r.amount == s.amount - amount
  {
    var left := RemoveAmount(s, amount);
    if IsEmpty(left) then Clear(left) else left
  }

  /**
   * The withdrawal of RemoveItem: `amount` is taken from the first slot of
   * the item that alone holds at least that much, and that slot's index is
   * returned; when no single slot holds enough nothing changes.
   */
  function Withdraw(slots: seq<Slot>, item: Option<ItemData>, amount: int): (r: (seq<Slot>, Option<nat>))
    ensures r.1.None? <==> NoneHolds(slots, item, amount)
    ensures r.1.None? ==> r.0 == slots
    ensures r.1.Some? ==> FirstHolding(slots, r.1.value, item, amount)
    ensures r.1.Some? ==> r.0 == slots[r.1.value := Taken(slots[r.1.value], amount)]
  {
    match FirstWhere(slots, s => Holds(s, item, amount))
    case None => (slots, None)
    case Some(i) => (slots[i := Taken(slots[i], amount)], Some(i))
  }

  /** The summing loop of HasItem. */
  method Count(slots: seq<Slot>, item: Option<ItemData>) returns (count: int)
    ensures count == Total(slots, item)
  {
    count := 0;
    var i := 0;
    while i < |slots|
      invariant 0 <= i <= |slots|
      invariant count + Total(slots[i..], item) == Total(slots, item)
    {
      assert slots[i..][1..] == slots[i + 1..];
      if slots[i].itemData == item {
        count := count + slots[i].amount;
      }
      i := i + 1;
    }
  }

  /**
   * Replacing one slot changes the total of every item by what the new slot
   * contributes minus what the old one did.
   */
  lemma {:induction false} TotalUpdate(slots: seq<Slot>, i: nat, x: Slot, item: Option<ItemData>)
    requires i < |slots|
    ensures Total(slots[i := x], item)
         == Total(slots, item)
          - (if slots[i].itemData == item then slots[i].amount else 0)
          + (if x.itemData == item then x.amount else 0)
  {
    if i == 0 {
      assert slots[i := x][1..] == slots[1..];
    } else {
      assert slots[i := x][1..] == slots[1..][i - 1 := x];
      TotalUpdate(slots[1..], i - 1, x, item);
    }
  }

  /** One slot of `item` bounds the total from below when no slot of that item is negative. */
  lemma {:induction false} TotalAtLeastOne(slots: seq<Slot>, i: nat, item: Option<ItemData>)
    requires i < |slots| && slots[i].itemData == item
    requires forall j :: 0 <= j < |slots| && slots[j].itemData == item ==> slots[j].amount >= 0
    ensures Total(slots, item) >= slots[i].amount
  {
    if i == 0 {
      TotalNonNegative(slots[1..], item);
    } else {
      TotalAtLeastOne(slots[1..], i - 1, item);
    }
  }

  /** With no negative slot of `item`, its total is not negative. */
  lemma {:induction false} TotalNonNegative(slots: seq<Slot>, item: Option<ItemData>)
    requires forall j :: 0 <= j < |slots| && slots[j].itemData == item ==> slots[j].amount >= 0
    ensures Total(slots, item) >= 0
  {
    if |slots| > 0 {
      TotalNonNegative(slots[1..], item);
    }
  }

  /** Default slots add nothing to any item's total, the null item's included. */
  lemma {:induction false} TotalOfEmptySlots(n: int, item: Option<ItemData>)
    ensures Total(EmptySlots(n), item) == 0
  {
    if n > 0 {
      TotalOfEmptySlots(n - 1, item);
      TotalAppend(EmptySlots(n - 1), [EmptySlot()], item);
      assert [EmptySlot()][1..] == [];
    }
  }

  /** The total of a concatenation is the sum of the totals. */
  lemma {:induction false} TotalAppend(a: seq<Slot>, b: seq<Slot>, item: Option<ItemData>)
    ensures Total(a + b, item) == Total(a, item) + Total(b, item)
  {
    if |a| > 0 {
      assert (a + b)[1..] == a[1..] + b;
      TotalAppend(a[1..], b, item);
    } else {
      assert a + b == b;
    }
  }

  /**
   * On a tidy list a successful Place raises the total of the added item by
   * exactly `amount` and leaves every other item's total alone.
   */
  lemma PlaceTotals(slots: seq<Slot>, item: ItemData, amount: int, other: Option<ItemData>)
    requires Tidy(slots)
    requires other != Some(item)
    requires Place(slots, Some(item), amount).1
    ensures Total(Place(slots, Some(item), amount).0, Some(item)) == Total(slots, Some(item)) + amount
    ensures Total(Place(slots, Some(item), amount).0, other) == Total(slots, other)
  {
    var stack := if item.isStackable then FirstWhere(slots, s => Accepts(s, item, amount)) else None;
    if stack.Some? {
      var i := stack.value;
      TotalUpdate(slots, i, AddAmount(slots[i], amount), Some(item));
      TotalUpdate(slots, i, AddAmount(slots[i], amount), other);
    } else {
      match FirstWhere(slots, s => IsEmpty(s))
      case Some(i) =>
        TotalUpdate(slots, i, Slot(Some(item), amount), Some(item));
        TotalUpdate(slots, i, Slot(Some(item), amount), other);
      case None =>
    }
  }

  /** Place of a positive amount keeps a list tidy. */
  lemma PlaceKeepsTidy(slots: seq<Slot>, item: Option<ItemData>, amount: int)
    requires Tidy(slots) && amount > 0
    ensures Tidy(Place(slots, item, amount).0)
  {
  }

  /** Withdraw keeps a list tidy: an emptied slot is cleared. */
  lemma WithdrawKeepsTidy(slots: seq<Slot>, item: Option<ItemData>, amount: int)
    requires Tidy(slots)
    ensures Tidy(Withdraw(slots, item, amount).0)
  {
  }

  /** A successful Withdraw of a real item lowers its total by exactly `amount`. */
  lemma WithdrawTotal(slots: seq<Slot>, item: ItemData, amount: int)
    requires Withdraw(slots, Some(item), amount).1.Some?
    ensures Total(Withdraw(slots, Some(item), amount).0, Some(item)) == Total(slots, Some(item)) - amount
  {
    match FirstWhere(slots, s => Holds(s, Some(item), amount))
    case None =>
    case Some(i) =>
      TotalUpdate(slots, i, Taken(slots[i], amount), Some(item));
  }

  /**
   * A successful Withdraw implies that the summed total covers `amount`, as
   * long as no slot of the item holds a negative amount.
   */
  lemma WithdrawImpliesEnough(slots: seq<Slot>, item: Option<ItemData>, amount: int)
    requires forall j :: 0 <= j < |slots| && slots[j].itemData == item ==> slots[j].amount >= 0
    requires Withdraw(slots, item, amount).1.Some?
    ensures Total(slots, item) >= amount
  {
    match FirstWhere(slots, s => Holds(s, item, amount))
    case None =>
    case Some(i) =>
      TotalAtLeastOne(slots, i, item);
  }

  /**
   * The converse fails: a total that covers the amount spread over two
   * slots is not enough for Withdraw, which needs one slot holding it all.
   */
  lemma EnoughButWithdrawFails(fish: ItemData)
    ensures var slots := [Slot(Some(fish), 1), Slot(Some(fish), 1)];
            Total(slots, Some(fish)) == 2 && Withdraw(slots, Some(fish), 2) == (slots, None)
  {
    var slots := [Slot(Some(fish), 1), Slot(Some(fish), 1)];
    assert Total(slots[1..][1..], Some(fish)) == 0;
    assert Total(slots[1..], Some(fish)) == 1;
  }
}

=== FILE: spawn_search.dfy ===
/**
 * The spot search that Assets/Script/EnemySpawner.cs and
 * Assets/Script/RandomSpawner.cs share word for word: up to ten random
 * points in the spawn circle are tried, and the first one on the ground
 * layer is used. Each attempt's outcome (does the point overlap the layer?)
 * is an input, one per attempt.
 */
module SpawnSearch {

  const MaxAttempts: nat := 10

  /** One of the first MaxAttempts candidate points is valid. */
  predicate SpotAvailable(spots: seq<bool>)
  {
    exists i :: 0 <= i < |spots| && i < MaxAttempts && spots[i]
  }

  /**
   * The attempt loop. It stops at the first valid point, so `attempts` is
   * that point's position plus one, or MaxAttempts when none was valid.
   */
  method FindSpot(spots: seq<bool>) returns (found: bool, attempts: nat)
    requires |spots| >= MaxAttempts
    ensures found <==> SpotAvailable(spots)
    ensures 1 <= attempts <= MaxAttempts
    ensures found ==> spots[attempts - 1]
    ensures forall j :: 0 <= j < attempts - 1 ==> !spots[j]
    ensures !found ==> attempts == MaxAttempts
  {
    found := false;
    attempts := 0;
    while !found && attempts < MaxAttempts
      invariant 0 <= attempts <= MaxAttempts
      invariant found ==> attempts >= 1 && spots[attempts - 1]
      invariant forall j :: 0 <= j < attempts - (if found then 1 else 0) ==> !spots[j]
      decreases MaxAttempts - attempts, if found then 0 else 1
    {
      if spots[attempts] {
        found := true;
      }
      attempts := attempts + 1;
    }
  }
}

=== FILE: thunder_manager.dfy ===
/**
 * The capped thunder pool of Assets/Script/Cuaca/Petir/ThunderManager.cs.
 * A thunder object is its id, and a fresh id stands for a new
 * GameObject. Positions, the attack component and the random offsets are
 * not modelled. A destroyed thunder calls RemoveThunder from
 * ThunderInstance.OnDestroy (Assets/Script/Cuaca/Petir/ThunderInstance.cs).
 */
module ThunderManager {

  datatype Manager = Manager(activeThunders: seq<nat>, nextId: nat, maxActiveThunders: int)

  /** Ids are unique and below the next fresh id, and the list respects the cap. */
  predicate Valid(m: Manager)
  {
    && |m.activeThunders| <= m.maxActiveThunders
    && (forall i :: 0 <= i < |m.activeThunders| ==> m.activeThunders[i] < m.nextId)
    && (forall i, j :: 0 <= i < j < |m.activeThunders| ==> m.activeThunders[i] != m.activeThunders[j])
  }

  /** A new, empty manager with the given cap. */
  function Create(maxActiveThunders: int): (r: Manager)
    ensures maxActiveThunders >= 0 ==> Valid(r)
    ensures r.activeThunders == []
  {
    Manager([], 0, maxActiveThunders)
  }

  /** TriggerThunderStrike: one new thunder, only while the pool is under its cap. */
  function TriggerThunderStrike(m: Manager): (r: Manager)
    ensures |m.activeThunders| < m.maxActiveThunders ==> r.activeThunders == m.activeThunders + [m.nextId]
    ensures |m.activeThunders| >= m.maxActiveThunders ==> r == m
    ensures Valid(m) ==> Valid(r)
    ensures r.maxActiveThunders == m.maxActiveThunders
  {
    if |m.activeThunders| < m.maxActiveThunders then
      Manager(m.activeThunders + [m.nextId], m.nextId + 1, m.maxActiveThunders)
    else m
  }

  /** How many thunders a storm of `strikeCount` adds: the request, cut to the room left. */
  function Room(count: int, max: int, strikeCount: int): (r: int)
    ensures r >= 0
    ensures count <= max ==> count + r <= max
  {
    var room := if max - count > 0 then max - count else 0;
    var asked := if strikeCount > 0 then strikeCount else 0;
    if asked < room then asked else room
  }

  /**
   * TriggerThunderStorm: strikes until `strikeCount` are placed or the pool
   * is full, so it adds exactly the request cut to the room left.
   */
  method TriggerThunderStorm(m: Manager, strikeCount: int) returns (r: Manager)
    ensures |r.activeThunders| == |m.activeThunders| + Room(|m.activeThunders|, m.maxActiveThunders, strikeCount)
    ensures r.activeThunders[..|m.activeThunders|] == m.activeThunders
    ensures r.maxActiveThunders == m.maxActiveThunders
    ensures Valid(m) ==> Valid(r)
  {
    r := m;
    var i := 0;
    while i < strikeCount && |r.activeThunders| < r.maxActiveThunders
      invariant 0 <= i
      invariant strikeCount > 0 ==> i <= strikeCount
      invariant strikeCount <= 0 ==> i == 0
      invariant |r.activeThunders| == |m.activeThunders| + i
      invariant r.activeThunders[..|m.activeThunders|] == m.activeThunders
      invariant r.maxActiveThunders == m.maxActiveThunders
      invariant i > 0 ==> |r.activeThunders| <= m.maxActiveThunders
      invariant Valid(m) ==> Valid(r)
      decreases strikeCount - i
    {
      r := TriggerThunderStrike(r);
      i := i + 1;
    }
  }

  /** The list without the first occurrence of `t`; List.Remove. */
  function RemoveFirst(s: seq<nat>, t: nat): (r: seq<nat>)
    ensures t !in s ==> r == s
    ensures t in s ==> |r| == |s| - 1
    ensures forall x :: x in r ==> x in s
    ensures forall x :: x in s && x != t ==> x in r
  {
    if s == [] then []
    else if s[0] == t then s[1..]
    else [s[0]] + RemoveFirst(s[1..], t)
  }

  /** RemoveThunder: a tracked thunder leaves the pool; an untracked one changes nothing. */
  function RemoveThunder(m: Manager, t: nat): (r: Manager)
    ensures t !in m.activeThunders ==> r == m
    ensures t in m.activeThunders ==> |r.activeThunders| == |m.activeThunders| - 1
    ensures Valid(m) ==> Valid(r) && t !in r.activeThunders
    ensures forall x :: x in m.activeThunders && x != t ==> x in r.activeThunders
    ensures r.nextId == m.nextId && r.maxActiveThunders == m.maxActiveThunders
  {
    if t in m.activeThunders then
      RemoveFirstKeepsDistinct(m.activeThunders, t, m.nextId);
      m.(activeThunders := RemoveFirst(m.activeThunders, t))
    else m
  }

  /** ClearAllThunders: the pool is emptied; the fresh-id counter keeps counting. */
  function ClearAllThunders(m: Manager): (r: Manager)
    ensures r.activeThunders == []
    ensures r.nextId == m.nextId && r.maxActiveThunders == m.maxActiveThunders
    ensures m.maxActiveThunders >= 0 ==> Valid(r)
  {
    m.(activeThunders := [])
  }

  /** Removing from a list of distinct ids below `bound` keeps them distinct and below it, and leaves no copy of the removed id. */
  lemma {:induction false} RemoveFirstKeepsDistinct(s: seq<nat>, t: nat, bound: nat)
    ensures (forall i :: 0 <= i < |s| ==> s[i] < bound) ==>
            forall i :: 0 <= i < |RemoveFirst(s, t)| ==> RemoveFirst(s, t)[i] < bound
    ensures (forall i, j :: 0 <= i < j < |s| ==> s[i] != s[j]) ==>
            (forall i, j :: 0 <= i < j < |RemoveFirst(s, t)| ==> RemoveFirst(s, t)[i] != RemoveFirst(s, t)[j])
            && t !in RemoveFirst(s, t)
  {
    if s != [] {
      var tail := s[1..];
      RemoveFirstKeepsDistinct(tail, t, bound);
      if forall i, j :: 0 <= i < j < |s| ==> s[i] != s[j] {
        assert forall i, j :: 0 <= i < j < |tail| ==> tail[i] != tail[j] by {
          forall i, j | 0 <= i < j < |tail|
            ensures tail[i] != tail[j]
          {
            assert tail[i] == s[i + 1] && tail[j] == s[j + 1];
          }
        }
        assert s[0] !in tail by {
          forall k | 0 <= k < |tail|
            ensures tail[k] != s[0]
          {
            assert tail[k] == s[k + 1];
          }
        }
        if s[0] != t {
          var r := RemoveFirst(s, t);
          assert r == [s[0]] + RemoveFirst(tail, t);
          forall i, j | 0 <= i < j < |r|
            ensures r[i] != r[j]
          {
            if i == 0 {
              assert r[j] in RemoveFirst(tail, t);
            } else {
              assert r[i] == RemoveFirst(tail, t)[i - 1] && r[j] == RemoveFirst(tail, t)[j - 1];
            }
          }
        }
      }
    }
  }

  /**
   * Destroying a thunder runs RemoveThunder a second time from OnDestroy;
   * that second call changes nothing.
   */
  lemma RemoveThenOnDestroy(m: Manager, t: nat)
    requires Valid(m)
    ensures RemoveThunder(RemoveThunder(m, t), t) == RemoveThunder(m, t)
  {
    RemoveFirstKeepsDistinct(m.activeThunders, t, m.nextId);
  }

  /** The deferred OnDestroy calls after ClearAllThunders find nothing to remove. */
  lemma ClearThenOnDestroy(m: Manager, t: nat)
    ensures RemoveThunder(ClearAllThunders(m), t) == ClearAllThunders(m)
  {
  }

  /** A full pool refuses every strike until a thunder is removed. */
  lemma FullPoolRefuses(m: Manager)
    requires |m.activeThunders| >= m.maxActiveThunders
    ensures TriggerThunderStrike(m) == m
  {
  }

  /** Removing a tracked thunder from a full, valid pool makes room for exactly one new strike. */
  lemma RemovalFreesRoom(m: Manager, t: nat)
    requires Valid(m) && |m.activeThunders| == m.maxActiveThunders && t in m.activeThunders
    ensures var after := RemoveThunder(m, t);
            TriggerThunderStrike(after).activeThunders == after.activeThunders + [m.nextId]
    ensures var after := TriggerThunderStrike(RemoveThunder(m, t));
            TriggerThunderStrike(after) == after
  {
  }
}

=== FILE: upgrade_manager.dfy ===
/**
 * The harbour upgrades of Assets/Script/Upgrade/UpgradeManager.cs: two
 * levels with linear costs, paid from the purse and applied to the player
 * boat. The save store is a port. `store` is None when there is no save
 * manager, and otherwise holds the record it loads. The panel, the raycast
 * and the time scale are not modelled.
 */
module UpgradeManager {
  import opened Wrappers
  import opened SaveData
  import PlayerEconomy
  import BoatController

  datatype Settings = Settings(
    baseSpeedUpgradeCost: int,
    speedCostIncrease: int,
    speedIncreaseAmount: real,
    baseHealthUpgradeCost: int,
    healthCostIncrease: int,
    healthIncreaseAmount: int)

  /** The inspector defaults. */
  function DefaultSettings(): (r: Settings)
    ensures r.baseSpeedUpgradeCost == 100 && r.speedCostIncrease == 50 && r.speedIncreaseAmount == 0.5
    ensures r.baseHealthUpgradeCost == 150 && r.healthCostIncrease == 75 && r.healthIncreaseAmount == 10
  {
    Settings(100, 50, 0.5, 150, 75, 10)
  }

  datatype Manager = Manager(
    settings: Settings,
    speedLevel: int,
    healthLevel: int,
    speedCost: int,
    healthCost: int)

  /** The three singletons an upgrade touches. */
  datatype World = World(manager: Manager, gold: int, boat: BoatController.Boat)

  function SpeedCostAt(s: Settings, level: int): int
  {
    s.baseSpeedUpgradeCost + s.speedCostIncrease * level
  }

  function HealthCostAt(s: Settings, level: int): int
  {
    s.baseHealthUpgradeCost + s.healthCostIncrease * level
  }

  /** Each cost is its base plus the increment once per level bought. */
  predicate CostsFollowLevels(m: Manager)
  {
    m.speedCost == SpeedCostAt(m.settings, m.speedLevel) && m.healthCost == HealthCostAt(m.settings, m.healthLevel)
  }

  /** Awake sets both costs to their bases, whatever levels the inspector holds. */
  function Awake(settings: Settings, speedLevel: int, healthLevel: int): (r: Manager)
    ensures r.speedCost == settings.baseSpeedUpgradeCost && r.healthCost == settings.baseHealthUpgradeCost
    ensures speedLevel == 0 && healthLevel == 0 ==> CostsFollowLevels(r)
    ensures r.settings == settings && r.speedLevel == speedLevel && r.healthLevel == healthLevel
  {
    Manager(settings, speedLevel, healthLevel, settings.baseSpeedUpgradeCost, settings.baseHealthUpgradeCost)
  }

  /** SaveToGameData writes both levels and keeps the rest of the record. */
  function SaveToGameData(m: Manager, d: GameData): (r: GameData)
    ensures r.speedUpgradeLevel == m.speedLevel && r.healthUpgradeLevel == m.healthLevel
    ensures r.currentMoveSpeed == d.currentMoveSpeed && r.playerMaxHP == d.playerMaxHP
    ensures r.playerCurrentHP == d.playerCurrentHP
  {
    d.(speedUpgradeLevel := m.speedLevel, healthUpgradeLevel := m.healthLevel)
  }

  /** LoadFromGameData: null is ignored; otherwise the levels are read and both costs recomputed from them. */
  function LoadFromGameData(m: Manager, data: Option<GameData>): (r: Manager)
    ensures data.None? ==> r == m
    ensures data.Some? ==> r.speedLevel == data.value.speedUpgradeLevel && r.healthLevel == data.value.healthUpgradeLevel
    ensures data.Some? ==> CostsFollowLevels(r)
    ensures r.settings == m.settings
  {
    match data
    case None => m
    case Some(d) =>
      m.(speedLevel := d.speedUpgradeLevel, healthLevel := d.healthUpgradeLevel,
         speedCost := SpeedCostAt(m.settings, d.speedUpgradeLevel),
         healthCost := HealthCostAt(m.settings, d.healthUpgradeLevel))
  }

  /** After a purchase the record loaded from the store gets the manager's levels, then the boat's stats, and is saved. */
  function Persist(m: Manager, boat: BoatController.Boat, store: Option<GameData>): (r: Option<GameData>)
    ensures r.Some? <==> store.Some?
    ensures r.Some? ==> r.value.speedUpgradeLevel == m.speedLevel && r.value.healthUpgradeLevel == m.healthLevel
    ensures r.Some? ==> r.value.currentMoveSpeed == boat.moveSpeed && r.value.playerMaxHP == boat.maxHP
                        && r.value.playerCurrentHP == boat.currentHP
  {
    match store
    case None => None
    case Some(d) => Some(BoatController.SaveToGameData(boat, SaveToGameData(m, d)))
  }

  /**
   * UpgradeSpeed: with enough gold the current cost is paid, the boat gains
   * speed, the level rises by one and the cost is recomputed; otherwise
   * nothing happens and nothing is saved.
   */
  function UpgradeSpeed(w: World, store: Option<GameData>): (r: (World, Option<GameData>))
    ensures w.gold < w.manager.speedCost ==> r == (w, None)
    ensures w.gold >= w.manager.speedCost ==>
              && r.0.gold == w.gold - w.manager.speedCost
              && r.0.boat == BoatController.IncreaseMoveSpeed(w.boat, w.manager.settings.speedIncreaseAmount)
              && r.0.manager.speedLevel == w.manager.speedLevel + 1
              && r.0.manager.healthLevel == w.manager.healthLevel
              && r.0.manager.speedCost == SpeedCostAt(w.manager.settings, w.manager.speedLevel + 1)
              && r.0.manager.healthCost == w.manager.healthCost
              && r.1 == Persist(r.0.manager, r.0.boat, store)
    ensures r.0.manager.settings == w.manager.settings
  {
    var m := w.manager;
    if w.gold >= m.speedCost then
      var gold := PlayerEconomy.AddGold(w.gold, -m.speedCost);
      var boat := BoatController.IncreaseMoveSpeed(w.boat, m.settings.speedIncreaseAmount);
      var level := m.speedLevel + 1;
      var m2 := m.(speedLevel := level, speedCost := SpeedCostAt(m.settings, level));
      (World(m2, gold, boat), Persist(m2, boat, store))
    else (w, None)
  }

  /** UpgradeHealth: as UpgradeSpeed, raising the boat's maximum and current hull instead. */
  function UpgradeHealth(w: World, store: Option<GameData>): (r: (World, Option<GameData>))
    ensures w.gold < w.manager.healthCost ==> r == (w, None)
    ensures w.gold >= w.manager.healthCost ==>
              && r.0.gold == w.gold - w.manager.healthCost
              && r.0.boat == BoatController.IncreaseMaxHealth(w.boat, w.manager.settings.healthIncreaseAmount)
              && r.0.manager.healthLevel == w.manager.healthLevel + 1
              && r.0.manager.speedLevel == w.manager.speedLevel
              && r.0.manager.healthCost == HealthCostAt(w.manager.settings, w.manager.healthLevel + 1)
              && r.0.manager.speedCost == w.manager.speedCost
              && r.1 == Persist(r.0.manager, r.0.boat, store)
    ensures r.0.manager.settings == w.manager.settings
  {
    var m := w.manager;
    if w.gold >= m.healthCost then
      var gold := PlayerEconomy.AddGold(w.gold, -m.healthCost);
      var boat := BoatController.IncreaseMaxHealth(w.boat, m.settings.healthIncreaseAmount);
      var level := m.healthLevel + 1;
      var m2 := m.(healthLevel := level, healthCost := HealthCostAt(m.settings, level));
      (World(m2, gold, boat), Persist(m2, boat, store))
    else (w, None)
  }

  /** Every upgrade and every load keeps each cost equal to base plus increment times level. */
  lemma CostLawKept(w: World, store: Option<GameData>, data: Option<GameData>)
    requires CostsFollowLevels(w.manager)
    ensures CostsFollowLevels(UpgradeSpeed(w, store).0.manager)
    ensures CostsFollowLevels(UpgradeHealth(w, store).0.manager)
    ensures CostsFollowLevels(LoadFromGameData(w.manager, data))
  {
  }

  /**
   * An upgrade never leaves the purse negative: it pays only when the purse
   * covers the cost, and a refused one leaves the purse as it was.
   */
  lemma UpgradeNeverOverdraws(w: World, store: Option<GameData>)
    requires w.gold >= 0
    ensures UpgradeSpeed(w, store).0.gold >= 0 && UpgradeHealth(w, store).0.gold >= 0
  {
  }

  /**
   * Saving then loading restores both levels and the cost law, whatever the
   * manager loaded into held before.
   */
  lemma SaveLoadRoundTrip(m: Manager, other: Manager, d: GameData)
    requires other.settings == m.settings && CostsFollowLevels(m)
    ensures LoadFromGameData(other, Some(SaveToGameData(m, d))) == m
  {
  }

  /**
   * The record saved after a purchase, loaded back into the manager and the
   * boat, restores the levels, the costs and the boat's speed and hull.
   */
  lemma PurchaseSurvivesReload(w: World, d: GameData, other: BoatController.Boat)
    requires CostsFollowLevels(w.manager) && w.gold >= w.manager.speedCost
    ensures var (after, saved) := UpgradeSpeed(w, Some(d));
            && saved.Some?
            && LoadFromGameData(w.manager, saved) == after.manager
            && BoatController.LoadFromGameData(other, saved.value).moveSpeed == after.boat.moveSpeed
            && BoatController.LoadFromGameData(other, saved.value).maxHP == after.boat.maxHP
            && BoatController.LoadFromGameData(other, saved.value).currentHP == after.boat.currentHP
  {
  }
}

=== FILE: upgrade_system.dfy ===
/**
 * The level-capped upgrade panel of Assets/Script/Upgrade/UpgradeSystem.cs.
 * The cost is Mathf.RoundToInt(base * Mathf.Pow(multiplier, level)), a
 * floating-point formula; it enters here as an arbitrary function `cost`
 * of the upgrade type and the current level.
 */
module UpgradeSystem {
  import PlayerEconomy
  import BoatController

  datatype UpgradeType = Speed | Health

  datatype Settings = Settings(
    speedUpgradePercent: real,
    speedMaxLevel: int,
    healthUpgradeAmount: int,
    healthMaxLevel: int)

  datatype System = System(
    settings: Settings,
    speedLevel: int,
    healthLevel: int,
    currentType: UpgradeType)   // the panel's selection; the C# enum defaults to Speed

  function Level(sys: System, t: UpgradeType): int
  {
    if t == Speed then sys.speedLevel else sys.healthLevel
  }

  function MaxLevel(sys: System, t: UpgradeType): int
  {
    if t == Speed then sys.settings.speedMaxLevel else sys.settings.healthMaxLevel
  }

  /**
   * ShowUpgradeType selects a type and sets the button: it is interactable
   * exactly when the level is below the maximum and the purse covers the
   * cost of the next level.
   */
  function ShowUpgradeType(sys: System, t: UpgradeType, gold: int, cost: (UpgradeType, int) -> int): (r: (System, bool))
    ensures r.0 == sys.(currentType := t)
    ensures r.1 <==> Level(sys, t) < MaxLevel(sys, t) && gold >= cost(t, Level(sys, t))
  {
    var interactable := if Level(sys, t) >= MaxLevel(sys, t) then false else gold >= cost(t, Level(sys, t));
    (sys.(currentType := t), interactable)
  }

  /**
   * PerformUpgrade: with enough gold the cost of the selected type's level
   * is paid and the upgrade applied. Speed is multiplied by one plus the
   * percentage. Health is added to the hull directly and then once more
   * through IncreaseMaxHealth. The maximum level is not checked.
   */
  function PerformUpgrade(sys: System, gold: int, boat: BoatController.Boat, cost: (UpgradeType, int) -> int)
    : (r: (System, int, BoatController.Boat))
    ensures gold < cost(sys.currentType, Level(sys, sys.currentType)) ==> r == (sys, gold, boat)
    ensures gold >= cost(sys.currentType, Level(sys, sys.currentType)) ==>
              && r.1 == gold - cost(sys.currentType, Level(sys, sys.currentType))
              && Level(r.0, sys.currentType) == Level(sys, sys.currentType) + 1
              && r.0 == sys.(speedLevel := r.0.speedLevel, healthLevel := r.0.healthLevel)
    ensures sys.currentType == Speed && gold >= cost(Speed, sys.speedLevel) ==>
              r.2 == boat.(moveSpeed := boat.moveSpeed * (1.0 + sys.settings.speedUpgradePercent))
              && r.0.healthLevel == sys.healthLevel
    ensures sys.currentType == Health && gold >= cost(Health, sys.healthLevel) ==>
              r.2 == boat.(maxHP := boat.maxHP + 2 * sys.settings.healthUpgradeAmount,
                           currentHP := boat.currentHP + 2 * sys.settings.healthUpgradeAmount)
              && r.0.speedLevel == sys.speedLevel
  {
    var price := cost(sys.currentType, Level(sys, sys.currentType));
    if gold >= price then
      var paid := PlayerEconomy.AddGold(gold, -price);
      if sys.currentType == Speed then
        (sys.(speedLevel := sys.speedLevel + 1), paid,
         boat.(moveSpeed := boat.moveSpeed * (1.0 + sys.settings.speedUpgradePercent)))
      else
        var a := sys.settings.healthUpgradeAmount;
        var direct := boat.(maxHP := boat.maxHP + a, currentHP := boat.currentHP + a);
        (sys.(healthLevel := sys.healthLevel + 1), paid, BoatController.IncreaseMaxHealth(direct, a))
    else (sys, gold, boat)
  }

  /** An interactable button always leads to a purchase of the shown type. */
  lemma InteractableMeansPurchase(sys: System, t: UpgradeType, gold: int, boat: BoatController.Boat,
                                  cost: (UpgradeType, int) -> int)
    requires ShowUpgradeType(sys, t, gold, cost).1
    ensures var shown := ShowUpgradeType(sys, t, gold, cost).0;
            var r := PerformUpgrade(shown, gold, boat, cost);
            Level(r.0, t) == Level(sys, t) + 1 && Level(r.0, t) <= MaxLevel(sys, t)
            && r.1 == gold - cost(t, Level(sys, t)) && r.1 >= 0
  {
  }

  /**
   * Called directly at the maximum level, PerformUpgrade still charges and
   * raises the level past the maximum, although the panel shows the button
   * disabled.
   */
  lemma PerformUpgradeIgnoresMaxLevel(sys: System, gold: int, boat: BoatController.Boat, cost: (UpgradeType, int) -> int)
    requires Level(sys, sys.currentType) >= MaxLevel(sys, sys.currentType)
    requires gold >= cost(sys.currentType, Level(sys, sys.currentType))
    ensures !ShowUpgradeType(sys, sys.currentType, gold, cost).1
    ensures Level(PerformUpgrade(sys, gold, boat, cost).0, sys.currentType) > MaxLevel(sys, sys.currentType)
  {
  }

  /**
   * The maximum hull the panel announces as "Next" for a health upgrade:
   * the current maximum plus one healthUpgradeAmount.
   */
  function AnnouncedMaxHP(sys: System, boat: BoatController.Boat): (r: int)
    ensures r - boat.maxHP == sys.settings.healthUpgradeAmount
  {
    boat.maxHP + sys.settings.healthUpgradeAmount
  }

  /**
   * As written, a health upgrade moves both hull values by twice the amount,
   * so for any non-zero amount the new maximum differs from the one the
   * panel announced. A hull within its maximum stays within it.
   */
  lemma HealthUpgradeCountsTwice(sys: System, gold: int, boat: BoatController.Boat, cost: (UpgradeType, int) -> int)
    requires sys.currentType == Health && gold >= cost(Health, sys.healthLevel)
    requires boat.currentHP <= boat.maxHP
    ensures var b := PerformUpgrade(sys, gold, boat, cost).2;
            b.maxHP - boat.maxHP == 2 * sys.settings.healthUpgradeAmount
            && b.currentHP - boat.currentHP == 2 * sys.settings.healthUpgradeAmount
            && b.currentHP <= b.maxHP
    ensures sys.settings.healthUpgradeAmount != 0 ==>
              PerformUpgrade(sys, gold, boat, cost).2.maxHP != AnnouncedMaxHP(sys, boat)
  {
  }

  /**
   * PerformUpgrade as the panel describes it: the health branch raises the
   * hull once, through IncreaseMaxHealth; everything else is unchanged.
   */
  function PerformUpgradeIntended(sys: System, gold: int, boat: BoatController.Boat, cost: (UpgradeType, int) -> int)
    : (r: (System, int, BoatController.Boat))
    ensures sys.currentType == Speed ==> r == PerformUpgrade(sys, gold, boat, cost)
    ensures sys.currentType == Health ==>
              r.0 == PerformUpgrade(sys, gold, boat, cost).0 && r.1 == PerformUpgrade(sys, gold, boat, cost).1
  {
    var price := cost(sys.currentType, Level(sys, sys.currentType));
    if sys.currentType == Health && gold >= price then
      (sys.(healthLevel := sys.healthLevel + 1), PlayerEconomy.AddGold(gold, -price),
       BoatController.IncreaseMaxHealth(boat, sys.settings.healthUpgradeAmount))
    else PerformUpgrade(sys, gold, boat, cost)
  }

  /**
   * The corrected health upgrade delivers exactly the announced maximum,
   * heals by the same amount, and keeps a hull within its maximum.
   */
  lemma IntendedHealthMatchesPanel(sys: System, gold: int, boat: BoatController.Boat, cost: (UpgradeType, int) -> int)
    requires sys.currentType == Health && gold >= cost(Health, sys.healthLevel)
    ensures var b := PerformUpgradeIntended(sys, gold, boat, cost).2;
            b.maxHP == AnnouncedMaxHP(sys, boat)
            && b.currentHP - boat.currentHP == sys.settings.healthUpgradeAmount
            && (boat.currentHP <= boat.maxHP ==> b.currentHP <= b.maxHP)
  {
  }
}

=== FILE: world_time.dfy ===
/**
 * The world clock of Assets/Script/Hari/WorldTime.cs: a coroutine that adds
 * one minute, notifies its observers with the new time, waits a minute's
 * length and re-arms itself. The time is a TimeSpan; only its total minutes
 * matter here, so it is a natural number that never wraps.
 */
module WorldTime {

  /** WorldTimeConstants.MinutesInDay. WorldTimeConstants is not part of this model; a day has 24 * 60 minutes. */
  const MinutesInDay: nat := 1440

  /** TimeSpan.Hours: the hour-of-day component. */
  function Hours(totalMinutes: nat): (r: nat)
    ensures r < 24
  {
    (totalMinutes / 60) % 24
  }

  /** TimeSpan.Minutes: the minute-of-hour component. */
  function Minutes(totalMinutes: nat): (r: nat)
    ensures r < 60
  {
    totalMinutes % 60
  }

  /** The real-time seconds between two ticks. */
  function MinuteLength(dayLength: real): (r: real)
    ensures r * (MinutesInDay as real) == dayLength
  {
    dayLength / (MinutesInDay as real)
  }

  /** One AddMinute: the clock advances by a minute and the observers are given the advanced time. */
  function AddMinute(current: nat): (r: (nat, nat))
    ensures r.0 == current + 1
    ensures r.1 == r.0
  {
    (current + 1, current + 1)
  }

  /** The clock after `n` ticks from the zero TimeSpan. */
  function Run(n: nat): (r: nat)
  {
    if n == 0 then 0 else AddMinute(Run(n - 1)).0
  }

  /** The times handed to the observers by the first `n` ticks, in order. */
  function Notifications(n: nat): (r: seq<nat>)
    ensures |r| == n
  {
    if n == 0 then [] else Notifications(n - 1) + [AddMinute(Run(n - 1)).1]
  }

  /** The clock starts at zero and counts ticks exactly: it never skips, repeats or wraps. */
  lemma {:induction false} RunCountsTicks(n: nat)
    ensures Run(n) == n
  {
    if n > 0 {
      RunCountsTicks(n - 1);
    }
  }

  /** The k-th notification (from 0) carries minute k + 1, so the first one reads 00:01. */
  lemma {:induction false} NotificationsCountUp(n: nat)
    ensures forall k :: 0 <= k < n ==> Notifications(n)[k] == k + 1
  {
    if n > 0 {
      NotificationsCountUp(n - 1);
      RunCountsTicks(n - 1);
    }
  }

  /** A time and the same time a day later read the same hour and minute. */
  lemma SameClockFaceNextDay(t: nat)
    ensures Hours(t + MinutesInDay) == Hours(t) && Minutes(t + MinutesInDay) == Minutes(t)
  {
    assert (t + 1440) / 60 == t / 60 + 24;
    assert (t + 1440) % 60 == t % 60;
  }

  /** The clock face reads 00:00 exactly at whole days. */
  lemma MidnightIsWholeDay(t: nat)
    ensures Hours(t) == 0 && Minutes(t) == 0 <==> t % MinutesInDay == 0
  {
    var a := t / 1440;
    var b := t % 1440;
    assert t == 1440 * a + b;
    assert t / 60 == 24 * a + b / 60;
    assert t % 60 == b % 60;
    assert b / 60 < 24;
    assert Hours(t) == b / 60;
  }
}

=== FILE: world_time_watcher.dfy ===
/**
 * The hour:minute schedule of Assets/Script/Hari/WorldTimeWatcher.cs. On
 * every time change the first entry whose hour and minute equal the new
 * time's components runs its action, if it has one. An action is an opaque
 * number here.
 */
module WorldTimeWatcher {
  import opened Wrappers
  import WorldTime

  datatype Schedule = Schedule(hour: int, minute: int, action: Option<nat>)

  predicate Matches(s: Schedule, time: nat)
  {
    s.hour == WorldTime.Hours(time) && s.minute == WorldTime.Minutes(time)
  }

  /** The index of the first matching entry at or after `from`. */
  function FirstMatchFrom(schedule: seq<Schedule>, time: nat, from: nat): (r: Option<nat>)
    requires from <= |schedule|
    ensures r.Some? ==> from <= r.value < |schedule| && Matches(schedule[r.value], time)
                        && forall j :: from <= j < r.value ==> !Matches(schedule[j], time)
    ensures r.None? ==> forall j :: from <= j < |schedule| ==> !Matches(schedule[j], time)
    decreases |schedule| - from
  {
    if from == |schedule| then None
    else if Matches(schedule[from], time) then Some(from)
    else FirstMatchFrom(schedule, time, from + 1)
  }

  /** FirstOrDefault over the list: the first matching entry, or none. */
  function FirstMatch(schedule: seq<Schedule>, time: nat): (r: Option<nat>)
    ensures r.Some? ==> r.value < |schedule| && Matches(schedule[r.value], time)
                        && forall j :: 0 <= j < r.value ==> !Matches(schedule[j], time)
    ensures r.None? <==> forall j :: 0 <= j < |schedule| ==> !Matches(schedule[j], time)
  {
    FirstMatchFrom(schedule, time, 0)
  }

  /**
   * CheckSchedule: the action run for a time change. Only the first matching
   * entry is consulted: its action runs, and when it has none nothing runs,
   * even if a later matching entry has one.
   */
  function CheckSchedule(schedule: seq<Schedule>, time: nat): (r: Option<nat>)
    ensures r.Some? ==> exists i :: 0 <= i < |schedule| && Matches(schedule[i], time) && schedule[i].action == r
    ensures (forall j :: 0 <= j < |schedule| ==> !Matches(schedule[j], time)) ==> r.None?
    ensures forall i :: (0 <= i < |schedule| && Matches(schedule[i], time)
                         && forall j :: 0 <= j < i ==> !Matches(schedule[j], time)) ==> r == schedule[i].action
  {
    match FirstMatch(schedule, time)
    case None => None
    case Some(i) => schedule[i].action
  }

  /** A later entry with the same hour and minute as an earlier one never runs. */
  lemma ShadowedEntryNeverFires(schedule: seq<Schedule>, i: nat, j: nat, time: nat)
    requires i < j < |schedule|
    requires schedule[i].hour == schedule[j].hour && schedule[i].minute == schedule[j].minute
    ensures FirstMatch(schedule, time) != Some(j)
  {
  }

  /** Matching reads only the clock face, so every entry recurs once a day. */
  lemma ScheduleRecursDaily(schedule: seq<Schedule>, time: nat)
    ensures CheckSchedule(schedule, time + WorldTime.MinutesInDay) == CheckSchedule(schedule, time)
  {
    WorldTime.SameClockFaceNextDay(time);
    assert forall k :: 0 <= k < |schedule| ==>
      (Matches(schedule[k], time + WorldTime.MinutesInDay) <==> Matches(schedule[k], time));
    SameMatchesSameResult(schedule, time, time + WorldTime.MinutesInDay, 0);
  }

  lemma {:induction false} SameMatchesSameResult(schedule: seq<Schedule>, t: nat, u: nat, from: nat)
    requires from <= |schedule|
    requires forall k :: 0 <= k < |schedule| ==> (Matches(schedule[k], t) <==> Matches(schedule[k], u))
    ensures FirstMatchFrom(schedule, t, from) == FirstMatchFrom(schedule, u, from)
    decreases |schedule| - from
  {
    if from < |schedule| {
      SameMatchesSameResult(schedule, t, u, from + 1);
    }
  }

  /** An entry whose hour lies outside 0..23 or minute outside 0..59 never runs. */
  lemma OutOfRangeEntryNeverFires(schedule: seq<Schedule>, j: nat, time: nat)
    requires j < |schedule|
    requires !(0 <= schedule[j].hour < 24 && 0 <= schedule[j].minute < 60)
    ensures FirstMatch(schedule, time) != Some(j)
  {
  }
}

=== FILE: wrappers.dfy ===
/** Option stands for a C# reference that may be null. */
module Wrappers {

  datatype Option<+T> = None | Some(value: T)
}
